=== FILE: README.md ===
# s21 containers, modelled in Dafny

A model of the header-only container library `s21` (namespace `s21`). It
covers the following parts:

- **The search tree** `s21::tree<T, AllowDuplicates>`. This is an unbalanced
  binary search tree with a `size_` counter. Equal keys go right when
  duplicates are allowed.
- **The tree's adapters.** `map` is a tree of key/value nodes that compare by
  key. `set` is a tree without duplicates. `multiset` is a tree with
  duplicates.
- **The doubly linked `list`**, including its `end()` quirk: `end()` returns
  the tail node, not a past-the-end position.
- **The list's adapters**, `stack` and `queue`.
- **The growable `vector`**, with its capacity and its doubling growth rule.
- **`array<T, N>`**, which is built on a vector.

## How the model is built

- **Values.** Containers are immutable values, and every operation returns
  the new value.
- **Trees.** A tree is an inductive `Tree<V>`. Each node carries an `int` key
  and a payload `V`: the mapped value for a map, `()` otherwise.
- **Tree iterators.** An iterator is a `Cursor`: either a path of left/right
  steps from the root, or `End` for the null iterator.
- **Lists.** A list is a `seq`. An iterator is an index, and the length plays
  the role of the null pointer.
- **Vectors.** A vector is `Vector(elems, capacity, buffer)`. `buffer` records
  whether `arr_` is non-null.
- **Arrays.** An array is the sequence of its `N` slots.
- **Errors.** A thrown `std::out_of_range` or `std::length_error` becomes
  `Err(OutOfRange)` or `Err(LengthError)` of a `Result`.
- **Undefined behaviour.** Where the code dereferences a null or dangling
  pointer instead of throwing, the model states a precondition.

| file | module | what |
|---|---|---|
| wrappers.dfy | Wrappers | `Option`, `Result`, the two exception kinds |
| seqorder.dfy | SeqOrder | ascending sequences, first index of a key, removal at an index |
| tree.dfy | Bst | nodes, in-order keys and entries, `insertHelper`, `findHelper`, `eraseHelper` |
| treeiter.dfy | BstIter | `begin()` and `operator++` on paths, with their in-order positions |
| treelookup.dfy | BstLookup | the payload a key leads to, and how insert, erase and assignment change it |
| treecontainer.dfy | BstContainer | the tree object: `size_`, insert, erase, copy, move, merge |
| treemap.dfy | TreeMap | `s21::map` |
| treeset.dfy | TreeSet | `s21::set` |
| treemultiset.dfy | TreeMultiset | `s21::multiset` |
| list.dfy | List | `s21::list` |
| stack.dfy | Stack | `s21::stack` |
| queue.dfy | Queue | `s21::queue` |
| vector.dfy | Vector | `s21::vector` |
| array.dfy | Array | `s21::array` |

## Model

| member | source | states |
|---|---|---|
| Bst.InsertNode | src/include/s21_tree.h:221-235 | A node is created exactly when the key multiset grows by the key; otherwise the tree is returned unchanged |
| Bst.InsertOrdered | src/include/s21_tree.h:221-235 | Insertion keeps the search-tree order (left below, right above or equal with duplicates). A node is created iff duplicates are allowed or the key is absent |
| Bst.InsertKeepsPath | src/include/s21_tree.h:221-235 | Insertion only hangs a new leaf: every existing node keeps its path, key and payload, so iterators stay valid |
| Bst.OrderedKeysSorted | src/include/s21_tree.h:227-233 | The order invariant makes the in-order keys ascending, and strictly ascending without duplicates |
| Bst.IndexHoldsKey | src/include/s21_tree.h:76 | Dereferencing the node at a path yields the in-order key and entry at that node's position |
| Bst.Find | src/include/s21_tree.h:237-246 | The `findHelper` descent stops only at a node holding the key, so a non-null result leads to such a node; a key absent from the tree gives null, ordered or not |
| Bst.FindCorrect | src/include/s21_tree.h:237-246 | `find` yields null iff the key is absent; otherwise it reaches a node holding the key, and that node is the key's first in-order occurrence (also with duplicates) |
| Bst.Min | src/include/s21_tree.h:279-280 | The leftmost node, the successor used by erase, holds the first in-order entry |
| Bst.EraseKey | src/include/s21_tree.h:259-294 | `eraseHelper` removes at most one node, and a key absent from the tree leaves it as it was |
| Bst.EraseKeyCorrect | src/include/s21_tree.h:259-294 | Erase keeps the order and removes the first in-order occurrence of the key from both the key sequence and the entry sequence; an absent key leaves the tree as it was |
| BstIter.Leftmost | src/include/s21_tree.h:146-151 | The left-spine walk of `begin()` (and of `operator++` inside a right subtree) takes only left steps and ends at a node with no left child |
| BstIter.Begin | src/include/s21_tree.h:146-151 | `begin()` is a valid iterator at in-order position 0 (null for an empty tree) |
| BstIter.Ascend | src/include/s21_tree.h:82-88 | The parent climb passes only right steps and stops at the parent of the deepest left step on the path; it yields null exactly when the path has no left step |
| BstIter.AscendPosition | src/include/s21_tree.h:82-88 | Climbing while coming from a right child lands just past the subtree that was left: on the next in-order position, or on null |
| BstIter.Next | src/include/s21_tree.h:77-91 | `operator++` on a valid iterator yields a node or null, never a dangling path; on null it does nothing |
| BstIter.NextPosition | src/include/s21_tree.h:77-91 | `operator++` moves a valid iterator to the next in-order position; after the last element it yields null |
| BstIter.Traverse | src/include/s21_tree.h:146-160 | Walking from `begin()` with `operator++` until null visits exactly the in-order key sequence |
| BstLookup.Lookup | src/include/s21_map.h:118-125 | A successful lookup's key is present, and the value it returns is the payload of an entry with that key |
| BstLookup.LookupFind | src/include/s21_tree.h:237-246 | A lookup succeeds exactly when `find` yields a node, and returns that node's payload |
| BstLookup.LookupPresent | src/include/s21_tree.h:237-246 | In an ordered tree a lookup fails exactly when the key is absent |
| BstLookup.LookupEntries | src/include/s21_map.h:206-218 | With key-only comparisons and no duplicates, the lookup of k returns v iff (k, v) is one of the entries |
| BstLookup.LookupInsert | src/include/s21_tree.h:221-235 | Insertion changes the lookup of the inserted key only, and only when it was absent |
| BstLookup.LookupMin | src/include/s21_tree.h:279-280 | Looking up the smallest key yields the payload that the two-children erase promotes |
| BstLookup.LookupErase | src/include/s21_tree.h:259-294 | In a map-shaped tree, erasing a key removes its lookup and keeps every other lookup |
| BstLookup.Assign | src/include/s21_map.h:166 | Writing a payload through `find` keeps the key sequence |
| BstLookup.AssignOrdered | src/include/s21_map.h:166 | Writing a payload keeps the search-tree order |
| BstLookup.LookupAssign | src/include/s21_map.h:166 | Writing a payload changes only the lookup of that key, and only when the key is present |
| BstContainer.Empty | src/include/s21_tree.h:17 | The default tree is valid, with no keys and `size_` 0 |
| BstContainer.Insert | src/include/s21_tree.h:63-67 | `insert` keeps the invariant. `size_` grows by one exactly when a node was created, and a node is created iff duplicates are allowed or the key is absent |
| BstContainer.InsertKeepsPaths | src/include/s21_tree.h:63-67 | After `insert`, every earlier iterator still leads to the same key and payload |
| BstContainer.InsertAll | src/include/s21_tree.h:24-29 | Inserting items in turn keeps the invariant; with duplicates the keys are the old ones plus all items; in any case the members are the old ones or the items |
| BstContainer.InsertAllAppend | src/include/s21_tree.h:24-29 | Inserting a + b equals inserting a and then b |
| BstContainer.FromList | src/include/s21_tree.h:24-29 | The initializer-list constructor holds exactly the items (as a multiset with duplicates, as a set without) |
| BstContainer.EraseAt | src/include/s21_tree.h:167-170 | `erase(pos)` keeps the invariant. It removes the first in-order occurrence of `*pos` from the keys and the entries, and decrements `size_` |
| BstContainer.Copy | src/include/s21_tree.h:296-302 | The recursive node copy reproduces the tree |
| BstContainer.CopyOf | src/include/s21_tree.h:18 | The copy constructor yields an equal tree with the same `size_` |
| BstContainer.MoveFrom | src/include/s21_tree.h:19-22 | The move constructor takes the nodes and leaves the source empty with `size_` 0 |
| BstContainer.Merge | src/include/s21_tree.h:186-206 | Merging keeps both trees valid |
| BstContainer.MergeWalk | src/include/s21_tree.h:189-205 | Every step of the merge loop over `other`'s entries keeps both trees ordered with `size_` equal to their node counts |
| BstContainer.MergeKeys | src/include/s21_tree.h:186-206 | Merge moves exactly one node for every distinct key of `other` that this tree lacks. With duplicates, further copies of that key stay in `other`. Total size is preserved |
| BstContainer.MergeMembers | src/include/s21_tree.h:186-206 | Without duplicates, this tree ends with the union of the keys and `other` with the keys both held |
| BstContainer.MergeLookup | src/include/s21_tree.h:186-206 | Without duplicates, keys this tree had keep their values, and the others take `other`'s values. `other` keeps only the keys this tree already had |
| BstContainer.MergeSelf | src/include/s21_tree.h:187 | Merging a tree with itself changes nothing |
| TreeMap.Initial | src/include/s21_map.h:24-28 | Reference meaning of a list of pairs: a key is present iff some pair has it, and its value comes from a pair with that key |
| TreeMap.InitialCons | src/include/s21_map.h:24-28 | The first pair decides its key; every other key is decided by the remaining pairs |
| TreeMap.LookupInsertAll | src/include/s21_map.h:24-28 | After inserting pairs in turn, keys already present keep their values, and every other key takes the value of its first pair |
| TreeMap.FromList | src/include/s21_map.h:24-28 | The initializer-list map looks up, for every key, the value of the first pair with that key |
| TreeMap.Contains | src/include/s21_map.h:193-196 | `contains` holds iff a lookup succeeds, iff the key is present |
| TreeMap.At | src/include/s21_map.h:118-125 | `at` throws `out_of_range` exactly for an absent key and otherwise returns the mapped value |
| TreeMap.LookupAfterInsert | src/include/s21_map.h:150-159 | Inserting a pair changes exactly one lookup, and only when the key was absent |
| TreeMap.Insert | src/include/s21_map.h:138-148 | The flag is true iff the key was absent; only that key's lookup changes; `size` follows the flag; an existing key leaves the map unchanged; the iterator leads to the key and its current value; earlier iterators stay valid |
| TreeMap.FindAssign | src/include/s21_map.h:166 | Writing a value leaves every `find` result where it was |
| TreeMap.LookupAfterAssign | src/include/s21_map.h:166 | Writing a value changes only the lookup of that key |
| TreeMap.InsertOrAssign | src/include/s21_map.h:161-173 | Afterwards the key maps to the new value and every other lookup is unchanged. The flag says whether the key was new, `size` grows only then, and the iterator leads to the key with the new value |
| TreeMap.Subscript | src/include/s21_map.h:127-134 | `operator[]` yields the key's value. A present key leaves the map unchanged; an absent key is inserted with the default value and `size` grows by one |
| TreeMap.LookupAfterErase | src/include/s21_map.h:175-178 | Erasing a key's node removes exactly that key's lookup |
| TreeMap.Erase | src/include/s21_map.h:175-178 | `erase(end())` does nothing. Otherwise the key under the iterator loses its lookup, the others keep theirs, and `size` drops by one |
| TreeMap.InsertMany | src/include/s21_map.h:198-203 | `insert_many` keeps a valid map and returns one result per pair |
| TreeMap.InsertManyTree | src/include/s21_map.h:198-203 | The resulting map is the one that inserting the pairs in turn gives |
| TreeMap.InsertManyLookup | src/include/s21_map.h:198-203 | Afterwards, keys already present keep their values and every other key takes the value of its first pair |
| TreeMap.InsertManyLeads | src/include/s21_map.h:198-203 | Every returned iterator leads to its pair's key in the final map |
| TreeMap.InsertManyFlags | src/include/s21_map.h:198-203 | A returned flag is true iff neither the map nor an earlier pair had the key |
| TreeSet.FromList | src/include/s21_set.h:20 | The initializer-list set holds exactly the items' values, in strictly ascending order |
| TreeSet.Contains | src/include/s21_set.h:58 | `contains` holds iff the value is an element |
| TreeSet.Insert | src/include/s21_set.h:41-49 | The flag is true iff the value was absent. The elements become the old ones plus the value, `size` follows the flag, and the iterator leads to the value; earlier iterators stay valid |
| TreeSet.Erase | src/include/s21_set.h:51 | `erase(pos)` removes exactly the element under `pos` and decrements `size` |
| TreeSet.EraseMembers | src/include/s21_set.h:51 | After erasing the node at a path, the members are the old ones except that node's key |
| TreeSet.InsertMany | src/include/s21_set.h:60-65 | The elements become the old ones plus the items. Each iterator leads to its item, and a flag is true iff the item was neither in the set nor earlier in the list |
| TreeMultiset.FromList | src/include/s21_multiset.h:22-26 | The initializer-list multiset holds every item with its multiplicity |
| TreeMultiset.Insert | src/include/s21_multiset.h:67-70 | `insert` always adds one copy and grows `size`. The returned iterator (from `find`) leads to the first copy of the value; earlier iterators stay valid |
| TreeMultiset.Erase | src/include/s21_multiset.h:72 | `erase(pos)` removes one copy of `*pos` and decrements `size` |
| TreeMultiset.Contains | src/include/s21_multiset.h:95-98 | `contains` holds iff the value occurs at least once |
| TreeMultiset.Count | src/include/s21_multiset.h:100-108 | Counting from `find(key)` with `operator++` while the element equals the key gives the multiplicity of the key |
| TreeMultiset.CountStep | src/include/s21_multiset.h:103-106 | One counting step: an iterator on the key steps to the next position and the run of copies grows by one |
| TreeMultiset.CountDone | src/include/s21_multiset.h:103-107 | The counting loop stops exactly after the last copy, so the count equals the multiplicity |
| TreeMultiset.RunOfKey | src/include/s21_multiset.h:103-107 | In sorted order the copies of a key form one run, starting at its first index, whose length is the multiplicity |
| TreeMultiset.LowerBound | src/include/s21_multiset.h:110-116 | `lower_bound` stops at the first position whose element is not below the key, or null |
| TreeMultiset.UpperBound | src/include/s21_multiset.h:126-132 | `upper_bound` stops at the first position whose element is above the key, or null |
| TreeMultiset.EqualRange | src/include/s21_multiset.h:142-144 | The two bounds enclose exactly the copies of the key, and their distance is its multiplicity |
| TreeMultiset.EraseAll | src/include/s21_multiset.h:74-85 | `erase(key)` removes every copy of the key and returns their number; every other element stays; `size` drops by the count |
| TreeMultiset.EraseFirstOf | src/include/s21_multiset.h:76-80 | Erasing the node `find` yields removes the first in-order copy of the key and decrements `size` |
| TreeMultiset.EraseRunCorrect | src/include/s21_multiset.h:77-84 | From the first copy, the erase loop removes all copies, counts them, and keeps every other element |
| TreeMultiset.EraseRunStep | src/include/s21_multiset.h:78-81 | After one erase, the next copy of the key, if any, is at the iterator's position again, and exactly one copy has gone |
| TreeMultiset.NextCopy | src/include/s21_multiset.h:78-81 | In ascending order, removing the first copy of a key leaves its next copy, if any, at the same position |
| TreeMultiset.InsertMany | src/include/s21_multiset.h:151-156 | `insert_many` adds every item with its multiplicity. Every flag is true, and every iterator leads to its item |
| List.End | src/include/s21_list.h:104 | `end()` is the tail node, i.e. position size-1, or null for an empty list |
| List.PushBack | src/include/s21_list.h:118-127 | `push_back` appends one element; `back()` then yields it and `pop_back()` undoes it |
| List.PushFront | src/include/s21_list.h:107-116 | `push_front` prepends one element; `front()` then yields it and `pop_front()` undoes it |
| List.PopBack | src/include/s21_list.h:128-142 | `pop_back` throws `out_of_range` exactly on an empty list and otherwise drops the last element |
| List.PopFront | src/include/s21_list.h:171-185 | `pop_front` throws `out_of_range` exactly on an empty list and otherwise drops the first element |
| List.Front | src/include/s21_list.h:146-157 | `front` throws `out_of_range` exactly on an empty list, otherwise yields the first element |
| List.Back | src/include/s21_list.h:158-169 | `back` throws `out_of_range` exactly on an empty list, otherwise yields the last element |
| List.PushAll | src/include/s21_list.h:25-37 | The constructors' `push_back` loops keep the existing elements as a prefix and add exactly one element per item |
| List.PushAllAppends | src/include/s21_list.h:25-30 | Pushing items at the back one by one appends them in order |
| List.Zeros | src/include/s21_list.h:20-24 | `list(n)` holds n zeros |
| List.FromList | src/include/s21_list.h:25-30 | The initializer-list constructor holds the items in order |
| List.Copy | src/include/s21_list.h:31-37 | The copy constructor reproduces the list |
| List.InsertManyBack | src/include/s21_list.h:376-382 | `insert_many_back` keeps the old elements and then the items, in order |
| List.Clear | src/include/s21_list.h:186-190 | Popping from the front until empty leaves an empty list |
| List.Move | src/include/s21_list.h:38-42 | The move constructor takes the elements and leaves the source empty |
| List.MoveAssign | src/include/s21_list.h:44-56 | Move assignment takes the source's elements and empties the source; self-assignment changes nothing |
| List.Swap | src/include/s21_list.h:229-233 | `swap`, made of three moves, exchanges the two lists |
| List.At | src/include/s21_list.h:192-200 | `at(i)` yields position i when in range, and `end()` (the tail, or null) otherwise |
| List.Insert | src/include/s21_list.h:202-209 | `insert(pos, v)` places v before pos and returns its position; erasing it gives back the old list |
| List.Erase | src/include/s21_list.h:211-227 | `erase(pos)` removes exactly the element at pos, keeping the others in order |
| List.SwapElements | src/include/s21_list.h:235-239 | Exchanging two nodes' data exchanges the two values, leaves every other position alone and permutes the list |
| List.Splice | src/include/s21_list.h:317-346 | `splice` puts `other`'s elements before pos and empties `other`. Splicing a list into itself, or splicing an empty list, changes nothing |
| List.InsertMany | src/include/s21_list.h:358-366 | `insert_many(pos, ...)` places the items, in order, before pos and returns the position of the first one |
| List.InsertManyFront | src/include/s21_list.h:368-374 | `insert_many_front` puts the items, in order, before the old elements |
| List.Reversed | src/include/s21_list.h:253-265 | Reference reversal: it keeps the length |
| List.ReversedIndex | src/include/s21_list.h:253-265 | Position k of the reversal holds element n-1-k |
| List.ReversedTwice | src/include/s21_list.h:253-265 | Reversing twice gives the list back |
| List.ReversedAppend | src/include/s21_list.h:253-265 | Reversing a concatenation concatenates the reversals in the other order |
| List.Reverse | src/include/s21_list.h:253-265 | The two-iterator swap loop (from `begin()` and from the tail) yields exactly the reversal |
| List.Dedup | src/include/s21_list.h:267-284 | Reference "unique": it is no longer than the list and keeps the first and the last element |
| List.DedupNoRepeats | src/include/s21_list.h:267-284 | After unique no two neighbours are equal |
| List.DedupMembers | src/include/s21_list.h:267-284 | Unique keeps exactly the same set of values |
| List.DedupIdentity | src/include/s21_list.h:267-284 | A list without equal neighbours is left as it is |
| List.Unique | src/include/s21_list.h:267-284 | The erase-while-equal-to-previous loop yields exactly the reference unique |
| List.NeighboursAscending | src/include/s21_list.h:240-251 | A pass without swaps means every element is at least its predecessor, so the list is sorted |
| List.WeightExchange | src/include/s21_list.h:245-246 | Swapping an inverted neighbour pair raises the weight potential by their difference |
| List.WeightBounded | src/include/s21_list.h:240-251 | The weight potential is bounded for lists whose elements are bounded |
| List.BubblePass | src/include/s21_list.h:244-249 | One pass permutes the list. If it swapped anything the weight strictly grows; otherwise the list is unchanged and ordered |
| List.Sort | src/include/s21_list.h:240-251 | `sort` (repeated passes until none swaps) terminates with an ascending permutation of the list |
| List.Merged | src/include/s21_list.h:286-315 | Reference merge (take from this list only when strictly smaller, else from other): its length is the sum |
| List.MergedMultiset | src/include/s21_list.h:286-315 | The merge holds exactly the elements of both lists |
| List.MergedAscending | src/include/s21_list.h:286-315 | Merging two ascending lists gives an ascending list |
| List.MergeSorted | src/include/s21_list.h:286-315 | Merging two sorted lists yields a sorted list of both lists' elements |
| List.MergeHeads | src/include/s21_list.h:293-301 | The first loop pushes the reference merge's prefix while both lists have elements |
| List.MergeTail | src/include/s21_list.h:303-311 | The two trailing loops complete the reference merge |
| List.Merge | src/include/s21_list.h:286-315 | `merge` makes this list the reference merge and empties `other`; merging a list with itself changes nothing |
| Stack.FromList | src/include/s21_stack.h:17 | The initializer-list stack holds the items, with the last one on top |
| Stack.Top | src/include/s21_stack.h:30-31 | `top` throws `out_of_range` exactly on an empty stack, otherwise yields the last pushed element |
| Stack.Push | src/include/s21_stack.h:36 | After `push(v)`, `top` is v and `pop` restores the stack |
| Stack.Pop | src/include/s21_stack.h:37 | `pop` throws `out_of_range` exactly on an empty stack; otherwise pushing the old top back restores the stack |
| Stack.Swap | src/include/s21_stack.h:38 | `swap` exchanges the two stacks |
| Stack.InsertManyBack | src/include/s21_stack.h:40-43 | `insert_many_back` pushes the items in order, so the last item is on top |
| Stack.DrainReversed | src/include/s21_stack.h:30-37 | Popping until empty yields the elements in reverse (LIFO) order |
| Stack.PushedThenDrained | src/include/s21_stack.h:40-43 | After `insert_many_back`, draining yields the items reversed and then the old stack reversed |
| Queue.FromList | src/include/s21_queue.h:19 | The initializer-list queue holds the items; the first is at the front and the last at the back |
| Queue.Front | src/include/s21_queue.h:30-31 | `front` throws `out_of_range` exactly on an empty queue, otherwise yields the oldest element |
| Queue.Back | src/include/s21_queue.h:32-33 | `back` throws `out_of_range` exactly on an empty queue, otherwise yields the newest element |
| Queue.Push | src/include/s21_queue.h:38 | `push(v)` makes v the back; the front changes only when the queue was empty |
| Queue.Pop | src/include/s21_queue.h:39 | `pop` throws `out_of_range` exactly on an empty queue; otherwise it removes the front |
| Queue.PushPopCommute | src/include/s21_queue.h:38-39 | On a non-empty queue, push then pop equals pop then push |
| Queue.MoveAssign | src/include/s21_queue.h:23-28 | Move assignment takes the source's elements and empties it; self-assignment changes nothing |
| Queue.Swap | src/include/s21_queue.h:40 | `swap` exchanges the two queues |
| Queue.InsertManyBack | src/include/s21_queue.h:47-50 | `insert_many_back` appends the items in order |
| Queue.DrainInOrder | src/include/s21_queue.h:30-39 | Popping until empty yields the elements in insertion (FIFO) order |
| Queue.PushedThenDrained | src/include/s21_queue.h:47-50 | After `insert_many_back`, draining yields the old elements and then the items |
| Vector.Grown | src/include/s21_vector.h:102 | The growth rule yields a larger capacity: 1 from 0, otherwise double |
| Vector.Default | src/include/s21_vector.h:17 | The default vector has no elements, no capacity and no buffer |
| Vector.Sized | src/include/s21_vector.h:18 | `vector(n)` has n (indeterminate) elements, capacity n and a buffer |
| Vector.FromList | src/include/s21_vector.h:19-27 | The initializer-list vector holds the items, with capacity equal to their number and a buffer, even for an explicitly passed empty `std::initializer_list` (plain `vector<int>{}` runs the default constructor instead) |
| Vector.Copy | src/include/s21_vector.h:28-32 | The copy constructor copies the elements; the copy's capacity is the source's size |
| Vector.Assign | src/include/s21_vector.h:33-44 | Copy assignment copies the elements and the source's capacity; self-assignment changes nothing |
| Vector.Move | src/include/s21_vector.h:45-52 | The move constructor takes the buffer and leaves the source empty with capacity 0 and no buffer |
| Vector.Swap | src/include/s21_vector.h:125-129 | `swap` exchanges the elements. This vector's capacity becomes the other's old size, and the other takes this vector's capacity |
| Vector.At | src/include/s21_vector.h:59-60 | `at` and `operator[]` read an element of the vector |
| Vector.Front | src/include/s21_vector.h:61 | `front` reads position 0 |
| Vector.Back | src/include/s21_vector.h:62 | `back` reads position size-1 |
| Vector.End | src/include/s21_vector.h:65 | `end()` points at the last element (position size-1), not one past it |
| Vector.Empty | src/include/s21_vector.h:66 | As written, `empty()` is true exactly when there is no buffer, so a size-0 vector that has a buffer answers false; a true answer still implies no elements |
| Vector.EmptyMissesSizedZero | src/include/s21_vector.h:18 | `vector(0)` has no elements but a non-null zero-length buffer, so `empty()` as written says false |
| Vector.IsEmpty | src/include/s21_vector.h:66 | Corrected `empty()`: true iff there are no elements; it agrees with the as-written version whenever that one says true |
| Vector.Reserve | src/include/s21_vector.h:71-83 | `reserve(n)` throws `length_error` exactly when n exceeds `max_size`. Otherwise, for n at least the size, the capacity becomes n and the elements are kept; a smaller n changes nothing |
| Vector.ShrinkToFit | src/include/s21_vector.h:85-93 | `shrink_to_fit` keeps the elements and makes the capacity equal to the size |
| Vector.Clear | src/include/s21_vector.h:94-98 | As written, `clear` drops the elements and the buffer but keeps the stale capacity |
| Vector.ClearLosesWritability | src/include/s21_vector.h:94-111 | After `clear` of a vector with capacity, the size is below the capacity while there is no buffer. `insert` reallocates only when full, so this state is not writable |
| Vector.ClearReleasing | src/include/s21_vector.h:94-98 | Corrected `clear`: no elements, and the vector stays writable and reports empty |
| Vector.ShiftIn | src/include/s21_vector.h:105-108 | The shifting loop opens a gap at idx and writes the value there |
| Vector.ShiftOut | src/include/s21_vector.h:115-117 | The shifting loop closes the gap at idx |
| Vector.Insert | src/include/s21_vector.h:99-111 | `insert` throws `length_error` exactly when a full vector's grown capacity exceeds `max_size`. Otherwise the value lands at idx, the capacity grows by the growth rule only when full, and the returned position is idx |
| Vector.Erase | src/include/s21_vector.h:113-119 | `erase` removes exactly the element at idx and keeps the capacity |
| Vector.PushBack | src/include/s21_vector.h:121 | `push_back` (insert after `end()`) appends the value or throws `length_error` when growing would exceed `max_size`. The capacity stays when there is room; otherwise it grows from 0 to 1, or doubles |
| Vector.PopBack | src/include/s21_vector.h:123 | `pop_back` (erase at `end()`) drops the last element |
| Vector.InsertMany | src/include/s21_vector.h:131-139 | `insert_many` places the items, in order, at pos and returns the position after the last one; it cannot fail while twice the final size fits `max_size` |
| Vector.InsertManyBack | src/include/s21_vector.h:141-144 | `insert_many_back` appends the items in order |
| Array.FromList | src/include/s21_array.h:22-27 | The first min(\|items\|, N) slots take the items; surplus items are ignored and the other slots keep their initial values |
| Array.At | src/include/s21_array.h:29-32 | `at` throws `out_of_range` exactly for pos >= N and otherwise yields the slot |
| Array.Get | src/include/s21_array.h:33-34 | `operator[]` agrees with `at` on every valid position |
| Array.Front | src/include/s21_array.h:35 | `front` agrees with `at(0)` |
| Array.Back | src/include/s21_array.h:36 | `back` agrees with `at(N-1)` |
| Array.Size | src/include/s21_array.h:46-47 | `size` and `max_size` are N: every position below N is valid and N itself is not |
| Array.Empty | src/include/s21_array.h:45 | `empty` holds iff N is 0, iff `at(0)` throws |
| Array.Fill | src/include/s21_array.h:49-51 | `fill` sets every slot to the value |
| Array.Swap | src/include/s21_array.h:52-54 | The slot-by-slot swap exchanges the two arrays |

## Left out

- Node identity, parent pointers and memory management are not modelled. Trees are inductive values, and an iterator is a path from the root.
- Iterator and `end()` quirks:
  - Tree `const` iterators and overloads are not modelled separately; they are the same as the mutable ones.
  - The list's `operator--` is used only inside `reverse`, where it is an index step.
  - Dereferencing `end()` (null) is excluded by preconditions.
- Bst.EraseKeyCorrect: the two-children case of `eraseHelper` (s21_tree.h:281-284) reads `succ->data` after the recursive call has deleted `succ`, which is a use after free. The model promotes the successor's key and payload, the value the code evidently means to read.
- TreeMultiset.EraseAll: `erase(key)` (s21_multiset.h:78-81) keeps an iterator to the next node before erasing. When the erased node has two children, that next node is deleted and replaced by a fresh one, so the iterator dangles. The model continues with the element that follows in order.
- BstContainer.Merge: `merge` (s21_tree.h:192-203) advances its iterator before erasing from `other`, with the same dangling-successor hazard. The walk is modelled over a snapshot of `other`'s entries.
- List.Insert: requires 0 < pos < size. Inserting at the head dereferences a null `prev`, and inserting at null dereferences null (s21_list.h:203-206).
- List.InsertMany: with at least one item, it requires a position strictly inside the list, for the same reason.
- List.Splice: requires a non-empty target when `other` is non-empty. Splicing into an empty list leaves `tail_` null (s21_list.h:326-329), which breaks the list.
- List.Sort, List.Reverse and List.Unique: the models give each its own positions and do not replay the `end()`-is-tail comparisons step by step. They follow the same order of comparisons and swaps.
- Vector.At: the model requires pos < size, because `at` performs no bounds check in this library (s21_vector.h:59) and reading past the end is undefined behaviour. The contract states only that the value is an element. The slot itself is fixed by the function body, `v.elems[pos]`, which every caller sees; `Vector.Front` and `Vector.Back` are stated through it.
- Vector.Erase and Vector.PopBack: they require a non-empty vector. On an empty vector, `size_ - 1` wraps around.
- List.Erase: requires a position holding an element. On an empty list, `erase(end())` takes the head branch with every pointer null (s21_list.h:213-214), deletes nothing and decrements `size_` from 0, which wraps around to the largest `size_t` (s21_list.h:226). The model does not describe that broken state.
- Vector.Insert, Vector.PushBack: the inserted value is treated as a value that does not alias the vector's own storage. The source takes it by `const` reference and reads it only after the shift loop (s21_vector.h:105-108), and on a full vector also after `reserve` has freed the old buffer (s21_vector.h:103, 35). So `v.insert(v.begin(), v[1])` with spare capacity inserts the shifted slot's new value, and `v.push_back(v[0])` on a full vector reads freed memory. Neither effect is modelled.
- Vector.Insert, Vector.PushBack and Vector.InsertMany: they require a writable vector, one whose buffer exists whenever there is spare capacity. The as-written `clear` breaks this (see Findings).
- Vector.InsertMany and Vector.InsertManyBack: they state success only while twice the final size fits `max_size`, which is weaker than the exact failure condition. Each step's doubling test is not summed up.
- The values of uninitialised storage (`new value_type[n]`) are not modelled. `array(items)` takes them as a parameter, and `vector(n)` leaves them unspecified.
- `max_size()` is passed in as a parameter wherever it decides something (vector `reserve` and `insert`). The platform-dependent arithmetic `numeric_limits<size_t>::max() / sizeof(...)` is not modelled. Trees and lists never compare against their `max_size`.
- Keys are `int`. The library compares a generic `T` with `<`, `>` and `==`; `int` is a strict total order with those meanings. The same holds for the list operations that compare elements: `List.Sort`, `List.BubblePass`, `List.Merged`, `List.MergeHeads`, `List.MergeTail`, `List.Merge` and their lemmas take `seq<int>`. `List.Zeros` models `list<int>(n)`, whose value-initialised elements are zeros.
- Trivial reads and whole-container replacements are not given their own members:
  - `size()`, `empty()` and `max_size()` of list, stack, queue, set, multiset and map;
  - `clear()` of the trees, which yields `BstContainer.Empty`;
  - `swap` of map, set and multiset, which exchanges two values;
  - `begin` and `data` of vector and array, and `end` of array.
- Copy and move construction of stack, queue, set, multiset and map, and copy and move assignment of stack, set, multiset and map, are not given their own members (queue's move assignment is `Queue.MoveAssign`). They are whole-value copies and moves of the underlying list or tree, covered by `List.Copy`, `List.Move`, `List.MoveAssign`, `BstContainer.CopyOf` and `BstContainer.MoveFrom`.
- `queue::emplace_back` constructs a value from arguments and pushes it. It is `Queue.Push` once the value exists.
- Writes through a reference returned by `operator[]`, `at`, `front`, `back` or `top` are not modelled. The map's value write is modelled as `BstLookup.Assign`.
- The matrix class and the tests are not part of this model.

## Findings

| source | as written | input that shows it | evidently intended | confidence | as-written member | corrected member |
|---|---|---|---|---|---|---|
| src/include/s21_vector.h:66 | `empty()` returns whether the buffer pointer is null | `s21::vector<int> v(0);`: the size constructor allocates `new int[0]`, which is not null, so size is 0 but `empty()` is false. `vector<int>{1}` followed by `pop_back()` behaves the same way | `empty()` is true exactly when the size is 0 | high (not executed) | Vector.EmptyMissesSizedZero | Vector.IsEmpty |
| src/include/s21_vector.h:94-98 | `clear()` frees the buffer and zeroes the size but keeps `capacity_` | `vector<int>{1}` then `clear()` then `push_back(2)`: size 0 < capacity 1, so no reallocation happens and the write goes through a null pointer | `clear()` leaves a vector that can still be written to (capacity reset, or buffer kept) | high (not executed) | Vector.ClearLosesWritability | Vector.ClearReleasing |

=== FILE: array.dfy ===
/**
  s21::array<T, N>: a fixed-size array stored in a vector of `N` slots. Only
  indexing of that vector is used, so the model is the sequence of the `N`
  slots; `N` is its length.
*/
module Array {
  import opened Wrappers

  /** `array(items)`: the backing `vector(N)` starts with `N` indeterminate
      values (`contents` stands for them); the first `min(|items|, N)` slots
      take the items in order, surplus items are ignored, and the remaining
      slots keep what the fresh buffer held. */
  method FromList<T>(contents: seq<T>, items: seq<T>) returns (a: seq<T>)
    ensures |a| == |contents|
    ensures forall i :: 0 <= i < |a| && i < |items| ==> a[i] == items[i]
    ensures forall i :: |items| <= i < |a| ==> a[i] == contents[i]
  {
    a := contents;
    var i := 0;
    while i < |items| && i < |a|
      invariant 0 <= i <= |a| && i <= |items| && |a| == |contents|
      invariant forall k :: 0 <= k < i ==> a[k] == items[k]
      invariant forall k :: i <= k < |a| ==> a[k] == contents[k]
    {
      a := a[i := items[i]];
      i := i + 1;
    }
  }

  /** `at(pos)`: out_of_range exactly when `pos` is not below `N`. */
  function At<T>(a: seq<T>, pos: nat): (r: Result<T>)
    ensures r.Err? <==> pos >= |a|
    ensures r.Err? ==> r.error == OutOfRange
    ensures r.Ok? ==> r.value == a[pos]
  {
    if pos >= |a| then Err(OutOfRange) else Ok(a[pos])
  }

  /** `operator[]`: no check; `pos` must lie below `N`. It agrees with `at`. */
  function Get<T>(a: seq<T>, pos: nat): (x: T)
    requires pos < |a|
    ensures At(a, pos) == Ok(x)
  {
    a[pos]
  }

  /** `front()`: slot 0, which must exist. */
  function Front<T>(a: seq<T>): (x: T)
    requires |a| > 0
    ensures At(a, 0) == Ok(x)
  {
    a[0]
  }

  /** `back()`: slot `N - 1`, which must exist. */
  function Back<T>(a: seq<T>): (x: T)
    requires |a| > 0
    ensures At(a, |a| - 1) == Ok(x)
  {
    a[|a| - 1]
  }

  /** `size()` and `max_size()`: both are `N`. */
  function Size<T>(a: seq<T>): (n: nat)
    ensures n == |a| && n == MaxSize(a)
    ensures forall pos :: 0 <= pos < n ==> At(a, pos).Ok?
    ensures At(a, n).Err?
  {
    |a|
  }

  function MaxSize<T>(a: seq<T>): nat {
    |a|
  }

  /** `empty()`: `N == 0`, so that even `at(0)` fails. */
  function Empty<T>(a: seq<T>): (b: bool)
    ensures b <==> Size(a) == 0
    ensures b <==> At(a, 0).Err?
  {
    |a| == 0
  }

  /** `fill(value)`: every slot takes `value`. */
  method Fill<T>(a: seq<T>, v: T) returns (r: seq<T>)
    ensures |r| == |a|
    ensures forall i :: 0 <= i < |r| ==> r[i] == v
  {
    r := a;
    for i := 0 to |a|
      invariant |r| == |a|
      invariant forall k :: 0 <= k < i ==> r[k] == v
    {
      r := r[i := v];
    }
  }

  /** `swap(other)`: slot by slot, the two arrays (of the same `N`) exchange
      their values. Result: (this, other). */
  method Swap<T>(a: seq<T>, b: seq<T>) returns (r: seq<T>, o: seq<T>)
    requires |a| == |b|
    ensures r == b && o == a
  {
    r, o := a, b;
    for i := 0 to |a|
      invariant |r| == |a| && |o| == |b|
      invariant forall k :: 0 <= k < i ==> r[k] == b[k] && o[k] == a[k]
      invariant forall k :: i <= k < |a| ==> r[k] == a[k] && o[k] == b[k]
    {
      var x := r[i];
      r := r[i := o[i]];
      o := o[i := x];
    }
  }
}

=== FILE: list.dfy ===
/**
  s21::list: a doubly linked list, modelled by the sequence of its values from
  head to tail. An iterator is the index of the node it points at; the index
  `|s|` stands for the null node pointer. Node identity and the prev/next links
  are not modelled: every operation is stated on the value sequence.
*/
module List {
  import opened Wrappers
  import opened SeqOrder

  /** `end()`: the tail node itself, not a past-the-end position. On an empty
      list the tail pointer is null. */
  function End<T>(s: seq<T>): (p: nat)
    ensures p <= |s|
    ensures p == |s| <==> |s| == 0
    ensures |s| > 0 ==> p + 1 == |s|
  {
    if |s| == 0 then 0 else |s| - 1
  }

  /** `push_back(value)`. */
  function PushBack<T>(s: seq<T>, v: T): (r: seq<T>)
    ensures |r| == |s| + 1 && r[..|s|] == s && r[|s|] == v
    ensures Back(r) == Ok(v) && PopBack(r) == Ok(s)
  {
    s + [v]
  }

  /** `push_front(value)`. */
  function PushFront<T>(s: seq<T>, v: T): (r: seq<T>)
    ensures |r| == |s| + 1 && r[1..] == s && r[0] == v
    ensures Front(r) == Ok(v) && PopFront(r) == Ok(s)
  {
    [v] + s
  }

  /** `pop_back()`: out_of_range on an empty list, otherwise the tail leaves. */
  function PopBack<T>(s: seq<T>): (r: Result<seq<T>>)
    ensures r.Err? <==> |s| == 0
    ensures r.Err? ==> r.error == OutOfRange
    ensures r.Ok? ==> |r.value| + 1 == |s| && r.value == s[..|s| - 1]
  {
    if |s| == 0 then Err(OutOfRange) else Ok(s[..|s| - 1])
  }

  /** `pop_front()`: out_of_range on an empty list, otherwise the head leaves. */
  function PopFront<T>(s: seq<T>): (r: Result<seq<T>>)
    ensures r.Err? <==> |s| == 0
    ensures r.Err? ==> r.error == OutOfRange
    ensures r.Ok? ==> |r.value| + 1 == |s| && r.value == s[1..]
  {
    if |s| == 0 then Err(OutOfRange) else Ok(s[1..])
  }

  /** `front()`: out_of_range on an empty list. */
  function Front<T>(s: seq<T>): (r: Result<T>)
    ensures r.Err? <==> |s| == 0
    ensures r.Err? ==> r.error == OutOfRange
    ensures r.Ok? ==> r.value == s[0]
  {
    if |s| == 0 then Err(OutOfRange) else Ok(s[0])
  }

  /** `back()`: out_of_range on an empty list. */
  function Back<T>(s: seq<T>): (r: Result<T>)
    ensures r.Err? <==> |s| == 0
    ensures r.Err? ==> r.error == OutOfRange
    ensures r.Ok? ==> r.value == s[|s| - 1]
  {
    if |s| == 0 then Err(OutOfRange) else Ok(s[|s| - 1])
  }

  /** `push_back` applied to each item in order: the initializer-list and copy
      constructors and `insert_many_back`. */
  function PushAll<T>(s: seq<T>, items: seq<T>): (r: seq<T>)
    ensures |r| == |s| + |items|
    ensures r[..|s|] == s
    decreases |items|
  {
    if |items| == 0 then s else PushAll(PushBack(s, items[0]), items[1..])
  }

  /** Pushing the items one by one appends them in argument order. */
  lemma {:induction false} PushAllAppends<T>(s: seq<T>, items: seq<T>)
    ensures PushAll(s, items) == s + items
    decreases |items|
  {
    if |items| > 0 {
      PushAllAppends(PushBack(s, items[0]), items[1..]);
      assert s + [items[0]] + items[1..] == s + items;
    }
  }

  /** `list(n)`: `n` value-initialised (zero) elements, pushed at the back. */
  function Zeros(n: nat): (s: seq<int>)
    ensures |s| == n
    ensures forall i :: 0 <= i < n ==> s[i] == 0
  {
    if n == 0 then [] else PushBack(Zeros(n - 1), 0)
  }

  /** `list(items)`: the items, first at the head. */
  function FromList<T>(items: seq<T>): (s: seq<T>)
    ensures s == items
  {
    PushAllAppends([], items);
    PushAll([], items)
  }

  /** Copy constructor: an equal list built by pushing each element of `l`. */
  function Copy<T>(l: seq<T>): (s: seq<T>)
    ensures s == l
  {
    FromList(l)
  }

  /** `insert_many_back(args...)`: the arguments appended in order. */
  function InsertManyBack<T>(s: seq<T>, items: seq<T>): (r: seq<T>)
    ensures |r| == |s| + |items|
    ensures r[..|s|] == s && r[|s|..] == items
  {
    PushAllAppends(s, items);
    PushAll(s, items)
  }

  /** `clear()`: `pop_front` until empty. */
  function Clear<T>(s: seq<T>): (r: seq<T>)
    ensures |r| == 0
    decreases |s|
  {
    if |s| == 0 then s else Clear(PopFront(s).value)
  }

  /** Move constructor: the new list takes the contents, the source is left
      empty. Result: (new list, source afterwards). */
  function Move<T>(l: seq<T>): (r: (seq<T>, seq<T>))
    ensures r.0 == l && |r.1| == 0
  {
    (l, Clear(l))
  }

  /** Move assignment `dst = std::move(src)`: a no-op when both are the same
      object (`self`); otherwise `dst` is cleared, takes `src`'s contents, and
      `src` is left empty. Result: (dst, src) afterwards. */
  function MoveAssign<T>(dst: seq<T>, src: seq<T>, self: bool): (r: (seq<T>, seq<T>))
    requires self ==> dst == src
    ensures r.0 == src
    ensures self ==> r.1 == src
    ensures !self ==> |r.1| == 0
  {
    if self then (dst, src)
    else
      var _ := Clear(dst);
      Move(src)
  }

  /** `swap(other)`: three moves through a temporary. Result: (this, other). */
  function Swap<T>(a: seq<T>, b: seq<T>): (r: (seq<T>, seq<T>))
    ensures r.0 == b && r.1 == a
  {
    var (temp, a1) := Move(a);
    var (a2, b1) := MoveAssign(a1, b, false);
    var (b2, _) := MoveAssign(b1, temp, false);
    (a2, b2)
  }

  /** `at(index)`: the node at `index`, or the tail (`end()`) when `index` is
      not below the size. */
  function At<T>(s: seq<T>, index: nat): (p: nat)
    ensures p <= |s|
    ensures index < |s| ==> p == index
    ensures index >= |s| ==> p == End(s)
  {
    if index >= |s| then End(s) else index
  }

  /** `insert(pos, value)`: the new node goes right before `pos`, and the
      returned iterator points at it. `pos` needs a predecessor and must not be
      null, because the node's prev link is followed unconditionally. */
  function Insert<T>(s: seq<T>, pos: nat, v: T): (r: (seq<T>, nat))
    requires 0 < pos < |s|
    ensures |r.0| == |s| + 1 && r.1 == pos && r.0[pos] == v
    ensures r.0[..pos] == s[..pos] && r.0[pos + 1..] == s[pos..]
    ensures Erase(r.0, pos) == s
  {
    var t := s[..pos] + [v] + s[pos..];
    assert t[..pos] + t[pos + 1..] == s;
    (t, pos)
  }

  /** `erase(pos)`: exactly the node at `pos` leaves the list. */
  function Erase<T>(s: seq<T>, pos: nat): (r: seq<T>)
    requires pos < |s|
    ensures |r| + 1 == |s|
    ensures r[..pos] == s[..pos] && r[pos..] == s[pos + 1..]
    ensures multiset(r) == multiset(s) - multiset{s[pos]}
  {
    RemoveAtMultiset(s, pos);
    RemoveAt(s, pos)
  }

  /** `swap_elements(pos1, pos2)`: the two nodes exchange their values. */
  function SwapElements<T>(s: seq<T>, i: nat, j: nat): (r: seq<T>)
    requires i < |s| && j < |s|
    ensures |r| == |s| && r[i] == s[j] && r[j] == s[i]
    ensures forall k :: 0 <= k < |s| && k != i && k != j ==> r[k] == s[k]
    ensures multiset(r) == multiset(s)
  {
    var r := s[i := s[j]][j := s[i]];
    SwapMultiset(s, i, j);
    r
  }

  lemma SwapMultiset<T>(s: seq<T>, i: nat, j: nat)
    requires i < |s| && j < |s|
    ensures multiset(s[i := s[j]][j := s[i]]) == multiset(s)
  {
    if i != j {
      var t := s[i := s[j]];
      assert multiset(t) == multiset(s) - multiset{s[i]} + multiset{s[j]};
      assert multiset(t[j := s[i]]) == multiset(t) - multiset{t[j]} + multiset{s[i]};
    }
  }

  /** `splice(pos, other)`: `other`'s nodes are linked in before `pos` (at the
      head when `pos` is the head, at the tail when `pos` is null), and `other`
      is left empty. Splicing a list into itself, or an empty list, is a no-op.
      The target must be non-empty when something is spliced: on an empty
      target the tail pointer is never set. Result: (this, other). */
  function Splice<T>(s: seq<T>, pos: nat, other: seq<T>, self: bool): (r: (seq<T>, seq<T>))
    requires pos <= |s|
    requires self ==> other == s
    requires !self && |other| > 0 ==> |s| > 0
    ensures self || |other| == 0 ==> r == (s, other)
    ensures !self ==> r.0 == s[..pos] + other + s[pos..] && |r.1| == 0
  {
    if self || |other| == 0 then (s, other)
    else if pos == 0 then (other + s, [])
    else if pos == |s| then (s + other, [])
    else (s[..pos] + other + s[pos..], [])
  }

  /** `insert_many(pos, args...)`: `insert` of each argument, last first, each
      before the node inserted just before; the result points at the node of
      the first argument (or is `pos` when there are none). */
  method InsertMany<T>(s: seq<T>, pos: nat, items: seq<T>) returns (r: seq<T>, it: nat)
    requires pos <= |s|
    requires |items| > 0 ==> 0 < pos < |s|
    ensures r == s[..pos] + items + s[pos..]
    ensures it == pos
    ensures |items| > 0 ==> it < |r| && r[it] == items[0]
  {
    r, it := s, pos;
    var k := |items|;
    while k > 0
      invariant 0 <= k <= |items|
      invariant r == s[..pos] + items[k..] + s[pos..]
      invariant it == pos
    {
      k := k - 1;
      r, it := Insert(r, it, items[k]).0, Insert(r, it, items[k]).1;
      assert items[k..] == [items[k]] + items[k + 1..];
    }
  }

  /** `insert_many_front(args...)`: `push_front` of each argument, last first. */
  method InsertManyFront<T>(s: seq<T>, items: seq<T>) returns (r: seq<T>)
    ensures |r| == |items| + |s|
    ensures r[..|items|] == items && r[|items|..] == s
  {
    r := s;
    var k := |items|;
    while k > 0
      invariant 0 <= k <= |items|
      invariant r == items[k..] + s
    {
      k := k - 1;
      r := PushFront(r, items[k]);
      assert items[k..] == [items[k]] + items[k + 1..];
    }
    assert r == items + s;
  }

  // ---------------------------------------------------------------- reverse

  /** The reversed sequence, independent of how `reverse` walks. */
  function Reversed<T>(s: seq<T>): (r: seq<T>)
    ensures |r| == |s|
  {
    if |s| == 0 then [] else Reversed(s[1..]) + [s[0]]
  }

  lemma {:induction false} ReversedIndex<T>(s: seq<T>)
    ensures forall k :: 0 <= k < |s| ==> Reversed(s)[k] == s[|s| - 1 - k]
  {
    if |s| > 0 {
      ReversedIndex(s[1..]);
    }
  }

  /** Reversing twice gives back the list. */
  lemma ReversedTwice<T>(s: seq<T>)
    ensures Reversed(Reversed(s)) == s
  {
    ReversedIndex(s);
    ReversedIndex(Reversed(s));
  }

  /** Reversing a concatenation reverses the order of the parts. */
  lemma ReversedAppend<T>(a: seq<T>, b: seq<T>)
    ensures Reversed(a + b) == Reversed(b) + Reversed(a)
  {
    ReversedIndex(a + b);
    ReversedIndex(a);
    ReversedIndex(b);
    var l, r := Reversed(a + b), Reversed(b) + Reversed(a);
    forall k | 0 <= k < |l| ensures l[k] == r[k] {
      if k < |b| {
        assert r[k] == Reversed(b)[k];
      } else {
        assert r[k] == Reversed(a)[k - |b|];
      }
    }
  }

  /** `reverse()`: one iterator walks forward from the head, one backward from
      the tail, swapping values until they meet or cross. */
  method Reverse<T>(s: seq<T>) returns (r: seq<T>)
    ensures r == Reversed(s)
  {
    ReversedIndex(s);
    r := s;
    if |s| <= 1 {
      return;
    }
    var i, j := 0, |s| - 1;
    while i != j && i != j + 1
      invariant 0 <= i <= j + 1 <= |s| && i + j + 1 == |s|
      invariant |r| == |s|
      invariant forall k :: 0 <= k < i ==> r[k] == s[|s| - 1 - k]
      invariant forall k :: j < k < |s| ==> r[k] == s[|s| - 1 - k]
      invariant forall k :: i <= k <= j ==> r[k] == s[k]
      decreases j - i
    {
      r := SwapElements(r, i, j);
      i, j := i + 1, j - 1;
    }
  }

  // ----------------------------------------------------------------- unique

  /** The list without consecutive repeats: an element stays exactly when it
      differs from the one before it, so the first of each run is kept. */
  function Dedup<T(==)>(s: seq<T>): (r: seq<T>)
    ensures |r| <= |s|
    ensures |s| > 0 ==> |r| > 0 && r[|r| - 1] == s[|s| - 1] && r[0] == s[0]
  {
    if |s| <= 1 then s
    else if s[|s| - 1] == s[|s| - 2] then Dedup(s[..|s| - 1])
    else Dedup(s[..|s| - 1]) + [s[|s| - 1]]
  }

  /** No two neighbours of the deduplicated list are equal. */
  lemma {:induction false} DedupNoRepeats<T>(s: seq<T>)
    ensures forall k :: 0 <= k < |Dedup(s)| - 1 ==> Dedup(s)[k] != Dedup(s)[k + 1]
  {
    if |s| > 1 {
      DedupNoRepeats(s[..|s| - 1]);
    }
  }

  /** Deduplication keeps every value that occurs, and adds none. */
  lemma {:induction false} DedupMembers<T>(s: seq<T>)
    ensures forall x :: x in Dedup(s) <==> x in s
  {
    if |s| > 1 {
      var p := s[..|s| - 1];
      DedupMembers(p);
      assert s == p + [s[|s| - 1]];
      assert s[|s| - 2] == p[|p| - 1];
    }
  }

  /** A list with no consecutive repeats is left alone. */
  lemma {:induction false} DedupIdentity<T>(s: seq<T>)
    requires forall k :: 0 <= k < |s| - 1 ==> s[k] != s[k + 1]
    ensures Dedup(s) == s
  {
    if |s| > 1 {
      DedupIdentity(s[..|s| - 1]);
      assert s[..|s| - 1] + [s[|s| - 1]] == s;
    }
  }

  /** One step of `unique` on the list `Dedup(s[..i]) + s[i..]`: the node at
      `curr` holds `s[i]`, its kept predecessor holds `s[i - 1]`, and either
      erasing it (equal values) or keeping it gives the list for `i + 1`. */
  lemma UniqueStep<T>(s: seq<T>, i: nat, d: seq<T>)
    requires 1 <= i < |s| && d == Dedup(s[..i])
    ensures |d| > 0 && (d + s[i..])[|d|] == s[i] && (d + s[i..])[|d| - 1] == s[i - 1]
    ensures s[i] == s[i - 1] ==>
      Erase(d + s[i..], |d|) == Dedup(s[..i + 1]) + s[i + 1..] && |Dedup(s[..i + 1])| == |d|
    ensures s[i] != s[i - 1] ==>
      d + s[i..] == Dedup(s[..i + 1]) + s[i + 1..] && |Dedup(s[..i + 1])| == |d| + 1
  {
    assert s[..i + 1][..i] == s[..i];
    assert s[i..] == [s[i]] + s[i + 1..];
    var r := d + s[i..];
    if s[i] == s[i - 1] {
      assert Erase(r, |d|) == r[..|d|] + r[|d| + 1..];
      assert r[..|d|] == d && r[|d| + 1..] == s[i + 1..];
    }
  }

  /** `unique()`: walking `prev`/`curr`, a node equal to its kept predecessor is
      erased; otherwise both iterators advance. */
  method Unique<T(==)>(s: seq<T>) returns (r: seq<T>)
    ensures r == Dedup(s)
  {
    r := s;
    if |s| < 2 {
      return;
    }
    var prev, curr := 0, 1;
    ghost var i := 1;
    while curr < |r|
      invariant 1 <= i <= |s|
      invariant r == Dedup(s[..i]) + s[i..]
      invariant curr == |Dedup(s[..i])| && prev + 1 == curr
      decreases |s| - i
    {
      UniqueStep(s, i, Dedup(s[..i]));
      if r[curr] == r[prev] {
        r := Erase(r, curr);
      } else {
        prev, curr := curr, curr + 1;
      }
      i := i + 1;
    }
    assert s[..i] == s;
  }

  // ------------------------------------------------------------------- sort

  /** Every pair of neighbours is in order. */
  predicate NeighboursOrdered(s: seq<int>) {
    forall k :: 0 <= k < |s| - 1 ==> s[k] <= s[k + 1]
  }

  lemma {:induction false} NeighboursAscending(s: seq<int>)
    requires NeighboursOrdered(s)
    ensures Ascending(s)
  {
    if |s| > 1 {
      NeighboursAscending(s[1..]);
      assert forall j :: 1 <= j < |s| ==> s[1..][j - 1] == s[j];
      assert forall j :: 1 <= j < |s| ==> s[0] <= s[1] <= s[j];
    }
  }

  /** Potential of bubble sort: the sum of `(off + k) * s[k]`. Every exchange
      of an inverted neighbour pair raises it. */
  function Weight(s: seq<int>, off: int): int {
    if |s| == 0 then 0 else off * s[0] + Weight(s[1..], off + 1)
  }

  /** Upper bound of `Weight` for `n` elements no larger than `m`. */
  function WeightCap(n: nat, off: int, m: int): int {
    if n == 0 then 0 else off * m + WeightCap(n - 1, off + 1, m)
  }

  lemma MulMono(a: int, b: int, c: int)
    requires a >= 0 && b <= c
    ensures a * b <= a * c
  {
    assert a * c - a * b == a * (c - b);
  }

  lemma {:induction false} WeightBounded(s: seq<int>, off: int, m: int)
    requires off >= 0
    requires forall k :: 0 <= k < |s| ==> s[k] <= m
    ensures Weight(s, off) <= WeightCap(|s|, off, m)
  {
    if |s| > 0 {
      MulMono(off, s[0], m);
      WeightBounded(s[1..], off + 1, m);
    }
  }

  /** Exchanging the neighbours at `i` and `i + 1` changes the weight by
      `s[i] - s[i + 1]`. */
  lemma {:induction false} WeightExchange(s: seq<int>, i: nat, off: int)
    requires i + 1 < |s|
    ensures Weight(SwapElements(s, i, i + 1), off) == Weight(s, off) + s[i] - s[i + 1]
  {
    var r := SwapElements(s, i, i + 1);
    if i == 0 {
      assert r[1..][1..] == s[1..][1..];
      assert Weight(r, off) == off * s[1] + (off + 1) * s[0] + Weight(s[2..], off + 2);
      assert Weight(s, off) == off * s[0] + (off + 1) * s[1] + Weight(s[2..], off + 2);
    } else {
      assert r[1..] == SwapElements(s[1..], i - 1, i);
      WeightExchange(s[1..], i - 1, off + 1);
    }
  }

  /** A multiset-preserving rearrangement keeps every element below `m`. */
  lemma BoundKept(s: seq<int>, r: seq<int>, m: int)
    requires multiset(r) == multiset(s)
    requires forall k :: 0 <= k < |s| ==> s[k] <= m
    ensures forall k :: 0 <= k < |r| ==> r[k] <= m
  {
    forall k | 0 <= k < |r| ensures r[k] <= m {
      assert r[k] in multiset(r);
      var j :| 0 <= j < |s| && s[j] == r[k];
    }
  }

  function MaxOf(s: seq<int>): (m: int)
    ensures forall k :: 0 <= k < |s| ==> s[k] <= m
  {
    if |s| == 0 then 0
    else
      var m := MaxOf(s[1..]);
      assert forall k :: 1 <= k < |s| ==> s[k] == s[1..][k - 1];
      if s[0] > m then s[0] else m
  }

  /** One pass of `sort`'s inner loop: from the head to the tail node, each
      node is compared with its successor and exchanged when greater. */
  method BubblePass(s: seq<int>) returns (r: seq<int>, swapped: bool)
    ensures |r| == |s| && multiset(r) == multiset(s)
    ensures swapped ==> Weight(r, 0) > Weight(s, 0)
    ensures !swapped ==> r == s && NeighboursOrdered(s)
  {
    r, swapped := s, false;
    var tail := End(s);
    for it := 0 to tail
      invariant |r| == |s| && multiset(r) == multiset(s)
      invariant swapped ==> Weight(r, 0) > Weight(s, 0)
      invariant !swapped ==> r == s && forall k :: 0 <= k < it ==> s[k] <= s[k + 1]
    {
      if r[it] > r[it + 1] {
        WeightExchange(r, it, 0);
        r := SwapElements(r, it, it + 1);
        swapped := true;
      }
    }
  }

  /** `sort()`: passes repeat while the last one exchanged something. The
      result is an ascending rearrangement of the list. */
  method Sort(s: seq<int>) returns (r: seq<int>)
    ensures multiset(r) == multiset(s)
    ensures Ascending(r)
  {
    ghost var m := MaxOf(s);
    var swapped;
    r, swapped := BubblePass(s);
    BoundKept(s, r, m);
    WeightBounded(r, 0, m);
    while swapped
      invariant |r| == |s| && multiset(r) == multiset(s)
      invariant forall k :: 0 <= k < |r| ==> r[k] <= m
      invariant Weight(r, 0) <= WeightCap(|s|, 0, m)
      invariant !swapped ==> NeighboursOrdered(r)
      decreases WeightCap(|s|, 0, m) - Weight(r, 0), if swapped then 1 else 0
    {
      var r' := r;
      r', swapped := BubblePass(r);
      BoundKept(r, r', m);
      WeightBounded(r', 0, m);
      r := r';
    }
    NeighboursAscending(r);
  }

  // ------------------------------------------------------------------ merge

  /** The merge of two lists by the rule `merge` follows: the head of `a` is
      taken only when strictly smaller, so on ties `b`'s element comes first. */
  function Merged(a: seq<int>, b: seq<int>): (r: seq<int>)
    ensures |r| == |a| + |b|
    decreases |a| + |b|
  {
    if |a| == 0 then b
    else if |b| == 0 then a
    else if a[0] < b[0] then [a[0]] + Merged(a[1..], b)
    else [b[0]] + Merged(a, b[1..])
  }

  /** The merge holds exactly the elements of both lists. */
  lemma {:induction false} MergedMultiset(a: seq<int>, b: seq<int>)
    ensures multiset(Merged(a, b)) == multiset(a) + multiset(b)
    decreases |a| + |b|
  {
    if |a| > 0 && |b| > 0 {
      if a[0] < b[0] {
        var rest := Merged(a[1..], b);
        assert Merged(a, b) == [a[0]] + rest;
        MergedMultiset(a[1..], b);
        ConsMultiset(a[0], rest, a[1..], b, a);
      } else {
        var rest := Merged(a, b[1..]);
        assert Merged(a, b) == [b[0]] + rest;
        MergedMultiset(a, b[1..]);
        ConsMultiset(b[0], rest, b[1..], a, b);
      }
    }
  }

  /** Putting the head of `c` back in front of an arrangement of its tail and
      `d` arranges all of `c` and `d`. */
  lemma ConsMultiset(x: int, rest: seq<int>, tail: seq<int>, d: seq<int>, c: seq<int>)
    requires c == [x] + tail && multiset(rest) == multiset(tail) + multiset(d)
    ensures multiset([x] + rest) == multiset(c) + multiset(d)
  {
  }

  /** Merging two ascending lists gives an ascending list. */
  lemma {:induction false} MergedAscending(a: seq<int>, b: seq<int>)
    requires Ascending(a) && Ascending(b)
    ensures Ascending(Merged(a, b))
    decreases |a| + |b|
  {
    if |a| > 0 && |b| > 0 {
      if a[0] < b[0] {
        MergedAscending(a[1..], b);
        MergedMultiset(a[1..], b);
        assert forall k :: 0 <= k < |a[1..]| ==> a[0] <= a[1..][k];
        assert forall k :: 0 <= k < |b| ==> a[0] <= b[k];
        ConsAscending(a[0], Merged(a[1..], b), a[1..], b);
      } else {
        MergedAscending(a, b[1..]);
        MergedMultiset(a, b[1..]);
        assert forall k :: 0 <= k < |a| ==> b[0] <= a[k];
        assert forall k :: 0 <= k < |b[1..]| ==> b[0] <= b[1..][k];
        ConsAscending(b[0], Merged(a, b[1..]), a, b[1..]);
      }
    }
  }

  /** Putting a value no larger than any element of `a` or `b` in front of an
      ascending arrangement of their elements keeps it ascending. */
  lemma ConsAscending(x: int, rest: seq<int>, a: seq<int>, b: seq<int>)
    requires Ascending(rest) && multiset(rest) == multiset(a) + multiset(b)
    requires forall k :: 0 <= k < |a| ==> x <= a[k]
    requires forall k :: 0 <= k < |b| ==> x <= b[k]
    ensures Ascending([x] + rest)
  {
    forall k | 0 <= k < |rest| ensures x <= rest[k] {
      assert rest[k] in multiset(rest);
      assert rest[k] in a || rest[k] in b;
    }
    assert forall k :: 1 <= k < |rest| + 1 ==> ([x] + rest)[k] == rest[k - 1];
  }

  lemma MergeTakeA(a: seq<int>, b: seq<int>, i: nat, j: nat)
    requires i < |a| && j < |b| && a[i] < b[j]
    ensures Merged(a[i..], b[j..]) == [a[i]] + Merged(a[i + 1..], b[j..])
  {
    assert a[i..][1..] == a[i + 1..];
  }

  lemma MergeTakeB(a: seq<int>, b: seq<int>, i: nat, j: nat)
    requires i < |a| && j < |b| && !(a[i] < b[j])
    ensures Merged(a[i..], b[j..]) == [b[j]] + Merged(a[i..], b[j + 1..])
  {
    assert b[j..][1..] == b[j + 1..];
  }

  lemma ShiftOne<T>(m: seq<T>, x: T, rest: seq<T>)
    ensures m + ([x] + rest) == PushBack(m, x) + rest
  {
  }

  lemma MergeRestA(a: seq<int>, b: seq<int>, i: nat, j: nat)
    requires i < |a| && j == |b|
    ensures Merged(a[i..], b[j..]) == [a[i]] + Merged(a[i + 1..], b[j..])
  {
    assert a[i..] == [a[i]] + a[i + 1..];
  }

  lemma MergeRestB(a: seq<int>, b: seq<int>, i: nat, j: nat)
    requires i == |a| && j < |b|
    ensures Merged(a[i..], b[j..]) == [b[j]] + Merged(a[i..], b[j + 1..])
  {
    assert b[j..] == [b[j]] + b[j + 1..];
  }

  /** `merge(other)`: both lists are walked from the head, the smaller value
      (`other`'s on ties) is pushed onto a new list, the rest of either is
      appended, the new list is swapped in and `other` cleared. Merging a list
      with itself is a no-op. Result: (this, other). */
  method Merge(a: seq<int>, b: seq<int>, self: bool) returns (r: seq<int>, o: seq<int>)
    requires self ==> a == b
    ensures self ==> r == a && o == b
    ensures !self ==> r == Merged(a, b) && |o| == 0
  {
    if self {
      return a, b;
    }
    var merged, i, j := MergeHeads(a, b);
    merged := MergeTail(a, b, merged, i, j);
    r, o := Swap(a, merged).0, Clear(b);
  }

  /** The first loop of `merge`: while both lists have elements, the smaller
      head (the other list's on ties) is pushed onto the new list. */
  method MergeHeads(a: seq<int>, b: seq<int>) returns (merged: seq<int>, i: nat, j: nat)
    ensures i <= |a| && j <= |b| && (i == |a| || j == |b|)
    ensures merged + Merged(a[i..], b[j..]) == Merged(a, b)
  {
    merged, i, j := [], 0, 0;
    while i < |a| && j < |b|
      invariant i <= |a| && j <= |b|
      invariant merged + Merged(a[i..], b[j..]) == Merged(a, b)
    {
      if a[i] < b[j] {
        MergeTakeA(a, b, i, j);
        ShiftOne(merged, a[i], Merged(a[i + 1..], b[j..]));
        merged := PushBack(merged, a[i]);
        i := i + 1;
      } else {
        MergeTakeB(a, b, i, j);
        ShiftOne(merged, b[j], Merged(a[i..], b[j + 1..]));
        merged := PushBack(merged, b[j]);
        j := j + 1;
      }
    }
  }

  /** The two trailing loops of `merge`: whatever is left of either list is
      pushed onto the new list in order. */
  method MergeTail(a: seq<int>, b: seq<int>, m: seq<int>, i0: nat, j0: nat) returns (merged: seq<int>)
    requires i0 <= |a| && j0 <= |b| && (i0 == |a| || j0 == |b|)
    requires m + Merged(a[i0..], b[j0..]) == Merged(a, b)
    ensures merged == Merged(a, b)
  {
    merged := m;
    var i, j := i0, j0;
    while i < |a|
      invariant i <= |a| && j <= |b| && (i < |a| ==> j == |b|)
      invariant merged + Merged(a[i..], b[j..]) == Merged(a, b)
    {
      MergeRestA(a, b, i, j);
      ShiftOne(merged, a[i], Merged(a[i + 1..], b[j..]));
      merged := PushBack(merged, a[i]);
      i := i + 1;
    }
    while j < |b|
      invariant i == |a| && j <= |b|
      invariant merged + Merged(a[i..], b[j..]) == Merged(a, b)
    {
      MergeRestB(a, b, i, j);
      ShiftOne(merged, b[j], Merged(a[i..], b[j + 1..]));
      merged := PushBack(merged, b[j]);
      j := j + 1;
    }
    assert a[i..] == [] && b[j..] == [];
  }

  /** Merging two sorted lists yields a sorted list holding both lists'
      elements. */
  lemma MergeSorted(a: seq<int>, b: seq<int>)
    requires Ascending(a) && Ascending(b)
    ensures Ascending(Merged(a, b))
    ensures multiset(Merged(a, b)) == multiset(a) + multiset(b)
  {
    MergedAscending(a, b);
    MergedMultiset(a, b);
  }
}

=== FILE: queue.dfy ===
/**
  s21::queue: an adapter over s21::list. The list's head is the front: `push`
  is `push_back`, `pop` is `pop_front`. The model is the list's value
  sequence, front first.
*/
module Queue {
  import opened Wrappers
  import List

  /** `queue(items)`: the list built from the items, so the first item is the
      front and the last the back. */
  function FromList<T>(items: seq<T>): (q: seq<T>)
    ensures q == items
    ensures |items| > 0 ==> Front(q) == Ok(items[0]) && Back(q) == Ok(items[|items| - 1])
  {
    List.FromList(items)
  }

  /** `front()`: out_of_range, via the list, when empty. */
  function Front<T>(q: seq<T>): (r: Result<T>)
    ensures r.Err? <==> |q| == 0
    ensures r.Err? ==> r.error == OutOfRange
    ensures r.Ok? ==> r.value == q[0]
  {
    List.Front(q)
  }

  /** `back()`: out_of_range, via the list, when empty. */
  function Back<T>(q: seq<T>): (r: Result<T>)
    ensures r.Err? <==> |q| == 0
    ensures r.Err? ==> r.error == OutOfRange
    ensures r.Ok? ==> r.value == q[|q| - 1]
  {
    List.Back(q)
  }

  /** `push(value)`: the value joins at the back; the front is unchanged
      unless the queue was empty. */
  function Push<T>(q: seq<T>, v: T): (r: seq<T>)
    ensures |r| == |q| + 1
    ensures Back(r) == Ok(v)
    ensures Front(r) == if |q| == 0 then Ok(v) else Front(q)
  {
    List.PushBack(q, v)
  }

  /** `pop()`: out_of_range, via the list's `pop_front()`, when empty;
      otherwise the oldest element leaves. */
  function Pop<T>(q: seq<T>): (r: Result<seq<T>>)
    ensures r.Err? <==> |q| == 0
    ensures r.Err? ==> r.error == OutOfRange
    ensures r.Ok? ==> [q[0]] + r.value == q
  {
    List.PopFront(q)
  }

  /** FIFO on a non-empty queue: pushing and then popping is popping and then
      pushing. */
  lemma PushPopCommute<T>(q: seq<T>, v: T)
    requires |q| > 0
    ensures Pop(Push(q, v)) == Ok(Push(Pop(q).value, v))
  {
    assert (q + [v])[1..] == q[1..] + [v];
  }

  /** Move assignment: a no-op onto itself, otherwise the list's move. Result:
      (this, source). */
  function MoveAssign<T>(dst: seq<T>, src: seq<T>, self: bool): (r: (seq<T>, seq<T>))
    requires self ==> dst == src
    ensures r.0 == src
    ensures !self ==> |r.1| == 0
  {
    if self then (dst, src) else List.MoveAssign(dst, src, false)
  }

  /** `swap(other)`: the list's swap. Result: (this, other). */
  function Swap<T>(a: seq<T>, b: seq<T>): (r: (seq<T>, seq<T>))
    ensures r.0 == b && r.1 == a
  {
    List.Swap(a, b)
  }

  /** `insert_many_back(args...)`: the list's `insert_many_back`, so the
      arguments queue up in order behind the old contents. */
  function InsertManyBack<T>(q: seq<T>, items: seq<T>): (r: seq<T>)
    ensures r == q + items
  {
    var r := List.InsertManyBack(q, items);
    assert r == r[..|q|] + r[|q|..];
    r
  }

  /** The values `front`/`pop` yield, one after another, until the queue is
      empty. */
  function Drain<T>(q: seq<T>): (out: seq<T>)
    ensures |out| == |q|
    decreases |q|
  {
    if |q| == 0 then [] else [Front(q).value] + Drain(Pop(q).value)
  }

  /** FIFO: the queue gives its elements back oldest first. */
  lemma {:induction false} DrainInOrder<T>(q: seq<T>)
    ensures Drain(q) == q
    decreases |q|
  {
    if |q| > 0 {
      DrainInOrder(q[1..]);
    }
  }

  /** Queuing items and draining yields the old contents, then the items in
      argument order. */
  lemma PushedThenDrained<T>(q: seq<T>, items: seq<T>)
    ensures Drain(InsertManyBack(q, items)) == q + items
  {
    DrainInOrder(q + items);
  }
}

=== FILE: seqorder.dfy ===
/** Orderings and index helpers over integer sequences, shared by the tree, list and multiset models. */
module SeqOrder {

  /** Non-decreasing: what an in-order walk of a duplicate-allowing tree yields. */
  predicate Ascending(s: seq<int>) {
    forall i, j :: 0 <= i < j < |s| ==> s[i] <= s[j]
  }

  /** Strictly increasing: what an in-order walk of a duplicate-free tree yields. */
  predicate StrictlyAscending(s: seq<int>) {
    forall i, j :: 0 <= i < j < |s| ==> s[i] < s[j]
  }

  /** Position of the first occurrence of `k`, or `|s|` when there is none. */
  function IndexOf(s: seq<int>, k: int): (i: nat)
    ensures i <= |s|
    ensures i < |s| ==> s[i] == k
    ensures i == |s| <==> k !in s
    ensures forall j :: 0 <= j < i ==> s[j] != k
  {
    if |s| == 0 then 0
    else if s[0] == k then 0
    else 1 + IndexOf(s[1..], k)
  }

  /** `s` without the element at position `i` (unchanged when `i` is past the end). */
  function RemoveAt<T>(s: seq<T>, i: nat): (r: seq<T>)
    ensures i < |s| ==> |r| == |s| - 1
    ensures i >= |s| ==> r == s
    ensures forall x :: x in r ==> x in s
  {
    if i < |s| then s[..i] + s[i+1..] else s
  }

  /** Removing a position takes exactly one copy of its element out of the multiset. */
  lemma RemoveAtMultiset<T>(s: seq<T>, i: nat)
    requires i < |s|
    ensures multiset(RemoveAt(s, i)) == multiset(s) - multiset{s[i]}
  {
    assert s == s[..i] + [s[i]] + s[i+1..];
  }

  /** Adding one element to a multiset of keys adds exactly that key to the members. */
  lemma GrownMembers(a: seq<int>, b: seq<int>, k: int)
    requires multiset(a) == multiset(b) + multiset{k}
    ensures forall y :: y in a <==> y in b || y == k
  {
    forall y ensures y in a <==> y in b || y == k {
      assert y in a <==> y in multiset(a);
      assert y in b <==> y in multiset(b);
    }
  }

  /** A position that satisfies the three properties of a first occurrence is `IndexOf`. */
  lemma IndexOfUnique(s: seq<int>, k: int, i: nat)
    requires i <= |s|
    requires i < |s| ==> s[i] == k
    requires i == |s| ==> k !in s
    requires forall j :: 0 <= j < i ==> s[j] != k
    ensures IndexOf(s, k) == i
  {
  }

  /** First occurrence in a concatenation. */
  lemma IndexOfAppend(a: seq<int>, b: seq<int>, k: int)
    ensures k in a ==> IndexOf(a + b, k) == IndexOf(a, k)
    ensures k !in a ==> IndexOf(a + b, k) == |a| + IndexOf(b, k)
  {
    var s := a + b;
    if k in a {
      var i := IndexOf(a, k);
      assert s[i] == a[i];
      forall j | 0 <= j < i ensures s[j] != k { assert s[j] == a[j]; }
      IndexOfUnique(s, k, i);
    } else {
      var i := IndexOf(b, k);
      if i < |b| { assert s[|a| + i] == b[i]; }
      forall j | 0 <= j < |a| + i ensures s[j] != k {
        if j < |a| { assert s[j] == a[j]; } else { assert s[j] == b[j - |a|]; }
      }
      if i == |b| {
        assert k !in s by {
          forall j | 0 <= j < |s| ensures s[j] != k {
            if j < |a| { assert s[j] == a[j]; } else { assert s[j] == b[j - |a|]; }
          }
        }
      }
      IndexOfUnique(s, k, |a| + i);
    }
  }

  /** Removing a position from a concatenation removes it from the side it falls in. */
  lemma RemoveAtAppend<T>(a: seq<T>, b: seq<T>, i: nat)
    ensures i < |a| ==> RemoveAt(a + b, i) == RemoveAt(a, i) + b
    ensures |a| <= i ==> RemoveAt(a + b, i) == a + RemoveAt(b, i - |a|)
  {
    if i < |a| {
      assert RemoveAt(a + b, i) == RemoveAt(a, i) + b by {
        assert (a + b)[..i] == a[..i];
        assert (a + b)[i+1..] == a[i+1..] + b;
      }
    } else if i < |a| + |b| {
      assert RemoveAt(a + b, i) == a + RemoveAt(b, i - |a|) by {
        assert (a + b)[..i] == a + b[..i - |a|];
        assert (a + b)[i+1..] == b[i - |a| + 1..];
      }
    }
  }

  /** First occurrence in `a + [m] + b`, the shape of an in-order walk. */
  lemma IndexOfJoin(a: seq<int>, m: int, b: seq<int>, k: int)
    ensures k in a ==> IndexOf(a + [m] + b, k) == IndexOf(a, k)
    ensures k !in a && k == m ==> IndexOf(a + [m] + b, k) == |a|
    ensures k !in a && k != m ==> IndexOf(a + [m] + b, k) == |a| + 1 + IndexOf(b, k)
  {
    assert a + [m] + b == a + ([m] + b);
    IndexOfAppend(a, [m] + b, k);
    IndexOfAppend([m], b, k);
  }

  /** Removing a position from `a + [m] + b`. */
  lemma RemoveAtJoin<T>(a: seq<T>, m: T, b: seq<T>, i: nat)
    ensures i < |a| ==> RemoveAt(a + [m] + b, i) == RemoveAt(a, i) + [m] + b
    ensures i == |a| ==> RemoveAt(a + [m] + b, i) == a + b
    ensures |a| < i ==> RemoveAt(a + [m] + b, i) == a + [m] + RemoveAt(b, i - |a| - 1)
  {
    RemoveAtAppend(a + [m], b, i);
    RemoveAtAppend(a, [m], i);
    if i == |a| {
      assert RemoveAt([m], 0) == [];
    }
  }

  /** Removing the first position drops the head. */
  lemma RemoveAtFirst<T>(s: seq<T>)
    requires |s| > 0
    ensures s == [s[0]] + RemoveAt(s, 0)
  {
    assert s[..0] + s[1..] == s[1..];
  }

  lemma JoinAssoc<T>(a: seq<T>, m: T, b: seq<T>)
    ensures a + [m] + b == a + ([m] + b)
  {
  }

  /** Removing a position that falls in the `b` part of `a + [m] + b`. */
  lemma RemoveAtJoinRight<T>(a: seq<T>, m: T, b: seq<T>, j: nat)
    ensures RemoveAt(a + [m] + b, |a| + 1 + j) == a + [m] + RemoveAt(b, j)
  {
    RemoveAtJoin(a, m, b, |a| + 1 + j);
  }

  /** `RemoveAtJoinRight`, with the whole sequence, the position and the
      shortened right part named. */
  lemma JoinRemoveRight<T>(s: seq<T>, a: seq<T>, m: T, b: seq<T>, i: nat, j: nat, b': seq<T>)
    requires s == a + [m] + b && i == |a| + 1 + j && b' == RemoveAt(b, j)
    ensures RemoveAt(s, i) == a + [m] + b'
  {
    RemoveAtJoinRight(a, m, b, j);
  }

  /** A sequence holding only `k` holds it `|t|` times. */
  lemma {:induction false} AllEqualCount(t: seq<int>, k: int)
    requires forall m :: 0 <= m < |t| ==> t[m] == k
    ensures multiset(t)[k] == |t|
  {
    if t != [] {
      assert t == [t[0]] + t[1..];
      AllEqualCount(t[1..], k);
    }
  }

  /** A prefix of a prefix. */
  lemma PrefixOfPrefix<T>(s: seq<T>, n: nat, i: nat)
    requires i < n <= |s|
    ensures s[..n][i] == s[i] && s[..n][..i] == s[..i]
  {
  }

  /** Adding the next item of `keys` to a multiset that holds its first `i` items. */
  lemma MultisetGrow<T>(a: multiset<T>, b: multiset<T>, base: multiset<T>, keys: seq<T>, i: nat)
    requires i < |keys| && a == base + multiset(keys[..i]) && b == a + multiset{keys[i]}
    ensures b == base + multiset(keys[..i + 1])
  {
    assert keys[..i + 1] == keys[..i] + [keys[i]];
  }

  /** Adding the next item of `keys` to a collection holding `base` and the first
      `i` items. */
  lemma MembersGrow(a: seq<int>, b: seq<int>, base: seq<int>, keys: seq<int>, i: nat)
    requires i < |keys|
    requires forall y :: y in a <==> y in base || y in keys[..i]
    requires forall y :: y in b <==> y in a || y == keys[i]
    ensures forall y :: y in b <==> y in base || y in keys[..i + 1]
  {
    assert keys[..i + 1] == keys[..i] + [keys[i]];
  }

  /** In an ascending sequence, the positions from the first not below `k` to
      the first above `k` hold exactly the copies of `k`. */
  lemma BoundsEnclose(s: seq<int>, k: int, i: nat, j: nat)
    requires Ascending(s) && i <= |s| && j <= |s|
    requires forall m :: 0 <= m < i ==> s[m] < k
    requires i < |s| ==> s[i] >= k
    requires forall m :: 0 <= m < j ==> s[m] <= k
    requires j < |s| ==> s[j] > k
    ensures i <= j
    ensures forall m :: i <= m < j ==> s[m] == k
    ensures j - i == multiset(s)[k]
  {
    forall m | i <= m < j ensures s[m] == k {
      assert s[i] <= s[m];
    }
    RunCount(s, k, i, j);
  }

  /** In an ascending sequence, the first element after a run of `k` that is
      not `k` lies above it. */
  lemma RunEnds(s: seq<int>, k: int, i: nat, j: nat)
    requires Ascending(s) && i <= j < |s|
    requires s[i] == k && s[j] != k
    ensures s[j] > k
  {
  }

  /** In a sorted sequence, a run `s[i..j]` of `k` with nothing equal to `k`
      before it and only larger keys after it holds every copy of `k`. */
  lemma RunCount(s: seq<int>, k: int, i: nat, j: nat)
    requires Ascending(s) && i <= j <= |s|
    requires forall m :: 0 <= m < i ==> s[m] != k
    requires forall m :: i <= m < j ==> s[m] == k
    requires j < |s| ==> s[j] > k
    ensures multiset(s)[k] == j - i
  {
    assert s == s[..i] + s[i..j] + s[j..];
    var a, b, c := s[..i], s[i..j], s[j..];
    assert k !in a by {
      forall m | 0 <= m < |a| ensures a[m] != k { }
    }
    assert k !in c by {
      forall m | 0 <= m < |c| ensures c[m] != k { assert c[m] == s[j + m]; }
    }
    AllEqualCount(b, k);
  }
}

=== FILE: stack.dfy ===
/**
  s21::stack: an adapter over s21::list. The list's tail is the top: `push`
  is `push_back`, `pop` is `pop_back`, `top` is `back`. The model is the list's
  value sequence, bottom first.
*/
module Stack {
  import opened Wrappers
  import List

  /** `stack(items)`: the list built from the items, so the last item is on
      top. */
  function FromList<T>(items: seq<T>): (s: seq<T>)
    ensures s == items
    ensures |items| > 0 ==> Top(s) == Ok(items[|items| - 1])
  {
    List.FromList(items)
  }

  /** `top()`: out_of_range, via the list's `back()`, when empty. */
  function Top<T>(s: seq<T>): (r: Result<T>)
    ensures r.Err? <==> |s| == 0
    ensures r.Err? ==> r.error == OutOfRange
    ensures r.Ok? ==> r.value == s[|s| - 1]
  {
    List.Back(s)
  }

  /** `push(value)`: the value becomes the top and one more element is held;
      popping it gives back the stack. */
  function Push<T>(s: seq<T>, v: T): (r: seq<T>)
    ensures |r| == |s| + 1
    ensures Top(r) == Ok(v)
    ensures Pop(r) == Ok(s)
  {
    List.PushBack(s, v)
  }

  /** `pop()`: out_of_range, via the list's `pop_back()`, when empty;
      otherwise the most recently pushed element leaves. */
  function Pop<T>(s: seq<T>): (r: Result<seq<T>>)
    ensures r.Err? <==> |s| == 0
    ensures r.Err? ==> r.error == OutOfRange
    ensures r.Ok? ==> r.value + [s[|s| - 1]] == s
  {
    List.PopBack(s)
  }

  /** `swap(other)`: the list's swap. Result: (this, other). */
  function Swap<T>(a: seq<T>, b: seq<T>): (r: (seq<T>, seq<T>))
    ensures r.0 == b && r.1 == a
  {
    List.Swap(a, b)
  }

  /** `insert_many_back(args...)`: the list's `insert_many_back`, so the
      arguments are pushed in order and the last one ends on top. */
  function InsertManyBack<T>(s: seq<T>, items: seq<T>): (r: seq<T>)
    ensures r == s + items
    ensures |items| > 0 ==> Top(r) == Ok(items[|items| - 1])
  {
    var r := List.InsertManyBack(s, items);
    assert r == r[..|s|] + r[|s|..];
    r
  }

  /** The values `top`/`pop` yield, one after another, until the stack is
      empty. */
  function Drain<T>(s: seq<T>): (out: seq<T>)
    ensures |out| == |s|
    decreases |s|
  {
    if |s| == 0 then [] else [Top(s).value] + Drain(Pop(s).value)
  }

  /** LIFO: the stack gives its elements back newest first. */
  lemma {:induction false} DrainReversed<T>(s: seq<T>)
    ensures Drain(s) == List.Reversed(s)
    decreases |s|
  {
    List.ReversedIndex(s);
    if |s| > 0 {
      var p := s[..|s| - 1];
      DrainReversed(p);
      List.ReversedIndex(p);
    }
  }

  /** Pushing items onto a stack and draining it yields the items newest
      first, then the older contents newest first. */
  lemma PushedThenDrained<T>(s: seq<T>, items: seq<T>)
    ensures Drain(InsertManyBack(s, items)) == List.Reversed(items) + List.Reversed(s)
  {
    DrainReversed(s + items);
    List.ReversedAppend(s, items);
  }
}

=== FILE: tree.dfy ===
/**
  The unbalanced binary search tree behind set, multiset and map
  (s21::tree<T, AllowDuplicates>), at the value level: nodes are an inductive
  datatype; parent back-pointers, node identity and allocation are not
  represented.

  Keys are integers (the source only uses `<`, `>` and `==` of the element
  type). Every node also carries a payload `val`: the mapped value for map and
  `()` for set and multiset, so every comparison looks at the key only, as the
  map's key-only node comparisons do. `AllowDuplicates` is the boolean `dup`.
*/
module Bst {
  import opened SeqOrder

  datatype Tree<V> = Leaf | Node(left: Tree<V>, key: int, val: V, right: Tree<V>)

  /** The keys in in-order (left, node, right) order: the abstraction of a tree. */
  function Keys<V>(t: Tree<V>): seq<int> {
    match t
    case Leaf => []
    case Node(l, k, _, r) => Keys(l) + [k] + Keys(r)
  }

  /** The (key, payload) pairs in in-order order: what iterating over a map yields. */
  function Entries<V>(t: Tree<V>): (r: seq<(int, V)>)
    ensures |r| == |Keys(t)|
  {
    match t
    case Leaf => []
    case Node(l, k, v, r) => Entries(l) + [(k, v)] + Entries(r)
  }

  /** Where `insertHelper` sends a key `y` that is not below node key `k`:
      strictly greater keys always, equal keys only when duplicates are allowed. */
  predicate RightOf(k: int, y: int, dup: bool) {
    k < y || (dup && k == y)
  }

  predicate AllBelow(s: seq<int>, k: int) {
    forall i :: 0 <= i < |s| ==> s[i] < k
  }

  predicate AllRightOf(s: seq<int>, k: int, dup: bool) {
    forall i :: 0 <= i < |s| ==> RightOf(k, s[i], dup)
  }

  /** The search-tree invariant: every key in the left subtree is below the
      node's key, every key in the right subtree is `RightOf` it. */
  predicate Ordered<V>(t: Tree<V>, dup: bool) {
    match t
    case Leaf => true
    case Node(l, k, _, r) =>
      Ordered(l, dup) && Ordered(r, dup) && AllBelow(Keys(l), k) && AllRightOf(Keys(r), k, dup)
  }

  lemma AllBelowMembers(s: seq<int>, k: int)
    ensures AllBelow(s, k) <==> forall y :: y in s ==> y < k
  {
    if AllBelow(s, k) {
      forall y | y in s ensures y < k { var i :| 0 <= i < |s| && s[i] == y; }
    } else {
      var i :| 0 <= i < |s| && !(s[i] < k);
      assert s[i] in s;
    }
  }

  lemma AllRightOfMembers(s: seq<int>, k: int, dup: bool)
    ensures AllRightOf(s, k, dup) <==> forall y :: y in s ==> RightOf(k, y, dup)
  {
    if AllRightOf(s, k, dup) {
      forall y | y in s ensures RightOf(k, y, dup) { var i :| 0 <= i < |s| && s[i] == y; }
    } else {
      var i :| 0 <= i < |s| && !RightOf(k, s[i], dup);
      assert s[i] in s;
    }
  }

  /** Entries and keys list the same nodes in the same order. */
  lemma {:induction false} EntriesMatchKeys<V>(t: Tree<V>)
    ensures forall i :: 0 <= i < |Keys(t)| ==> Entries(t)[i].0 == Keys(t)[i]
  {
    match t
    case Leaf =>
    case Node(l, k, v, r) =>
      EntriesMatchKeys(l);
      EntriesMatchKeys(r);
      assert Entries(t) == Entries(l) + [(k, v)] + Entries(r);
      assert Keys(t) == Keys(l) + [k] + Keys(r);
  }

  /** The keys of a sequence of entries, in order. */
  function KeysOf<V>(es: seq<(int, V)>): (ks: seq<int>)
    ensures |ks| == |es|
    ensures forall i :: 0 <= i < |es| ==> ks[i] == es[i].0
  {
    if es == [] then [] else [es[0].0] + KeysOf(es[1..])
  }

  /** The keys of a prefix are the prefix of the keys. */
  lemma KeysOfPrefix<V>(es: seq<(int, V)>, i: nat)
    requires i <= |es|
    ensures KeysOf(es[..i]) == KeysOf(es)[..i]
  {
    assert forall n :: 0 <= n < i ==> KeysOf(es[..i])[n] == es[n].0;
  }

  /** Dropping the payloads of the entries gives the keys. */
  lemma KeysOfEntries<V>(t: Tree<V>)
    ensures KeysOf(Entries(t)) == Keys(t)
  {
    EntriesMatchKeys(t);
  }

  /** The in-order walk of an ordered tree is sorted: strictly when duplicates
      are refused, non-decreasingly when they are allowed. */
  lemma {:induction false} OrderedKeysSorted<V>(t: Tree<V>, dup: bool)
    requires Ordered(t, dup)
    ensures Ascending(Keys(t))
    ensures !dup ==> StrictlyAscending(Keys(t))
  {
    match t
    case Leaf =>
    case Node(l, k, _, r) =>
      OrderedKeysSorted(l, dup);
      OrderedKeysSorted(r, dup);
      SortedJoin(Keys(l), k, Keys(r), dup);
  }

  lemma SortedJoin(a: seq<int>, k: int, b: seq<int>, dup: bool)
    requires Ascending(a) && Ascending(b) && AllBelow(a, k) && AllRightOf(b, k, dup)
    requires !dup ==> StrictlyAscending(a) && StrictlyAscending(b)
    ensures Ascending(a + [k] + b)
    ensures !dup ==> StrictlyAscending(a + [k] + b)
  {
    var s := a + [k] + b;
    forall i, j | 0 <= i < j < |s|
      ensures s[i] <= s[j]
      ensures !dup ==> s[i] < s[j]
    {
      if j < |a| {
        assert s[i] == a[i] && s[j] == a[j];
      } else if j == |a| {
        assert s[i] == a[i];
      } else if i < |a| {
        assert s[i] == a[i] && s[j] == b[j - |a| - 1];
      } else if i == |a| {
        assert s[j] == b[j - |a| - 1];
      } else {
        assert s[i] == b[i - |a| - 1] && s[j] == b[j - |a| - 1];
      }
    }
  }

  // ---------------------------------------------------------------------------
  // insert / insertHelper
  // ---------------------------------------------------------------------------

  /** `insertHelper`: descend left on smaller keys, right on larger keys, and on
      an equal key either stop (no duplicates) or go right (duplicates); a new
      leaf is attached where the descent falls off. The flag is `inserted`. */
  function InsertNode<V>(t: Tree<V>, k: int, v: V, dup: bool): (r: (Tree<V>, bool))
    ensures r.1 ==> multiset(Keys(r.0)) == multiset(Keys(t)) + multiset{k}
    ensures !r.1 ==> r.0 == t
  {
    match t
    case Leaf => (Node(Leaf, k, v, Leaf), true)
    case Node(l, x, w, rt) =>
      if k < x then
        var p := InsertNode(l, k, v, dup);
        (Node(p.0, x, w, rt), p.1)
      else if k > x then
        var p := InsertNode(rt, k, v, dup);
        (Node(l, x, w, p.0), p.1)
      else if dup then
        var p := InsertNode(rt, k, v, dup);
        (Node(l, x, w, p.0), p.1)
      else
        (t, false)
  }

  /** Insertion keeps the search-tree invariant, and a node is created exactly
      when duplicates are allowed or the key is absent. */
  lemma {:induction false} InsertOrdered<V>(t: Tree<V>, k: int, v: V, dup: bool)
    requires Ordered(t, dup)
    ensures Ordered(InsertNode(t, k, v, dup).0, dup)
    ensures InsertNode(t, k, v, dup).1 <==> dup || k !in Keys(t)
  {
    match t
    case Leaf =>
    case Node(l, x, w, rt) =>
      if k < x {
        InsertOrdered(l, k, v, dup);
        InsertLeftStep(l, x, w, rt, k, v, dup);
      } else if k > x || dup {
        InsertOrdered(rt, k, v, dup);
        InsertRightStep(l, x, w, rt, k, v, dup);
      }
  }

  lemma InsertLeftStep<V>(l: Tree<V>, x: int, w: V, rt: Tree<V>, k: int, v: V, dup: bool)
    requires Ordered(Node(l, x, w, rt), dup) && k < x
    requires Ordered(InsertNode(l, k, v, dup).0, dup)
    requires InsertNode(l, k, v, dup).1 <==> dup || k !in Keys(l)
    ensures Ordered(InsertNode(Node(l, x, w, rt), k, v, dup).0, dup)
    ensures InsertNode(Node(l, x, w, rt), k, v, dup).1 <==> dup || k !in Keys(Node(l, x, w, rt))
  {
    var p := InsertNode(l, k, v, dup);
    assert InsertNode(Node(l, x, w, rt), k, v, dup) == (Node(p.0, x, w, rt), p.1);
    InsertStaysBelow(l, x, k, v, dup);
    JoinMembersLeft(Keys(l), x, Keys(rt), k, dup);
  }

  /** Inserting a key below the bound keeps every key below it. */
  lemma InsertStaysBelow<V>(l: Tree<V>, x: int, k: int, v: V, dup: bool)
    requires AllBelow(Keys(l), x) && k < x
    ensures AllBelow(Keys(InsertNode(l, k, v, dup).0), x)
  {
    var p := InsertNode(l, k, v, dup);
    if p.1 {
      GrownMembers(Keys(p.0), Keys(l), k);
      forall i | 0 <= i < |Keys(p.0)| ensures Keys(p.0)[i] < x {
        assert Keys(p.0)[i] in Keys(p.0);
      }
    }
  }

  /** Inserting a key on the right side keeps every key right of the bound. */
  lemma InsertStaysRight<V>(rt: Tree<V>, x: int, k: int, v: V, dup: bool)
    requires AllRightOf(Keys(rt), x, dup) && RightOf(x, k, dup)
    ensures AllRightOf(Keys(InsertNode(rt, k, v, dup).0), x, dup)
  {
    var p := InsertNode(rt, k, v, dup);
    if p.1 {
      GrownMembers(Keys(p.0), Keys(rt), k);
      forall i | 0 <= i < |Keys(p.0)| ensures RightOf(x, Keys(p.0)[i], dup) {
        assert Keys(p.0)[i] in Keys(p.0);
      }
    }
  }

  /** A key below the root of a search tree can only occur on its left. */
  lemma JoinMembersLeft(a: seq<int>, x: int, b: seq<int>, k: int, dup: bool)
    requires AllRightOf(b, x, dup) && k < x
    ensures k in a + [x] + b <==> k in a
  {
    AllRightOfMembers(b, x, dup);
  }

  /** A key not below the root of a search tree can only occur at the root or
      on its right. */
  lemma JoinMembersRight(a: seq<int>, x: int, b: seq<int>, k: int)
    requires AllBelow(a, x) && k >= x
    ensures k in a + [x] + b <==> k == x || k in b
  {
    AllBelowMembers(a, x);
  }

  lemma InsertRightStep<V>(l: Tree<V>, x: int, w: V, rt: Tree<V>, k: int, v: V, dup: bool)
    requires Ordered(Node(l, x, w, rt), dup) && (k > x || (dup && k == x))
    requires Ordered(InsertNode(rt, k, v, dup).0, dup)
    requires InsertNode(rt, k, v, dup).1 <==> dup || k !in Keys(rt)
    ensures Ordered(InsertNode(Node(l, x, w, rt), k, v, dup).0, dup)
    ensures InsertNode(Node(l, x, w, rt), k, v, dup).1 <==> dup || k !in Keys(Node(l, x, w, rt))
  {
    var p := InsertNode(rt, k, v, dup);
    assert InsertNode(Node(l, x, w, rt), k, v, dup) == (Node(l, x, w, p.0), p.1);
    InsertStaysRight(rt, x, k, v, dup);
    JoinMembersRight(Keys(l), x, Keys(rt), k);
  }

  // ---------------------------------------------------------------------------
  // Paths: the value-level stand-in for node pointers and iterators
  // ---------------------------------------------------------------------------

  datatype Dir = L | R

  /** An iterator: the null iterator `End`, or the path from the root to a node. */
  datatype Cursor = End | At(path: seq<Dir>)

  /** The subtree reached by following `p` from the root (`Leaf` once it falls off). */
  function Subtree<V>(t: Tree<V>, p: seq<Dir>): Tree<V>
    decreases |p|
  {
    if p == [] then t
    else match t
      case Leaf => Leaf
      case Node(l, _, _, r) => Subtree(if p[0] == L then l else r, p[1..])
  }

  /** One step down, then the rest of the path. */
  lemma SubtreeCons<V>(t: Tree<V>, d: Dir, p: seq<Dir>)
    requires t.Node?
    ensures Subtree(t, [d] + p) == Subtree(if d == L then t.left else t.right, p)
  {
    assert ([d] + p)[0] == d;
    assert ([d] + p)[1..] == p;
  }

  /** `p` leads to a node, so the iterator it stands for can be dereferenced. */
  predicate ValidPath<V>(t: Tree<V>, p: seq<Dir>) {
    Subtree(t, p).Node?
  }

  predicate ValidCursor<V>(t: Tree<V>, c: Cursor) {
    c.End? || ValidPath(t, c.path)
  }

  /** `*it`: the key of the node a path leads to. */
  function KeyAt<V>(t: Tree<V>, p: seq<Dir>): int
    requires ValidPath(t, p)
  {
    Subtree(t, p).key
  }

  /** The payload of the node a path leads to. */
  function ValAt<V>(t: Tree<V>, p: seq<Dir>): V
    requires ValidPath(t, p)
  {
    Subtree(t, p).val
  }

  /** The in-order position of the node a path leads to. */
  function Index<V>(t: Tree<V>, p: seq<Dir>): nat
    requires ValidPath(t, p)
    decreases |p|
  {
    if p == [] then |Keys(t.left)|
    else if p[0] == L then Index(t.left, p[1..])
    else |Keys(t.left)| + 1 + Index(t.right, p[1..])
  }

  /** In-order position of an iterator; `End` sits just past the last key. */
  function Position<V>(t: Tree<V>, c: Cursor): nat
    requires ValidCursor(t, c)
  {
    if c.End? then |Keys(t)| else Index(t, c.path)
  }

  /** A path's in-order position holds the key and payload the path leads to. */
  lemma {:induction false} IndexHoldsKey<V>(t: Tree<V>, p: seq<Dir>)
    requires ValidPath(t, p)
    ensures Index(t, p) < |Keys(t)| == |Entries(t)|
    ensures Keys(t)[Index(t, p)] == KeyAt(t, p)
    ensures Entries(t)[Index(t, p)] == (KeyAt(t, p), ValAt(t, p))
    decreases |p|
  {
    EntriesMatchKeys(t);
    var Node(l, x, w, r) := t;
    assert Keys(t) == Keys(l) + [x] + Keys(r);
    assert Entries(t) == Entries(l) + [(x, w)] + Entries(r);
    EntriesMatchKeys(l);
    if p == [] {
    } else if p[0] == L {
      IndexHoldsKey(l, p[1..]);
    } else {
      IndexHoldsKey(r, p[1..]);
    }
  }

  /** Insertion only adds a leaf: a path that led to a node still leads to a
      node with the same key and payload, so iterators stay valid. */
  lemma {:induction false} InsertKeepsPath<V>(t: Tree<V>, k: int, v: V, dup: bool, p: seq<Dir>)
    requires ValidPath(t, p)
    ensures ValidPath(InsertNode(t, k, v, dup).0, p)
    ensures KeyAt(InsertNode(t, k, v, dup).0, p) == KeyAt(t, p)
    ensures ValAt(InsertNode(t, k, v, dup).0, p) == ValAt(t, p)
    decreases |p|
  {
    if p != [] {
      var Node(l, x, w, r) := t;
      if p[0] == L && k < x {
        InsertKeepsPath(l, k, v, dup, p[1..]);
      } else if p[0] == R && (k > x || (dup && k == x)) {
        InsertKeepsPath(r, k, v, dup, p[1..]);
      }
    }
  }

  // ---------------------------------------------------------------------------
  // find / findHelper
  // ---------------------------------------------------------------------------

  /** `findHelper`: descend by comparison and stop at the first node with an
      equal key; falling off the tree yields the null iterator. */
  function Find<V>(t: Tree<V>, k: int): (c: Cursor)
    ensures c.At? ==> ValidPath(t, c.path) && KeyAt(t, c.path) == k
    ensures k !in Keys(t) ==> c.End?
  {
    match t
    case Leaf => End
    case Node(l, x, _, r) =>
      if k < x then
        var f := Find(l, k);
        if f.At? then SubtreeCons(t, L, f.path); At([L] + f.path) else End
      else if k > x then
        var f := Find(r, k);
        if f.At? then SubtreeCons(t, R, f.path); At([R] + f.path) else End
      else At([])
  }

  /** `find(k)` is the null iterator exactly when no key equals `k`; otherwise it
      leads to a node holding `k`, and that node is the FIRST key equal to `k` in
      in-order order, also when duplicates are allowed. */
  lemma {:induction false} FindCorrect<V>(t: Tree<V>, k: int, dup: bool)
    requires Ordered(t, dup)
    ensures Find(t, k).End? <==> k !in Keys(t)
    ensures Find(t, k).At? ==> ValidPath(t, Find(t, k).path) && KeyAt(t, Find(t, k).path) == k
    ensures Find(t, k).At? ==> Index(t, Find(t, k).path) == IndexOf(Keys(t), k)
  {
    match t
    case Leaf =>
    case Node(l, x, _, r) =>
      if k < x {
        FindCorrect(l, k, dup);
        FindLeftStep(t, k, dup);
      } else if k > x {
        FindCorrect(r, k, dup);
        FindRightStep(t, k, dup);
      } else {
        assert Keys(t) == Keys(l) + ([x] + Keys(r));
        AllBelowMembers(Keys(l), x);
        IndexOfAppend(Keys(l), [x] + Keys(r), k);
      }
  }

  lemma FindLeftStep<V>(t: Tree<V>, k: int, dup: bool)
    requires t.Node? && Ordered(t, dup) && k < t.key
    requires Find(t.left, k).End? <==> k !in Keys(t.left)
    requires Find(t.left, k).At? ==> ValidPath(t.left, Find(t.left, k).path) && KeyAt(t.left, Find(t.left, k).path) == k
    requires Find(t.left, k).At? ==> Index(t.left, Find(t.left, k).path) == IndexOf(Keys(t.left), k)
    ensures Find(t, k).End? <==> k !in Keys(t)
    ensures Find(t, k).At? ==> ValidPath(t, Find(t, k).path) && KeyAt(t, Find(t, k).path) == k
    ensures Find(t, k).At? ==> Index(t, Find(t, k).path) == IndexOf(Keys(t), k)
  {
    var Node(l, x, _, r) := t;
    assert Keys(t) == Keys(l) + ([x] + Keys(r));
    AllRightOfMembers(Keys(r), x, dup);
    assert k !in [x] + Keys(r);
    IndexOfAppend(Keys(l), [x] + Keys(r), k);
    if Find(l, k).At? {
      var p := Find(l, k).path;
      assert ([L] + p)[1..] == p;
    }
  }

  lemma FindRightStep<V>(t: Tree<V>, k: int, dup: bool)
    requires t.Node? && Ordered(t, dup) && k > t.key
    requires Find(t.right, k).End? <==> k !in Keys(t.right)
    requires Find(t.right, k).At? ==> ValidPath(t.right, Find(t.right, k).path) && KeyAt(t.right, Find(t.right, k).path) == k
    requires Find(t.right, k).At? ==> Index(t.right, Find(t.right, k).path) == IndexOf(Keys(t.right), k)
    ensures Find(t, k).End? <==> k !in Keys(t)
    ensures Find(t, k).At? ==> ValidPath(t, Find(t, k).path) && KeyAt(t, Find(t, k).path) == k
    ensures Find(t, k).At? ==> Index(t, Find(t, k).path) == IndexOf(Keys(t), k)
  {
    var Node(l, x, _, r) := t;
    assert Keys(t) == (Keys(l) + [x]) + Keys(r);
    AllBelowMembers(Keys(l), x);
    assert k !in Keys(l) + [x];
    IndexOfAppend(Keys(l) + [x], Keys(r), k);
    if Find(r, k).At? {
      var p := Find(r, k).path;
      assert ([R] + p)[1..] == p;
    }
  }

  /** `find(k) != end()`. */
  function Contains<V>(t: Tree<V>, k: int): bool {
    Find(t, k).At?
  }

  // ---------------------------------------------------------------------------
  // erase / eraseHelper
  // ---------------------------------------------------------------------------

  /** The leftmost node's key and payload: the in-order successor that the
      two-children case of `eraseHelper` promotes. */
  function Min<V>(t: Tree<V>): (r: (int, V))
    requires t.Node?
    ensures r.0 == Keys(t)[0]
    ensures r == Entries(t)[0]
  {
    if t.left.Leaf? then (t.key, t.val) else Min(t.left)
  }

  /** `eraseHelper`: descend to the first node whose key equals `k`; with no left
      child it is replaced by its right subtree, with no right child by its left
      subtree, and with two children by a node carrying the successor's key and
      payload, after the successor has been erased from the right subtree. */
  function EraseKey<V>(t: Tree<V>, k: int): (u: Tree<V>)
    ensures k !in Keys(t) ==> u == t
    ensures |Keys(u)| == |Keys(t)| || |Keys(u)| + 1 == |Keys(t)|
  {
    match t
    case Leaf => Leaf
    case Node(l, x, w, r) =>
      if k < x then Node(EraseKey(l, k), x, w, r)
      else if k > x then Node(l, x, w, EraseKey(r, k))
      else if l.Leaf? then r
      else if r.Leaf? then l
      else
        var m := Min(r);
        Node(l, m.0, m.1, EraseKey(r, m.0))
  }

  /** The facts `EraseKeyCorrect` states, for reuse as an induction hypothesis. */
  ghost predicate EraseSpec<V>(t: Tree<V>, k: int, dup: bool) {
    && Ordered(EraseKey(t, k), dup)
    && Keys(EraseKey(t, k)) == RemoveAt(Keys(t), IndexOf(Keys(t), k))
    && Entries(EraseKey(t, k)) == RemoveAt(Entries(t), IndexOf(Keys(t), k))
    && (k !in Keys(t) ==> EraseKey(t, k) == t)
  }

  /** Erasing a key from an ordered tree keeps it ordered and removes exactly the
      first in-order occurrence of the key (with its payload); a missing key
      changes nothing. */
  lemma {:induction false} EraseKeyCorrect<V>(t: Tree<V>, k: int, dup: bool)
    requires Ordered(t, dup)
    ensures Ordered(EraseKey(t, k), dup)
    ensures Keys(EraseKey(t, k)) == RemoveAt(Keys(t), IndexOf(Keys(t), k))
    ensures Entries(EraseKey(t, k)) == RemoveAt(Entries(t), IndexOf(Keys(t), k))
    ensures k !in Keys(t) ==> EraseKey(t, k) == t
  {
    match t
    case Leaf =>
    case Node(l, x, w, r) =>
      if k < x {
        EraseKeyCorrect(l, k, dup);
        EraseLeftStep(l, x, w, r, k, dup);
      } else if k > x {
        EraseKeyCorrect(r, k, dup);
        EraseRightStep(l, x, w, r, k, dup);
      } else if l.Node? && r.Node? {
        OrderedKeysSorted(r, dup);
        EraseKeyCorrect(r, Min(r).0, dup);
        EraseTwoChildrenStep(l, x, w, r, dup);
      } else {
        EraseOneChildStep(l, x, w, r, dup);
      }
  }

  lemma AllBelowSub(s: seq<int>, q: seq<int>, k: int)
    requires AllBelow(s, k) && forall y :: y in q ==> y in s
    ensures AllBelow(q, k)
  {
    AllBelowMembers(s, k);
    AllBelowMembers(q, k);
  }

  lemma AllRightOfSub(s: seq<int>, q: seq<int>, k: int, dup: bool)
    requires AllRightOf(s, k, dup) && forall y :: y in q ==> y in s
    ensures AllRightOf(q, k, dup)
  {
    AllRightOfMembers(s, k, dup);
    AllRightOfMembers(q, k, dup);
  }

  lemma EraseLeftStep<V>(l: Tree<V>, x: int, w: V, r: Tree<V>, k: int, dup: bool)
    requires Ordered(Node(l, x, w, r), dup) && k < x
    requires EraseSpec(l, k, dup)
    ensures EraseSpec(Node(l, x, w, r), k, dup)
  {
    AllRightOfMembers(Keys(r), x, dup);
    IndexOfJoin(Keys(l), x, Keys(r), k);
    if k in Keys(l) {
      var i := IndexOf(Keys(l), k);
      RemoveAtJoin(Keys(l), x, Keys(r), i);
      RemoveAtJoin(Entries(l), (x, w), Entries(r), i);
      AllBelowSub(Keys(l), Keys(EraseKey(l, k)), x);
    }
  }

  lemma EraseRightStep<V>(l: Tree<V>, x: int, w: V, r: Tree<V>, k: int, dup: bool)
    requires Ordered(Node(l, x, w, r), dup) && k > x
    requires EraseSpec(r, k, dup)
    ensures EraseSpec(Node(l, x, w, r), k, dup)
  {
    AllBelowMembers(Keys(l), x);
    AllRightOfSub(Keys(r), Keys(EraseKey(r, k)), x, dup);
    EraseRightSeqs(l, x, w, r, k);
  }

  lemma EraseRightSeqs<V>(l: Tree<V>, x: int, w: V, r: Tree<V>, k: int)
    requires k > x && k !in Keys(l)
    requires Keys(EraseKey(r, k)) == RemoveAt(Keys(r), IndexOf(Keys(r), k))
    requires Entries(EraseKey(r, k)) == RemoveAt(Entries(r), IndexOf(Keys(r), k))
    ensures Keys(EraseKey(Node(l, x, w, r), k)) == RemoveAt(Keys(Node(l, x, w, r)), IndexOf(Keys(Node(l, x, w, r)), k))
    ensures Entries(EraseKey(Node(l, x, w, r), k)) == RemoveAt(Entries(Node(l, x, w, r)), IndexOf(Keys(Node(l, x, w, r)), k))
  {
    IndexOfJoin(Keys(l), x, Keys(r), k);
    EraseRightKeys(l, x, w, r, k, IndexOf(Keys(Node(l, x, w, r)), k));
    EraseRightEntries(l, x, w, r, k, IndexOf(Keys(Node(l, x, w, r)), k));
  }

  lemma EraseRightKeys<V>(l: Tree<V>, x: int, w: V, r: Tree<V>, k: int, i: nat)
    requires k > x && i == |Keys(l)| + 1 + IndexOf(Keys(r), k)
    requires Keys(EraseKey(r, k)) == RemoveAt(Keys(r), IndexOf(Keys(r), k))
    ensures Keys(EraseKey(Node(l, x, w, r), k)) == RemoveAt(Keys(Node(l, x, w, r)), i)
  {
    var r' := EraseKey(r, k);
    assert EraseKey(Node(l, x, w, r), k) == Node(l, x, w, r');
    JoinRemoveRight(Keys(Node(l, x, w, r)), Keys(l), x, Keys(r), i, IndexOf(Keys(r), k), Keys(r'));
  }

  lemma EraseRightEntries<V>(l: Tree<V>, x: int, w: V, r: Tree<V>, k: int, i: nat)
    requires k > x && i == |Keys(l)| + 1 + IndexOf(Keys(r), k)
    requires Entries(EraseKey(r, k)) == RemoveAt(Entries(r), IndexOf(Keys(r), k))
    ensures Entries(EraseKey(Node(l, x, w, r), k)) == RemoveAt(Entries(Node(l, x, w, r)), i)
  {
    var r' := EraseKey(r, k);
    assert EraseKey(Node(l, x, w, r), k) == Node(l, x, w, r');
    JoinRemoveRight(Entries(Node(l, x, w, r)), Entries(l), (x, w), Entries(r), i, IndexOf(Keys(r), k), Entries(r'));
  }

  lemma EraseOneChildStep<V>(l: Tree<V>, x: int, w: V, r: Tree<V>, dup: bool)
    requires Ordered(Node(l, x, w, r), dup) && (l.Leaf? || r.Leaf?)
    ensures EraseSpec(Node(l, x, w, r), x, dup)
  {
    AllBelowMembers(Keys(l), x);
    IndexOfJoin(Keys(l), x, Keys(r), x);
    RemoveAtJoin(Keys(l), x, Keys(r), |Keys(l)|);
    RemoveAtJoin(Entries(l), (x, w), Entries(r), |Keys(l)|);
  }

  lemma EraseTwoChildrenStep<V>(l: Tree<V>, x: int, w: V, r: Tree<V>, dup: bool)
    requires Ordered(Node(l, x, w, r), dup) && l.Node? && r.Node?
    requires Ascending(Keys(r)) && (!dup ==> StrictlyAscending(Keys(r)))
    requires EraseSpec(r, Min(r).0, dup)
    ensures EraseSpec(Node(l, x, w, r), x, dup)
  {
    var m := Min(r);
    var r' := EraseKey(r, m.0);
    EraseTwoChildrenKeys(l, x, w, r, dup);
    // the in-order sequences only lose the erased node
    AllBelowMembers(Keys(l), x);
    IndexOfJoin(Keys(l), x, Keys(r), x);
    RemoveAtJoin(Keys(l), x, Keys(r), |Keys(l)|);
    RemoveAtJoin(Entries(l), (x, w), Entries(r), |Keys(l)|);
    assert IndexOf(Keys(r), m.0) == 0;
    RemoveAtFirst(Entries(r));
    JoinAssoc(Keys(l), m.0, Keys(r'));
    JoinAssoc(Entries(l), m, Entries(r'));
  }

  /** The ordering half of the two-children case: the promoted successor sits
      between the two subtrees. */
  lemma EraseTwoChildrenKeys<V>(l: Tree<V>, x: int, w: V, r: Tree<V>, dup: bool)
    requires Ordered(Node(l, x, w, r), dup) && l.Node? && r.Node?
    requires Ascending(Keys(r)) && (!dup ==> StrictlyAscending(Keys(r)))
    requires EraseSpec(r, Min(r).0, dup)
    ensures Ordered(EraseKey(Node(l, x, w, r), x), dup)
    ensures Keys(r) == [Min(r).0] + Keys(EraseKey(r, Min(r).0))
  {
    var m := Min(r);
    var r' := EraseKey(r, m.0);
    assert IndexOf(Keys(r), m.0) == 0;
    RemoveAtFirst(Keys(r));
    assert RightOf(x, Keys(r)[0], dup);
    forall i | 0 <= i < |Keys(l)| ensures Keys(l)[i] < m.0 { }
    forall i | 0 <= i < |Keys(r')| ensures RightOf(m.0, Keys(r')[i], dup) {
      assert Keys(r')[i] == Keys(r)[i + 1];
    }
  }
}

=== FILE: treecontainer.dfy ===
/**
  The tree object itself (s21::tree): a root plus the `size_` counter, and the
  operations set, multiset and map delegate to.
*/
module BstContainer {
  import opened Wrappers
  import opened SeqOrder
  import opened Bst
  import opened BstLookup

  /** `root` is `parent_`, `size` is `size_`, `dup` is `AllowDuplicates`. */
  datatype SearchTree<V> = SearchTree(root: Tree<V>, size: nat, dup: bool)

  /** The class invariant: the nodes form a search tree and `size_` counts them. */
  predicate Valid<V>(c: SearchTree<V>) {
    Ordered(c.root, c.dup) && c.size == |Keys(c.root)|
  }

  /** The default constructor and `clear()`: no nodes, size 0. */
  function Empty<V>(dup: bool): (c: SearchTree<V>)
    ensures Valid(c) && c.dup == dup && Keys(c.root) == []
  {
    SearchTree(Leaf, 0, dup)
  }

  /** `insert(data)`: `insertHelper` on the root, and `size_` grows exactly when
      a node was created. */
  function Insert<V>(c: SearchTree<V>, k: int, v: V): (r: (SearchTree<V>, bool))
    requires Valid(c)
    ensures Valid(r.0) && r.0.dup == c.dup
    ensures r.1 <==> c.dup || k !in Keys(c.root)
    ensures r.1 ==> multiset(Keys(r.0.root)) == multiset(Keys(c.root)) + multiset{k}
    ensures r.1 ==> r.0.size == c.size + 1
    ensures !r.1 ==> r.0 == c
  {
    InsertOrdered(c.root, k, v, c.dup);
    var p := InsertNode(c.root, k, v, c.dup);
    (SearchTree(p.0, if p.1 then c.size + 1 else c.size, c.dup), p.1)
  }

  /** Inserting leaves every existing node where it was: an iterator obtained
      before the insert still leads to the same key and payload. */
  lemma InsertKeepsPaths<V>(c: SearchTree<V>, k: int, v: V)
    requires Valid(c)
    ensures forall p :: ValidPath(c.root, p) ==>
      && ValidPath(Insert(c, k, v).0.root, p)
      && KeyAt(Insert(c, k, v).0.root, p) == KeyAt(c.root, p)
      && ValAt(Insert(c, k, v).0.root, p) == ValAt(c.root, p)
  {
    forall p | ValidPath(c.root, p)
      ensures ValidPath(Insert(c, k, v).0.root, p)
      ensures KeyAt(Insert(c, k, v).0.root, p) == KeyAt(c.root, p)
      ensures ValAt(Insert(c, k, v).0.root, p) == ValAt(c.root, p)
    {
      InsertKeepsPath(c.root, k, v, c.dup, p);
    }
  }

  /** The initializer-list constructor: insert the items one after another. With
      duplicates every item becomes a node; without, the keys become the set of
      item keys. */
  function InsertAll<V>(c: SearchTree<V>, items: seq<(int, V)>): (r: SearchTree<V>)
    requires Valid(c)
    ensures Valid(r) && r.dup == c.dup
    ensures c.dup ==> multiset(Keys(r.root)) == multiset(Keys(c.root)) + multiset(KeysOf(items))
    ensures forall y :: y in Keys(r.root) <==> y in Keys(c.root) || y in KeysOf(items)
    decreases |items|
  {
    if items == [] then c
    else
      var p := Insert(c, items[0].0, items[0].1);
      InsertAllStep(c, items, p.0);
      InsertAll(p.0, items[1..])
  }

  lemma InsertAllStep<V>(c: SearchTree<V>, items: seq<(int, V)>, c': SearchTree<V>)
    requires Valid(c) && items != [] && c' == Insert(c, items[0].0, items[0].1).0
    ensures c.dup ==> (multiset(Keys(c'.root)) + multiset(KeysOf(items[1..])) == multiset(Keys(c.root)) + multiset(KeysOf(items)))
    ensures forall y :: y in Keys(c'.root) || y in KeysOf(items[1..]) <==> y in Keys(c.root) || y in KeysOf(items)
  {
    assert KeysOf(items) == [items[0].0] + KeysOf(items[1..]);
    var k := items[0].0;
    if Insert(c, k, items[0].1).1 {
      GrownMembers(Keys(c'.root), Keys(c.root), k);
    }
  }

  /** Inserting `a` and then `b` is inserting `a + b`. */
  lemma {:induction false} InsertAllAppend<V>(c: SearchTree<V>, a: seq<(int, V)>, b: seq<(int, V)>)
    requires Valid(c)
    ensures InsertAll(c, a + b) == InsertAll(InsertAll(c, a), b)
    decreases |a|
  {
    if a != [] {
      assert (a + b)[0] == a[0] && (a + b)[1..] == a[1..] + b;
      InsertAllAppend(Insert(c, a[0].0, a[0].1).0, a[1..], b);
    } else {
      assert a + b == b;
    }
  }

  /** Inserting the items up to `i` and then item `i`. */
  lemma InsertAllSnoc<V>(c: SearchTree<V>, items: seq<(int, V)>, i: nat)
    requires Valid(c) && i < |items|
    ensures InsertAll(c, items[..i + 1]) == Insert(InsertAll(c, items[..i]), items[i].0, items[i].1).0
  {
    assert items[..i + 1] == items[..i] + [items[i]];
    InsertAllAppend(c, items[..i], [items[i]]);
    assert [items[i]][1..] == [];
  }

  /** `tree(std::initializer_list)`. */
  function FromList<V>(items: seq<(int, V)>, dup: bool): (r: SearchTree<V>)
    ensures Valid(r) && r.dup == dup
    ensures dup ==> multiset(Keys(r.root)) == multiset(KeysOf(items))
    ensures forall y :: y in Keys(r.root) <==> y in KeysOf(items)
  {
    InsertAll(Empty(dup), items)
  }

  /** Keys without payload, the items set and multiset hand to the tree. */
  function Unit(keys: seq<int>): (es: seq<(int, ())>)
    ensures KeysOf(es) == keys
  {
    if keys == [] then [] else [(keys[0], ())] + Unit(keys[1..])
  }

  /** The first `n` iterators of an `insert_many` result each lead, in tree `t`,
      to the key they were returned for. */
  predicate Leads<V>(t: Tree<V>, res: seq<(Cursor, bool)>, keys: seq<int>, n: nat)
    requires n <= |res| && n <= |keys|
  {
    forall j :: 0 <= j < n ==>
      res[j].0.At? && ValidPath(t, res[j].0.path) && KeyAt(t, res[j].0.path) == keys[j]
  }

  /** Only the first `n` keys matter. */
  lemma LeadsPrefix<V>(t: Tree<V>, res: seq<(Cursor, bool)>, keys: seq<int>, n: nat)
    requires n <= |res| && n <= |keys| && Leads(t, res, keys[..n], n)
    ensures Leads(t, res, keys, n)
  {
    assert forall j :: 0 <= j < n ==> keys[..n][j] == keys[j];
  }

  /** Earlier iterators survive a change that keeps every node in place, and the
      new one joins them. */
  lemma LeadsStep<V>(t: Tree<V>, t': Tree<V>, c: Cursor, b: bool, res: seq<(Cursor, bool)>, keys: seq<int>, i: nat)
    requires i == |res| && i < |keys| && Leads(t, res, keys, i)
    requires forall p :: ValidPath(t, p) ==> ValidPath(t', p) && KeyAt(t', p) == KeyAt(t, p)
    requires c.At? && ValidPath(t', c.path) && KeyAt(t', c.path) == keys[i]
    ensures Leads(t', res + [(c, b)], keys, i + 1)
  {
  }

  /** `erase(pos)`: `eraseHelper(parent_, *pos)` removes the first node holding
      the key `pos` points at, and `size_` drops by one. */
  function EraseAt<V>(c: SearchTree<V>, p: seq<Dir>): (r: SearchTree<V>)
    requires Valid(c) && ValidPath(c.root, p)
    ensures Valid(r) && r.dup == c.dup
    ensures Keys(r.root) == RemoveAt(Keys(c.root), IndexOf(Keys(c.root), KeyAt(c.root, p)))
    ensures Entries(r.root) == RemoveAt(Entries(c.root), IndexOf(Keys(c.root), KeyAt(c.root, p)))
    ensures multiset(Keys(r.root)) == multiset(Keys(c.root)) - multiset{KeyAt(c.root, p)}
    ensures r.size == c.size - 1
  {
    var k := KeyAt(c.root, p);
    IndexHoldsKey(c.root, p);
    EraseKeyCorrect(c.root, k, c.dup);
    RemoveAtMultiset(Keys(c.root), IndexOf(Keys(c.root), k));
    SearchTree(EraseKey(c.root, k), c.size - 1, c.dup)
  }

  /** The node-by-node `copy` of the copy constructor and copy assignment. */
  function Copy<V>(t: Tree<V>): (r: Tree<V>)
    ensures r == t
  {
    match t
    case Leaf => Leaf
    case Node(l, k, v, rt) => Node(Copy(l), k, v, Copy(rt))
  }

  /** The copy constructor: a deep copy with the same size. */
  function CopyOf<V>(c: SearchTree<V>): (r: SearchTree<V>)
    ensures r == c
  {
    SearchTree(Copy(c.root), c.size, c.dup)
  }

  /** The move constructor and move assignment: the target takes the nodes, the
      source is left empty. */
  function MoveFrom<V>(c: SearchTree<V>): (r: (SearchTree<V>, SearchTree<V>))
    requires Valid(c)
    ensures r.0 == c
    ensures Valid(r.1) && r.1.size == 0 && Keys(r.1.root) == [] && r.1.dup == c.dup
  {
    (c, Empty(c.dup))
  }

  // ---------------------------------------------------------------------------
  // merge
  // ---------------------------------------------------------------------------

  /** The loop of `merge(other)`, walking `es`, a snapshot of `other`'s entries:
      a key this tree lacks is looked up in `other`, erased there and inserted
      here with the entry's payload; any other entry is skipped. */
  function MergeWalk<V>(a: SearchTree<V>, o: SearchTree<V>, es: seq<(int, V)>): (r: (SearchTree<V>, SearchTree<V>))
    requires Valid(a) && Valid(o) && a.dup == o.dup
    ensures Valid(r.0) && Valid(r.1) && r.0.dup == a.dup && r.1.dup == a.dup
    decreases |es|
  {
    if es == [] then (a, o)
    else
      var k := es[0].0;
      if Contains(a.root, k) then MergeWalk(a, o, es[1..])
      else
        var f := Find(o.root, k);
        if f.At? then
          FindCorrect(o.root, k, o.dup);
          MergeWalk(Insert(a, k, es[0].1).0, EraseAt(o, f.path), es[1..])
        else MergeWalk(a, o, es[1..])
  }

  /** `merge(other)`. */
  function Merge<V>(a: SearchTree<V>, o: SearchTree<V>): (r: (SearchTree<V>, SearchTree<V>))
    requires Valid(a) && Valid(o) && a.dup == o.dup
    ensures Valid(r.0) && Valid(r.1)
  {
    MergeWalk(a, o, Entries(o.root))
  }

  /** Every snapshot key is still in `other` (keys `ok`) or already here (keys `ak`). */
  ghost predicate WalkReady<V>(ak: seq<int>, ok: seq<int>, es: seq<(int, V)>) {
    forall i :: 0 <= i < |es| ==> es[i].0 in ok || es[i].0 in ak
  }

  /** The distinct snapshot keys this tree (keys `ak`) lacks: each moves exactly once. */
  ghost function Missing<V>(ak: seq<int>, es: seq<(int, V)>): set<int> {
    set i | 0 <= i < |es| && es[i].0 !in ak :: es[i].0
  }

  /** Keys move from `other` to this tree, one copy of each distinct key this
      tree lacked, and no key is lost or created. */
  lemma {:induction false} MergeWalkKeys<V>(a: SearchTree<V>, o: SearchTree<V>, es: seq<(int, V)>)
    requires Valid(a) && Valid(o) && a.dup == o.dup && WalkReady(Keys(a.root), Keys(o.root), es)
    ensures multiset(Keys(MergeWalk(a, o, es).0.root)) == multiset(Keys(a.root)) + multiset(Missing(Keys(a.root), es))
    ensures multiset(Keys(MergeWalk(a, o, es).1.root)) == multiset(Keys(o.root)) - multiset(Missing(Keys(a.root), es))
    ensures multiset(Missing(Keys(a.root), es)) <= multiset(Keys(o.root))
    decreases |es|
  {
    if es != [] {
      var k := es[0].0;
      FindCorrect(a.root, k, a.dup);
      FindCorrect(o.root, k, o.dup);
      if Contains(a.root, k) {
        MissingSkip(Keys(a.root), es);
        MergeWalkKeys(a, o, es[1..]);
      } else {
        var f := Find(o.root, k);
        var a' := Insert(a, k, es[0].1).0;
        var o' := EraseAt(o, f.path);
        GrownMembers(Keys(a'.root), Keys(a.root), k);
        ReadyMove(Keys(a.root), Keys(a'.root), Keys(o.root), Keys(o'.root), es);
        MissingMove(Keys(a.root), Keys(a'.root), es);
        MergeWalkKeys(a', o', es[1..]);
        MergeMoveStep(a, o, es, a', o');
      }
    }
  }

  lemma MissingSkip<V>(ak: seq<int>, es: seq<(int, V)>)
    requires es != [] && es[0].0 in ak
    ensures Missing(ak, es) == Missing(ak, es[1..])
  {
    forall y | y in Missing(ak, es) ensures y in Missing(ak, es[1..]) {
      var i :| 0 <= i < |es| && es[i].0 !in ak && es[i].0 == y;
      assert es[1..][i - 1] == es[i];
    }
    forall y | y in Missing(ak, es[1..]) ensures y in Missing(ak, es) {
      var i :| 0 <= i < |es[1..]| && es[1..][i].0 !in ak && es[1..][i].0 == y;
      assert es[i + 1] == es[1..][i];
    }
  }

  lemma MissingMove<V>(ak: seq<int>, ak': seq<int>, es: seq<(int, V)>)
    requires es != [] && es[0].0 !in ak
    requires forall y :: y in ak' <==> y in ak || y == es[0].0
    ensures Missing(ak, es) == Missing(ak', es[1..]) + {es[0].0}
    ensures es[0].0 !in Missing(ak', es[1..])
  {
    var k := es[0].0;
    forall y | y in Missing(ak, es) ensures y in Missing(ak', es[1..]) + {k} {
      var i :| 0 <= i < |es| && es[i].0 !in ak && es[i].0 == y;
      if i > 0 && y != k { assert es[1..][i - 1] == es[i]; }
    }
    forall y | y in Missing(ak', es[1..]) ensures y in Missing(ak, es) {
      var i :| 0 <= i < |es[1..]| && es[1..][i].0 !in ak' && es[1..][i].0 == y;
      assert es[i + 1] == es[1..][i];
    }
    assert k in Missing(ak, es);
  }

  lemma ReadyMove<V>(ak: seq<int>, ak': seq<int>, ok: seq<int>, ok': seq<int>, es: seq<(int, V)>)
    requires es != [] && WalkReady(ak, ok, es)
    requires forall y :: y in ak' <==> y in ak || y == es[0].0
    requires multiset(ok') == multiset(ok) - multiset{es[0].0}
    ensures WalkReady(ak', ok', es[1..])
  {
    var k := es[0].0;
    forall i | 0 <= i < |es[1..]| ensures es[1..][i].0 in ok' || es[1..][i].0 in ak' {
      var y := es[1..][i].0;
      assert y == es[i + 1].0;
      if y != k && y in ok {
        assert y in multiset(ok);
        assert y in multiset(ok');
      }
    }
  }

  lemma MergeMoveStep<V>(a: SearchTree<V>, o: SearchTree<V>, es: seq<(int, V)>, a': SearchTree<V>, o': SearchTree<V>)
    requires Valid(a) && Valid(o) && es != [] && es[0].0 !in Keys(a.root) && es[0].0 in Keys(o.root)
    requires multiset(Keys(a'.root)) == multiset(Keys(a.root)) + multiset{es[0].0}
    requires multiset(Keys(o'.root)) == multiset(Keys(o.root)) - multiset{es[0].0}
    requires Missing(Keys(a.root), es) == Missing(Keys(a'.root), es[1..]) + {es[0].0}
    requires es[0].0 !in Missing(Keys(a'.root), es[1..])
    requires multiset(Missing(Keys(a'.root), es[1..])) <= multiset(Keys(o'.root))
    ensures multiset(Keys(a'.root)) + multiset(Missing(Keys(a'.root), es[1..])) == multiset(Keys(a.root)) + multiset(Missing(Keys(a.root), es))
    ensures multiset(Keys(o'.root)) - multiset(Missing(Keys(a'.root), es[1..])) == multiset(Keys(o.root)) - multiset(Missing(Keys(a.root), es))
    ensures multiset(Missing(Keys(a.root), es)) <= multiset(Keys(o.root))
  {
    var k := es[0].0;
    SetAddOne(Missing(Keys(a'.root), es[1..]), k);
    assert k in multiset(Keys(o.root));
    MultisetShift(multiset(Keys(a.root)), multiset(Keys(a'.root)), multiset(Keys(o.root)), multiset(Keys(o'.root)),
                  multiset(Missing(Keys(a.root), es)), multiset(Missing(Keys(a'.root), es[1..])), k);
  }

  lemma SetAddOne(s: set<int>, k: int)
    requires k !in s
    ensures multiset(s + {k}) == multiset(s) + multiset{k}
  {
  }

  /** Moving one copy of `k` from `o` to `a` and from the to-do multiset `m`. */
  lemma MultisetShift(a: multiset<int>, a': multiset<int>, o: multiset<int>, o': multiset<int>,
                      m: multiset<int>, m': multiset<int>, k: int)
    requires a' == a + multiset{k} && o' == o - multiset{k} && m == m' + multiset{k}
    requires m' <= o' && k in o
    ensures a' + m' == a + m
    ensures o' - m' == o - m
    ensures m <= o
  {
  }

  /** `merge(other)` moves one node for every distinct key of `other` this tree
      lacks, and nothing else: with duplicates allowed, further copies of such
      a key stay in `other`. No key is lost or created. */
  lemma MergeKeys<V>(a: SearchTree<V>, o: SearchTree<V>)
    requires Valid(a) && Valid(o) && a.dup == o.dup
    ensures var r := Merge(a, o);
      var moved := set y | y in Keys(o.root) && y !in Keys(a.root);
      && multiset(Keys(r.0.root)) == multiset(Keys(a.root)) + multiset(moved)
      && multiset(Keys(r.1.root)) == multiset(Keys(o.root)) - multiset(moved)
      && r.0.size + r.1.size == a.size + o.size
  {
    var es := Entries(o.root);
    KeysOfEntries(o.root);
    MissingAll(Keys(a.root), es);
    MergeWalkKeys(a, o, es);
    var r := Merge(a, o);
    SizesAfterMove(Keys(a.root), Keys(o.root), Keys(r.0.root), Keys(r.1.root), multiset(Missing(Keys(a.root), es)));
  }

  /** Over a whole snapshot, the keys that move are the keys of `other` this tree lacks. */
  lemma MissingAll<V>(ak: seq<int>, es: seq<(int, V)>)
    ensures WalkReady(ak, KeysOf(es), es)
    ensures Missing(ak, es) == set y | y in KeysOf(es) && y !in ak
  {
    var ks := KeysOf(es);
    forall i | 0 <= i < |es| ensures es[i].0 in ks { assert ks[i] == es[i].0; }
    forall y | y in ks && y !in ak ensures y in Missing(ak, es) {
      var i :| 0 <= i < |ks| && ks[i] == y;
      assert es[i].0 == y;
    }
  }

  lemma SizesAfterMove(a: seq<int>, o: seq<int>, a': seq<int>, o': seq<int>, m: multiset<int>)
    requires multiset(a') == multiset(a) + m && multiset(o') == multiset(o) - m && m <= multiset(o)
    ensures |a'| + |o'| == |a| + |o|
  {
    assert |multiset(a')| == |multiset(a)| + |m|;
    assert multiset(o) == multiset(o') + m;
    assert |multiset(o)| == |multiset(o')| + |m|;
  }

  /** For set and map (no duplicates): afterwards this tree holds the union of
      the keys and `other` keeps exactly the keys both held. */
  lemma MergeMembers<V>(a: SearchTree<V>, o: SearchTree<V>, y: int)
    requires Valid(a) && Valid(o) && !a.dup && !o.dup
    ensures y in Keys(Merge(a, o).0.root) <==> y in Keys(a.root) || y in Keys(o.root)
    ensures y in Keys(Merge(a, o).1.root) <==> y in Keys(a.root) && y in Keys(o.root)
  {
    MergeKeys(a, o);
    var r := Merge(a, o);
    var moved := set y | y in Keys(o.root) && y !in Keys(a.root);
    assert y in Keys(r.0.root) <==> y in multiset(Keys(r.0.root));
    assert y in Keys(r.1.root) <==> y in multiset(Keys(r.1.root));
    OrderedKeysSorted(o.root, false);
    if y in Keys(o.root) {
      DistinctCount(Keys(o.root), y);
    }
  }

  /** In a strictly ascending sequence a member occurs once. */
  lemma DistinctCount(s: seq<int>, y: int)
    requires StrictlyAscending(s) && y in s
    ensures multiset(s)[y] == 1
  {
    var i :| 0 <= i < |s| && s[i] == y;
    assert s == s[..i] + [y] + s[i+1..];
    assert y !in s[..i] by {
      forall j | 0 <= j < i ensures s[..i][j] != y { }
    }
    var t := s[i+1..];
    assert y !in t by {
      forall j | 0 <= j < |t| ensures t[j] != y { assert t[j] == s[i + 1 + j]; }
    }
  }

  /** Each snapshot entry still sits in `other` with its payload, or its key is
      already here. */
  ghost predicate LookupReady<V>(a: SearchTree<V>, o: SearchTree<V>, es: seq<(int, V)>) {
    forall i :: 0 <= i < |es| ==> Lookup(o.root, es[i].0) == Some(es[i].1) || Lookup(a.root, es[i].0).Some?
  }

  /** The map view of the walk: a key this tree lacks takes `other`'s payload
      and leaves `other`; every other lookup is unchanged. */
  lemma {:induction false} MergeWalkLookup<V>(a: SearchTree<V>, o: SearchTree<V>, es: seq<(int, V)>, j: int)
    requires Valid(a) && Valid(o) && !a.dup && !o.dup && LookupReady(a, o, es)
    ensures Lookup(MergeWalk(a, o, es).0.root, j)
         == if Lookup(a.root, j).None? && j in KeysOf(es) then Lookup(o.root, j) else Lookup(a.root, j)
    ensures Lookup(MergeWalk(a, o, es).1.root, j)
         == if Lookup(a.root, j).None? && j in KeysOf(es) then None else Lookup(o.root, j)
    decreases |es|
  {
    if es != [] {
      var k := es[0].0;
      assert KeysOf(es) == [k] + KeysOf(es[1..]);
      LookupFind(a.root, k);
      LookupFind(o.root, k);
      if Contains(a.root, k) {
        MergeWalkLookup(a, o, es[1..], j);
      } else {
        var f := Find(o.root, k);
        FindCorrect(o.root, k, false);
        var a' := Insert(a, k, es[0].1).0;
        var o' := EraseAt(o, f.path);
        LookupMoveReady(a, o, es, a', o');
        MergeWalkLookup(a', o', es[1..], j);
        LookupInsert(a.root, k, es[0].1, false, j);
        LookupErase(o.root, k, j);
      }
    }
  }

  lemma LookupMoveReady<V>(a: SearchTree<V>, o: SearchTree<V>, es: seq<(int, V)>, a': SearchTree<V>, o': SearchTree<V>)
    requires Valid(a) && Valid(o) && !a.dup && !o.dup && LookupReady(a, o, es) && es != []
    requires Lookup(a.root, es[0].0).None?
    requires a'.root == InsertNode(a.root, es[0].0, es[0].1, false).0
    requires o'.root == EraseKey(o.root, es[0].0)
    ensures LookupReady(a', o', es[1..])
  {
    var k := es[0].0;
    forall i | 0 <= i < |es[1..]|
      ensures Lookup(o'.root, es[1..][i].0) == Some(es[1..][i].1) || Lookup(a'.root, es[1..][i].0).Some?
    {
      assert es[1..][i] == es[i + 1];
      LookupInsert(a.root, k, es[0].1, false, es[i + 1].0);
      LookupErase(o.root, k, es[i + 1].0);
    }
  }

  /** `merge(other)` on maps: this map keeps its own payloads and gains the
      entries of keys only `other` had; `other` keeps only the entries whose
      keys this map already held. */
  lemma MergeLookup<V>(a: SearchTree<V>, o: SearchTree<V>, j: int)
    requires Valid(a) && Valid(o) && !a.dup && !o.dup
    ensures Lookup(Merge(a, o).0.root, j) == if Lookup(a.root, j).Some? then Lookup(a.root, j) else Lookup(o.root, j)
    ensures Lookup(Merge(a, o).1.root, j) == if Lookup(a.root, j).Some? then Lookup(o.root, j) else None
  {
    var es := Entries(o.root);
    forall i | 0 <= i < |es| ensures Lookup(o.root, es[i].0) == Some(es[i].1) {
      LookupEntries(o.root, es[i].0, es[i].1);
    }
    MergeWalkLookup(a, o, es, j);
    KeysOfEntries(o.root);
    LookupPresent(o.root, j, false);
  }

  /** A walk over keys this tree already holds moves nothing: merging a tree
      with an equal one, the value-level reading of the `this == &other`
      guard, leaves both unchanged. */
  lemma {:induction false} MergeWalkNothingMissing<V>(a: SearchTree<V>, o: SearchTree<V>, es: seq<(int, V)>)
    requires Valid(a) && Valid(o) && a.dup == o.dup
    requires forall i :: 0 <= i < |es| ==> es[i].0 in Keys(a.root)
    ensures MergeWalk(a, o, es) == (a, o)
    decreases |es|
  {
    if es != [] {
      FindCorrect(a.root, es[0].0, a.dup);
      MergeWalkNothingMissing(a, o, es[1..]);
    }
  }

  lemma MergeSelf<V>(a: SearchTree<V>)
    requires Valid(a)
    ensures Merge(a, a) == (a, a)
  {
    EntriesMatchKeys(a.root);
    MergeWalkNothingMissing(a, a, Entries(a.root));
  }
}

=== FILE: treeiter.dfy ===
/**
  Iteration over the search tree (s21_tree.h TreeIterator, begin, end).

  An iterator is a `Cursor`: the null iterator `End` or the path from the root
  to a node. `operator++` either steps into the right subtree and runs down its
  left spine, or climbs while it arrives from a right child and stops at the
  first ancestor it reaches from the left; with no such ancestor it becomes the
  null iterator. The parent pointers the climb follows are the path's prefixes.
*/
module BstIter {
  import opened Bst

  /** The number of keys in-order before the subtree a path leads to. */
  function Offset<V>(t: Tree<V>, p: seq<Dir>): nat
    decreases |p|
  {
    if p == [] then 0
    else match t
      case Leaf => 0
      case Node(l, _, _, r) =>
        if p[0] == L then Offset(l, p[1..]) else |Keys(l)| + 1 + Offset(r, p[1..])
  }

  /** A node's in-order position: the keys before its subtree, then its left subtree. */
  lemma {:induction false} IndexByOffset<V>(t: Tree<V>, p: seq<Dir>)
    requires ValidPath(t, p)
    ensures Index(t, p) == Offset(t, p) + |Keys(Subtree(t, p).left)|
    decreases |p|
  {
    if p != [] {
      IndexByOffset(if p[0] == L then t.left else t.right, p[1..]);
    }
  }

  /** Following `p` and then `q` is following `p + q`. */
  lemma {:induction false} PathAppend<V>(t: Tree<V>, p: seq<Dir>, q: seq<Dir>)
    requires ValidPath(t, p)
    ensures Subtree(t, p + q) == Subtree(Subtree(t, p), q)
    ensures Offset(t, p + q) == Offset(t, p) + Offset(Subtree(t, p), q)
    decreases |p|
  {
    if p == [] {
      assert p + q == q;
    } else {
      assert (p + q)[0] == p[0];
      assert (p + q)[1..] == p[1..] + q;
      PathAppend(if p[0] == L then t.left else t.right, p[1..], q);
    }
  }

  /** The path down the left spine to the smallest node. */
  function Leftmost<V>(t: Tree<V>): (p: seq<Dir>)
    ensures forall i :: 0 <= i < |p| ==> p[i] == L
    ensures t.Node? ==> ValidPath(t, p) && Subtree(t, p).left.Leaf?
  {
    match t
    case Leaf => []
    case Node(l, _, _, _) =>
      if l.Leaf? then []
      else
        SubtreeCons(t, L, Leftmost(l));
        [L] + Leftmost(l)
  }

  /** The left spine leads to a node with no left child and nothing before it. */
  lemma {:induction false} LeftmostFirst<V>(t: Tree<V>)
    requires t.Node?
    ensures ValidPath(t, Leftmost(t))
    ensures Subtree(t, Leftmost(t)).left.Leaf?
    ensures Offset(t, Leftmost(t)) == 0
    ensures Index(t, Leftmost(t)) == 0
  {
    var p := Leftmost(t);
    if t.left.Node? {
      LeftmostFirst(t.left);
      assert p[1..] == Leftmost(t.left);
    }
    IndexByOffset(t, p);
  }

  /** `begin()`: the leftmost node, or the null iterator for an empty tree. */
  function Begin<V>(t: Tree<V>): (c: Cursor)
    ensures ValidCursor(t, c)
    ensures Position(t, c) == 0
  {
    if t.Leaf? then End
    else
      LeftmostFirst(t);
      At(Leftmost(t))
  }

  /** The climb of `operator++` from a node without a right child: drop the
      trailing right steps, then the left step above them, which leaves the
      path to the parent the climb stops at; only right steps means the climb
      passes the root and yields the null iterator. */
  function Ascend(p: seq<Dir>): (c: Cursor)
    ensures c.End? <==> forall i :: 0 <= i < |p| ==> p[i] == R
    ensures c.At? ==> |c.path| < |p| && c.path == p[..|c.path|] && p[|c.path|] == L
    ensures c.At? ==> forall i :: |c.path| < i < |p| ==> p[i] == R
    decreases |p|
  {
    if p == [] then End
    else if p[|p| - 1] == R then Ascend(p[..|p| - 1])
    else
      var q := p[..|p| - 1];
      assert p[|q|] == L;
      At(q)
  }

  /** The climb lands just past the whole subtree it starts from. */
  lemma {:induction false} AscendPosition<V>(t: Tree<V>, p: seq<Dir>)
    requires ValidPath(t, p)
    ensures ValidCursor(t, Ascend(p))
    ensures Position(t, Ascend(p)) == Offset(t, p) + |Keys(Subtree(t, p))|
    decreases |p|
  {
    if p != [] {
      var q := p[..|p| - 1];
      var d := p[|p| - 1];
      assert p == q + [d];
      AscendStep(t, q, d);
      if d == R {
        AscendPosition(t, q);
      } else {
        IndexByOffset(t, q);
      }
    }
  }

  lemma AscendStep<V>(t: Tree<V>, q: seq<Dir>, d: Dir)
    requires ValidPath(t, q + [d])
    ensures ValidPath(t, q)
    ensures var v := Subtree(t, q);
      && Subtree(t, q + [d]) == (if d == L then v.left else v.right)
      && Offset(t, q + [d]) == Offset(t, q) + (if d == L then 0 else |Keys(v.left)| + 1)
  {
    ValidPrefix(t, q, [d]);
    PathAppend(t, q, [d]);
    var v := Subtree(t, q);
    assert [d][1..] == [];
  }

  /** A prefix of a path to a node also leads to a node. */
  lemma {:induction false} ValidPrefix<V>(t: Tree<V>, p: seq<Dir>, q: seq<Dir>)
    requires ValidPath(t, p + q)
    ensures ValidPath(t, p)
    decreases |p|
  {
    if p != [] {
      assert (p + q)[0] == p[0];
      assert (p + q)[1..] == p[1..] + q;
      ValidPrefix(if p[0] == L then t.left else t.right, p[1..], q);
    }
  }

  /** `operator++`. On the null iterator it does nothing. */
  function Next<V>(t: Tree<V>, c: Cursor): (n: Cursor)
    requires ValidCursor(t, c)
    ensures ValidCursor(t, n)
    ensures c.End? ==> n.End?
  {
    match c
    case End => End
    case At(p) =>
      var u := Subtree(t, p);
      if u.right.Node? then
        NextDown(t, p);
        At(p + [R] + Leftmost(u.right))
      else
        AscendValid(t, p);
        Ascend(p)
  }

  /** The step into the right subtree and down its left spine reaches a node. */
  lemma NextDown<V>(t: Tree<V>, p: seq<Dir>)
    requires ValidPath(t, p) && Subtree(t, p).right.Node?
    ensures ValidPath(t, p + [R] + Leftmost(Subtree(t, p).right))
  {
    var u := Subtree(t, p);
    var q := [R] + Leftmost(u.right);
    assert p + [R] + Leftmost(u.right) == p + q;
    PathAppend(t, p, q);
    SubtreeCons(u, R, Leftmost(u.right));
  }

  /** The climb stops at an ancestor, which is a node. */
  lemma AscendValid<V>(t: Tree<V>, p: seq<Dir>)
    requires ValidPath(t, p)
    ensures ValidCursor(t, Ascend(p))
  {
    var c := Ascend(p);
    if c.At? {
      assert p == c.path + p[|c.path|..];
      ValidPrefix(t, c.path, p[|c.path|..]);
    }
  }

  /** `operator++` moves an iterator to the next in-order position, and from the
      last node to the null iterator. */
  lemma NextPosition<V>(t: Tree<V>, c: Cursor)
    requires ValidCursor(t, c) && c.At?
    ensures ValidCursor(t, Next(t, c))
    ensures Position(t, Next(t, c)) == Position(t, c) + 1
  {
    var p := c.path;
    var u := Subtree(t, p);
    IndexByOffset(t, p);
    if u.right.Node? {
      var q := [R] + Leftmost(u.right);
      assert p + [R] + Leftmost(u.right) == p + q;
      PathAppend(t, p, q);
      LeftmostFirst(u.right);
      assert q[1..] == Leftmost(u.right);
      assert Subtree(u, q) == Subtree(u.right, Leftmost(u.right));
      assert Offset(u, q) == |Keys(u.left)| + 1;
      IndexByOffset(t, p + q);
    } else {
      AscendPosition(t, p);
    }
  }

  /** Walking the tree from `begin()` with `operator++` until the null iterator
      visits every key, in in-order order. */
  method Traverse<V>(t: Tree<V>) returns (ks: seq<int>)
    ensures ks == Keys(t)
  {
    var c := Begin(t);
    ks := [];
    while c.At?
      invariant ValidCursor(t, c)
      invariant Position(t, c) <= |Keys(t)|
      invariant ks == Keys(t)[..Position(t, c)]
      decreases |Keys(t)| - Position(t, c)
    {
      IndexHoldsKey(t, c.path);
      NextPosition(t, c);
      ks := ks + [KeyAt(t, c.path)];
      c := Next(t, c);
    }
  }
}

=== FILE: treelookup.dfy ===
/**
  The payload side of the search tree, as the map adapter sees it: looking a
  key up, overwriting the payload of the node a key leads to, and how insert
  and erase change what a lookup returns.
*/
module BstLookup {
  import opened Wrappers
  import opened SeqOrder
  import opened Bst

  /** The payload `find(k)` leads to, or `None` when it yields the null iterator. */
  function Lookup<V>(t: Tree<V>, k: int): (r: Option<V>)
    ensures r.Some? ==> k in Keys(t) && (k, r.value) in Entries(t)
  {
    match t
    case Leaf => None
    case Node(l, x, w, rt) =>
      if k < x then Lookup(l, k)
      else if k > x then Lookup(rt, k)
      else Some(w)
  }

  /** A lookup follows the same descent as `find`. */
  lemma {:induction false} LookupFind<V>(t: Tree<V>, k: int)
    ensures Lookup(t, k).Some? <==> Find(t, k).At?
    ensures Find(t, k).At? ==> ValidPath(t, Find(t, k).path)
    ensures Find(t, k).At? ==> Lookup(t, k) == Some(ValAt(t, Find(t, k).path))
  {
    match t
    case Leaf =>
    case Node(l, x, w, r) =>
      if k < x {
        LookupFind(l, k);
        if Find(l, k).At? {
          var p := Find(l, k).path;
          assert ([L] + p)[1..] == p;
        }
      } else if k > x {
        LookupFind(r, k);
        if Find(r, k).At? {
          var p := Find(r, k).path;
          assert ([R] + p)[1..] == p;
        }
      }
  }

  /** In an ordered tree a lookup fails exactly when the key is absent. */
  lemma LookupPresent<V>(t: Tree<V>, k: int, dup: bool)
    requires Ordered(t, dup)
    ensures Lookup(t, k).None? <==> k !in Keys(t)
  {
    LookupFind(t, k);
    FindCorrect(t, k, dup);
  }

  /** Without duplicates, a lookup returns `v` exactly when `(k, v)` is one of
      the in-order entries: lookup agrees with the entry sequence. */
  lemma LookupEntries<V>(t: Tree<V>, k: int, v: V)
    requires Ordered(t, false)
    ensures Lookup(t, k) == Some(v) <==> (k, v) in Entries(t)
  {
    LookupFind(t, k);
    FindCorrect(t, k, false);
    EntriesMatchKeys(t);
    if Lookup(t, k) == Some(v) {
      IndexHoldsKey(t, Find(t, k).path);
    }
    if (k, v) in Entries(t) {
      var i :| 0 <= i < |Entries(t)| && Entries(t)[i] == (k, v);
      OrderedKeysSorted(t, false);
      assert Keys(t)[i] == k;
      IndexOfUnique(Keys(t), k, i);
      IndexHoldsKey(t, Find(t, k).path);
    }
  }

  /** Inserting changes only the lookup of the inserted key, and that only when
      it was absent. No ordering is needed: insert and lookup descend alike. */
  lemma {:induction false} LookupInsert<V>(t: Tree<V>, k: int, v: V, dup: bool, j: int)
    ensures Lookup(InsertNode(t, k, v, dup).0, j)
         == if j == k && Lookup(t, k).None? then Some(v) else Lookup(t, j)
  {
    match t
    case Leaf =>
    case Node(l, x, w, r) =>
      if k < x {
        var p := InsertNode(l, k, v, dup);
        assert InsertNode(t, k, v, dup) == (Node(p.0, x, w, r), p.1);
        LookupInsert(l, k, v, dup, j);
      } else if k > x || dup {
        var p := InsertNode(r, k, v, dup);
        assert InsertNode(t, k, v, dup) == (Node(l, x, w, p.0), p.1);
        LookupInsert(r, k, v, dup, j);
      }
  }

  /** Smallest key of an ordered duplicate-free tree, looked up, yields the
      payload the two-children case of erase promotes. */
  lemma {:induction false} LookupMin<V>(t: Tree<V>)
    requires t.Node? && Ordered(t, false)
    ensures Lookup(t, Min(t).0) == Some(Min(t).1)
  {
    if t.left.Node? {
      LookupMin(t.left);
      assert Keys(t.left)[0] in Keys(t.left);
      AllBelowMembers(Keys(t.left), t.key);
    }
  }

  /** Erasing a key from a duplicate-free tree makes that key's lookup fail and
      leaves every other lookup alone. */
  lemma {:induction false} LookupErase<V>(t: Tree<V>, k: int, j: int)
    requires Ordered(t, false)
    ensures Lookup(EraseKey(t, k), j) == if j == k then None else Lookup(t, j)
  {
    match t
    case Leaf =>
    case Node(l, x, w, r) =>
      if k < x {
        LookupErase(l, k, j);
      } else if k > x {
        LookupErase(r, k, j);
      } else {
        AllBelowMembers(Keys(l), x);
        AllRightOfMembers(Keys(r), x, false);
        if l.Node? && r.Node? {
          LookupErase(r, Min(r).0, j);
          LookupEraseTwoChildren(l, x, w, r, j);
        }
      }
  }

  lemma LookupEraseTwoChildren<V>(l: Tree<V>, x: int, w: V, r: Tree<V>, j: int)
    requires Ordered(Node(l, x, w, r), false) && l.Node? && r.Node?
    requires Lookup(EraseKey(r, Min(r).0), j) == if j == Min(r).0 then None else Lookup(r, j)
    ensures Lookup(EraseKey(Node(l, x, w, r), x), j) == if j == x then None else Lookup(Node(l, x, w, r), j)
  {
    var m := Min(r);
    LookupMin(r);
    AllBelowMembers(Keys(l), x);
    AllRightOfMembers(Keys(r), x, false);
    OrderedKeysSorted(r, false);
    assert Keys(r)[0] in Keys(r);
  }

  /** `(*it).data.second = obj` on the node `find(k)` leads to: the payload of
      the first node holding `k` is replaced. */
  function Assign<V>(t: Tree<V>, k: int, v: V): (r: Tree<V>)
    ensures Keys(r) == Keys(t)
  {
    match t
    case Leaf => Leaf
    case Node(l, x, w, rt) =>
      if k < x then Node(Assign(l, k, v), x, w, rt)
      else if k > x then Node(l, x, w, Assign(rt, k, v))
      else Node(l, x, v, rt)
  }

  /** Assigning keeps the search-tree invariant: the keys do not move. */
  lemma {:induction false} AssignOrdered<V>(t: Tree<V>, k: int, v: V, dup: bool)
    requires Ordered(t, dup)
    ensures Ordered(Assign(t, k, v), dup)
  {
    match t
    case Leaf =>
    case Node(l, x, w, r) =>
      if k < x { AssignOrdered(l, k, v, dup); }
      else if k > x { AssignOrdered(r, k, v, dup); }
  }

  /** Assigning changes the lookup of `k` to `v` when `k` is present and
      nothing else. */
  lemma {:induction false} LookupAssign<V>(t: Tree<V>, k: int, v: V, j: int)
    ensures Lookup(Assign(t, k, v), j)
         == if j == k && Lookup(t, k).Some? then Some(v) else Lookup(t, j)
  {
    match t
    case Leaf =>
    case Node(l, x, w, r) =>
      if k < x { LookupAssign(l, k, v, j); }
      else if k > x { LookupAssign(r, k, v, j); }
  }
}

=== FILE: treemap.dfy ===
/**
  s21::map: a search tree without duplicates whose nodes carry the mapped
  value as payload. Nodes compare by key alone, so a map is described by what
  `Lookup` returns for each key.
*/
module TreeMap {
  import opened Wrappers
  import opened SeqOrder
  import opened Bst
  import opened BstLookup
  import opened BstContainer

  predicate IsMap<V>(m: SearchTree<V>) {
    Valid(m) && !m.dup
  }

  /** What a map built by inserting `items` in order holds for key `j`: the
      value paired with the first occurrence of `j`, since later ones are
      refused. */
  function Initial<V>(items: seq<(int, V)>, j: int): (r: Option<V>)
    ensures r.Some? <==> j in KeysOf(items)
    ensures r.Some? ==> (j, r.value) in items
  {
    var i := IndexOf(KeysOf(items), j);
    if i < |items| then Some(items[i].1) else None
  }

  /** Prepending an item decides its own key and leaves the others to the rest. */
  lemma InitialCons<V>(items: seq<(int, V)>, j: int)
    requires items != []
    ensures Initial(items, j) == if j == items[0].0 then Some(items[0].1) else Initial(items[1..], j)
  {
    var ks := KeysOf(items);
    assert KeysOf(items[1..]) == ks[1..];
    assert ks == [ks[0]] + ks[1..];
    IndexOfAppend([ks[0]], ks[1..], j);
  }

  /** Lookups after inserting a list of items: what was there stays, and the
      first item with a new key decides it. */
  lemma {:induction false} LookupInsertAll<V>(c: SearchTree<V>, items: seq<(int, V)>, j: int)
    requires IsMap(c)
    ensures Lookup(InsertAll(c, items).root, j)
         == if Lookup(c.root, j).Some? then Lookup(c.root, j) else Initial(items, j)
    decreases |items|
  {
    if items != [] {
      var (k, v) := items[0];
      var c' := BstContainer.Insert(c, k, v).0;
      LookupInsert(c.root, k, v, false, j);
      LookupPresent(c.root, k, false);
      InitialCons(items, j);
      LookupInsertAll(c', items[1..], j);
    }
  }

  /** The initializer-list constructor: `insert` each item in turn. */
  function FromList<V>(items: seq<(int, V)>): (m: SearchTree<V>)
    ensures IsMap(m)
    ensures forall j :: Lookup(m.root, j) == Initial(items, j)
  {
    var m := BstContainer.FromList(items, false);
    FromListLookup(items, m);
    m
  }

  lemma FromListLookup<V>(items: seq<(int, V)>, m: SearchTree<V>)
    requires m == BstContainer.FromList(items, false)
    ensures forall j :: Lookup(m.root, j) == Initial(items, j)
  {
    forall j ensures Lookup(m.root, j) == Initial(items, j) {
      LookupInsertAll(Empty(false), items, j);
    }
  }

  /** `contains(key)`. */
  function Contains<V>(m: SearchTree<V>, k: int): (b: bool)
    requires IsMap(m)
    ensures b <==> Lookup(m.root, k).Some?
    ensures b <==> k in Keys(m.root)
  {
    FindCorrect(m.root, k, false);
    LookupFind(m.root, k);
    Find(m.root, k).At?
  }

  /** `at(key)`: the mapped value, or `std::out_of_range` when `find` yields
      the null iterator. */
  function At<V>(m: SearchTree<V>, k: int): (r: Result<V>)
    requires IsMap(m)
    ensures r.Err? <==> k !in Keys(m.root)
    ensures r.Err? ==> r.error == OutOfRange
    ensures r.Ok? ==> Lookup(m.root, k) == Some(r.value)
  {
    FindCorrect(m.root, k, false);
    LookupFind(m.root, k);
    var it := Find(m.root, k);
    if it.End? then Err(OutOfRange) else Ok(ValAt(m.root, it.path))
  }

  /** Insertion changes exactly one lookup, and only when the key was absent. */
  lemma LookupAfterInsert<V>(m: SearchTree<V>, k: int, v: V)
    requires IsMap(m)
    ensures forall j :: Lookup(BstContainer.Insert(m, k, v).0.root, j)
                     == if j == k && Lookup(m.root, k).None? then Some(v) else Lookup(m.root, j)
  {
    forall j ensures Lookup(BstContainer.Insert(m, k, v).0.root, j)
                  == if j == k && Lookup(m.root, k).None? then Some(v) else Lookup(m.root, j) {
      LookupInsert(m.root, k, v, false, j);
    }
  }

  /** `insert(value)` and `insert(key, obj)`: when `find` already yields the key,
      nothing changes and the flag is false; otherwise the pair is inserted and
      the flag is true. The iterator leads to the key and the value it maps to. */
  function Insert<V>(m: SearchTree<V>, k: int, v: V): (r: (SearchTree<V>, Cursor, bool))
    requires IsMap(m)
    ensures IsMap(r.0)
    ensures r.2 <==> Lookup(m.root, k).None?
    ensures forall j :: Lookup(r.0.root, j) == if j == k && r.2 then Some(v) else Lookup(m.root, j)
    ensures r.0.size == if r.2 then m.size + 1 else m.size
    ensures !r.2 ==> r.0 == m
    ensures r.0 == BstContainer.Insert(m, k, v).0
    ensures r.1.At? && ValidPath(r.0.root, r.1.path) && KeyAt(r.0.root, r.1.path) == k
    ensures Lookup(r.0.root, k) == Some(ValAt(r.0.root, r.1.path))
    ensures forall p :: ValidPath(m.root, p) ==>
      ValidPath(r.0.root, p) && KeyAt(r.0.root, p) == KeyAt(m.root, p)
  {
    FindCorrect(m.root, k, false);
    LookupFind(m.root, k);
    var it := Find(m.root, k);
    if it.At? then (m, it, false)
    else
      InsertKeepsPaths(m, k, v);
      LookupAfterInsert(m, k, v);
      var t := BstContainer.Insert(m, k, v).0;
      GrownMembers(Keys(t.root), Keys(m.root), k);
      FindCorrect(t.root, k, false);
      LookupFind(t.root, k);
      (t, Find(t.root, k), true)
  }

  /** Overwriting a payload leaves every descent where it was. */
  lemma {:induction false} FindAssign<V>(t: Tree<V>, k: int, v: V, j: int)
    ensures Find(Assign(t, k, v), j) == Find(t, j)
  {
    match t
    case Leaf =>
    case Node(l, x, w, r) =>
      if k < x { FindAssign(l, k, v, j); }
      else if k > x { FindAssign(r, k, v, j); }
  }

  /** Overwriting changes exactly the lookup of `k` when `k` is present. */
  lemma LookupAfterAssign<V>(t: Tree<V>, k: int, v: V)
    ensures forall j :: Lookup(Assign(t, k, v), j) == if j == k && Lookup(t, k).Some? then Some(v) else Lookup(t, j)
  {
    forall j ensures Lookup(Assign(t, k, v), j) == if j == k && Lookup(t, k).Some? then Some(v) else Lookup(t, j) {
      LookupAssign(t, k, v, j);
    }
  }

  /** `insert_or_assign(key, obj)`: an existing key gets the new value and the
      flag is false; a new key is inserted and the flag is true. Afterwards the
      key maps to `obj` and every other key is untouched. */
  function InsertOrAssign<V>(m: SearchTree<V>, k: int, v: V): (r: (SearchTree<V>, Cursor, bool))
    requires IsMap(m)
    ensures IsMap(r.0)
    ensures r.2 <==> Lookup(m.root, k).None?
    ensures forall j :: Lookup(r.0.root, j) == if j == k then Some(v) else Lookup(m.root, j)
    ensures r.0.size == if r.2 then m.size + 1 else m.size
    ensures Keys(r.0.root) == Keys(m.root) || r.2
    ensures r.1.At? && ValidPath(r.0.root, r.1.path) && KeyAt(r.0.root, r.1.path) == k && ValAt(r.0.root, r.1.path) == v
  {
    FindCorrect(m.root, k, false);
    LookupFind(m.root, k);
    var it := Find(m.root, k);
    if it.At? then
      var t := Assign(m.root, k, v);
      AssignOrdered(m.root, k, v, false);
      LookupAfterAssign(m.root, k, v);
      FindAssign(m.root, k, v, k);
      FindCorrect(t, k, false);
      LookupFind(t, k);
      (SearchTree(t, m.size, false), it, false)
    else
      var r := Insert(m, k, v);
      (r.0, r.1, r.2)
  }

  /** `operator[](key)`: the value `key` maps to, after inserting the pair of
      `key` and the default value (`zero`) when the key was absent. */
  function Subscript<V>(m: SearchTree<V>, k: int, zero: V): (r: (SearchTree<V>, V))
    requires IsMap(m)
    ensures IsMap(r.0)
    ensures Lookup(r.0.root, k) == Some(r.1)
    ensures forall j :: j != k ==> Lookup(r.0.root, j) == Lookup(m.root, j)
    ensures Lookup(m.root, k).Some? ==> r.0 == m && Lookup(m.root, k) == Some(r.1)
    ensures Lookup(m.root, k).None? ==> r.1 == zero && r.0.size == m.size + 1
  {
    FindCorrect(m.root, k, false);
    LookupFind(m.root, k);
    var it := Find(m.root, k);
    if it.At? then (m, ValAt(m.root, it.path))
    else
      var ins := Insert(m, k, zero);
      (ins.0, ValAt(ins.0.root, ins.1.path))
  }

  /** Erasing the node of key `k` removes exactly that key's lookup. */
  lemma LookupAfterErase<V>(m: SearchTree<V>, k: int)
    requires IsMap(m)
    ensures forall j :: Lookup(EraseKey(m.root, k), j) == if j == k then None else Lookup(m.root, j)
  {
    forall j ensures Lookup(EraseKey(m.root, k), j) == if j == k then None else Lookup(m.root, j) {
      LookupErase(m.root, k, j);
    }
  }

  /** `erase(pos)`: nothing for the null iterator; otherwise the key `pos`
      leads to is gone and every other key keeps its value. */
  function Erase<V>(m: SearchTree<V>, pos: Cursor): (r: SearchTree<V>)
    requires IsMap(m) && ValidCursor(m.root, pos)
    ensures IsMap(r)
    ensures pos.End? ==> r == m
    ensures pos.At? ==> r.size == m.size - 1
    ensures pos.At? ==> forall j :: Lookup(r.root, j) == if j == KeyAt(m.root, pos.path) then None else Lookup(m.root, j)
  {
    if pos.End? then m
    else
      LookupAfterErase(m, KeyAt(m.root, pos.path));
      EraseAt(m, pos.path)
  }

  /** `insert_many(args...)`: `insert` on each pair in turn, collecting the
      iterator and flag of each. The tree it leaves is the one the
      initializer-list constructor builds from the same pairs on this map. */
  function InsertMany<V>(m: SearchTree<V>, items: seq<(int, V)>): (r: (SearchTree<V>, seq<(Cursor, bool)>))
    requires IsMap(m)
    ensures IsMap(r.0) && |r.1| == |items|
    decreases |items|
  {
    if items == [] then (m, [])
    else
      var n := |items| - 1;
      var prev := InsertMany(m, items[..n]);
      var step := Insert(prev.0, items[n].0, items[n].1);
      (step.0, prev.1 + [(step.1, step.2)])
  }

  /** The tree `insert_many` leaves is the one the initializer-list
      constructor builds from the same pairs on this map. */
  lemma {:induction false} InsertManyTree<V>(m: SearchTree<V>, items: seq<(int, V)>)
    requires IsMap(m)
    ensures InsertMany(m, items).0 == InsertAll(m, items)
    decreases |items|
  {
    if items != [] {
      var n := |items| - 1;
      InsertManyTree(m, items[..n]);
      InsertAllSnoc(m, items, n);
      assert items[..n + 1] == items;
    }
  }

  /** After `insert_many` the first pair with a new key decides its value and
      keys already present keep theirs. */
  lemma InsertManyLookup<V>(m: SearchTree<V>, items: seq<(int, V)>, j: int)
    requires IsMap(m)
    ensures Lookup(InsertMany(m, items).0.root, j)
         == if Lookup(m.root, j).Some? then Lookup(m.root, j) else Initial(items, j)
  {
    InsertManyTree(m, items);
    LookupInsertAll(m, items, j);
  }

  /** Every iterator `insert_many` returns still leads to its pair's key once
      all pairs are in. */
  lemma {:induction false} InsertManyLeads<V>(m: SearchTree<V>, items: seq<(int, V)>)
    requires IsMap(m)
    ensures Leads(InsertMany(m, items).0.root, InsertMany(m, items).1, KeysOf(items), |items|)
    decreases |items|
  {
    if items != [] {
      var n := |items| - 1;
      var prev := InsertMany(m, items[..n]);
      var step := Insert(prev.0, items[n].0, items[n].1);
      InsertManyLeads(m, items[..n]);
      KeysOfPrefix(items, n);
      LeadsPrefix(prev.0.root, prev.1, KeysOf(items), n);
      LeadsStep(prev.0.root, step.0.root, step.1, step.2, prev.1, KeysOf(items), n);
    }
  }

  /** A flag of `insert_many` is true exactly when neither the map nor an
      earlier pair had the key. */
  lemma {:induction false} InsertManyFlags<V>(m: SearchTree<V>, items: seq<(int, V)>, i: nat)
    requires IsMap(m) && i < |items|
    ensures InsertMany(m, items).1[i].1 <==> items[i].0 !in Keys(m.root) && items[i].0 !in KeysOf(items[..i])
    decreases |items|
  {
    var n := |items| - 1;
    if i < n {
      InsertManyFlags(m, items[..n], i);
      FlagEarlier(m, items, i);
    } else {
      FlagLast(m, items);
    }
  }

  lemma FlagEarlier<V>(m: SearchTree<V>, items: seq<(int, V)>, i: nat)
    requires IsMap(m) && i + 1 < |items|
    ensures InsertMany(m, items).1[i] == InsertMany(m, items[..|items| - 1]).1[i]
    ensures items[..|items| - 1][i] == items[i] && items[..|items| - 1][..i] == items[..i]
  {
    InsertManyLast(m, items);
    PrefixOfPrefix(items, |items| - 1, i);
  }

  /** The last pair's result comes after those of the others. */
  lemma InsertManyLast<V>(m: SearchTree<V>, items: seq<(int, V)>)
    requires IsMap(m) && items != []
    ensures var n := |items| - 1;
      var prev := InsertMany(m, items[..n]);
      var step := Insert(prev.0, items[n].0, items[n].1);
      InsertMany(m, items).1 == prev.1 + [(step.1, step.2)]
  {
  }

  lemma FlagLast<V>(m: SearchTree<V>, items: seq<(int, V)>)
    requires IsMap(m) && items != []
    ensures var n := |items| - 1;
      InsertMany(m, items).1[n].1 <==> items[n].0 !in Keys(m.root) && items[n].0 !in KeysOf(items[..n])
  {
    var n := |items| - 1;
    var k := items[n].0;
    var prev := InsertMany(m, items[..n]);
    InsertManyTree(m, items[..n]);
    LookupPresent(prev.0.root, k, false);
    assert k in Keys(prev.0.root) <==> k in Keys(m.root) || k in KeysOf(items[..n]);
  }
}

=== FILE: treemultiset.dfy ===
/**
  s21::multiset: a search tree that allows duplicates (`dup` is true) and
  carries no payload. Counting and the bound queries walk the tree with
  `operator++`, as the source does.
*/
module TreeMultiset {
  import opened SeqOrder
  import opened Bst
  import opened BstIter
  import opened BstContainer

  predicate IsMultiset(ms: SearchTree<()>) {
    Valid(ms) && ms.dup
  }

  /** The initializer-list constructor: every item becomes an element. */
  function FromList(keys: seq<int>): (ms: SearchTree<()>)
    ensures IsMultiset(ms)
    ensures multiset(Keys(ms.root)) == multiset(keys)
  {
    BstContainer.FromList(Unit(keys), true)
  }

  /** `insert(value)`: always adds an element; the iterator returned is
      `find(value)`, which leads to the FIRST element equal to the value in
      iteration order, not necessarily the one just added. */
  function Insert(ms: SearchTree<()>, k: int): (r: (SearchTree<()>, Cursor))
    requires IsMultiset(ms)
    ensures IsMultiset(r.0)
    ensures multiset(Keys(r.0.root)) == multiset(Keys(ms.root)) + multiset{k}
    ensures r.0.size == ms.size + 1
    ensures r.1.At? && ValidPath(r.0.root, r.1.path) && KeyAt(r.0.root, r.1.path) == k
    ensures Index(r.0.root, r.1.path) == IndexOf(Keys(r.0.root), k)
    ensures forall p :: ValidPath(ms.root, p) ==>
      ValidPath(r.0.root, p) && KeyAt(r.0.root, p) == KeyAt(ms.root, p)
  {
    InsertKeepsPaths(ms, k, ());
    var t := BstContainer.Insert(ms, k, ()).0;
    assert k in multiset(Keys(t.root));
    FindCorrect(t.root, k, true);
    (t, Find(t.root, k))
  }

  /** `erase(pos)`: one element equal to `*pos` goes. */
  function Erase(ms: SearchTree<()>, pos: Cursor): (r: SearchTree<()>)
    requires IsMultiset(ms) && pos.At? && ValidPath(ms.root, pos.path)
    ensures IsMultiset(r)
    ensures multiset(Keys(r.root)) == multiset(Keys(ms.root)) - multiset{KeyAt(ms.root, pos.path)}
    ensures r.size == ms.size - 1
  {
    EraseAt(ms, pos.path)
  }

  /** `contains(key)`. */
  function Contains(ms: SearchTree<()>, k: int): (b: bool)
    requires IsMultiset(ms)
    ensures b <==> multiset(Keys(ms.root))[k] > 0
  {
    FindCorrect(ms.root, k, true);
    Find(ms.root, k).At?
  }

  /** `count(key)`: from `find(key)`, step with `operator++` while the element
      equals the key. */
  method Count(ms: SearchTree<()>, k: int) returns (n: nat)
    requires IsMultiset(ms)
    ensures n == multiset(Keys(ms.root))[k]
  {
    var t := ms.root;
    FindCorrect(t, k, true);
    var c := Find(t, k);
    n := 0;
    while c.At? && KeyAt(t, c.path) == k
      invariant ValidCursor(t, c)
      invariant Position(t, c) == IndexOf(Keys(t), k) + n <= |Keys(t)|
      invariant forall m :: IndexOf(Keys(t), k) <= m < IndexOf(Keys(t), k) + n ==> Keys(t)[m] == k
      decreases |Keys(t)| - Position(t, c)
    {
      CountStep(t, k, c, n);
      n, c := n + 1, Next(t, c);
    }
    CountDone(t, k, c, n);
  }

  /** One step of the counting loop: the element under the iterator extends the run. */
  lemma CountStep(t: Tree<()>, k: int, c: Cursor, n: nat)
    requires ValidCursor(t, c) && c.At? && KeyAt(t, c.path) == k
    requires Position(t, c) == IndexOf(Keys(t), k) + n <= |Keys(t)|
    requires forall m :: IndexOf(Keys(t), k) <= m < IndexOf(Keys(t), k) + n ==> Keys(t)[m] == k
    ensures ValidCursor(t, Next(t, c))
    ensures Position(t, Next(t, c)) == IndexOf(Keys(t), k) + n + 1 <= |Keys(t)|
    ensures forall m :: IndexOf(Keys(t), k) <= m < IndexOf(Keys(t), k) + n + 1 ==> Keys(t)[m] == k
  {
    IndexHoldsKey(t, c.path);
    NextPosition(t, c);
  }

  /** The counting loop stops past the last copy of the key. */
  lemma CountDone(t: Tree<()>, k: int, c: Cursor, n: nat)
    requires Ordered(t, true) && ValidCursor(t, c)
    requires Position(t, c) == IndexOf(Keys(t), k) + n <= |Keys(t)|
    requires forall m :: IndexOf(Keys(t), k) <= m < IndexOf(Keys(t), k) + n ==> Keys(t)[m] == k
    requires !(c.At? && KeyAt(t, c.path) == k)
    ensures n == multiset(Keys(t))[k]
  {
    if c.At? {
      IndexHoldsKey(t, c.path);
    }
    RunOfKey(t, k, IndexOf(Keys(t), k) + n);
  }

  /** The copies of a key in an ordered tree are the run starting at its first
      position and ending at the first position holding something else. */
  lemma RunOfKey(t: Tree<()>, k: int, j: nat)
    requires Ordered(t, true) && IndexOf(Keys(t), k) <= j <= |Keys(t)|
    requires forall m :: IndexOf(Keys(t), k) <= m < j ==> Keys(t)[m] == k
    requires j < |Keys(t)| ==> Keys(t)[j] != k
    ensures multiset(Keys(t))[k] == j - IndexOf(Keys(t), k)
  {
    var s, i := Keys(t), IndexOf(Keys(t), k);
    OrderedKeysSorted(t, true);
    if j < |s| {
      RunEnds(s, k, i, j);
    }
    RunCount(s, k, i, j);
  }

  /** `lower_bound(key)`: from `begin()`, step while the element is below the
      key. The result is the first position whose key is not below it. */
  method LowerBound(ms: SearchTree<()>, k: int) returns (c: Cursor)
    requires IsMultiset(ms)
    ensures ValidCursor(ms.root, c) && Position(ms.root, c) <= |Keys(ms.root)|
    ensures forall m :: 0 <= m < Position(ms.root, c) ==> Keys(ms.root)[m] < k
    ensures Position(ms.root, c) < |Keys(ms.root)| ==> Keys(ms.root)[Position(ms.root, c)] >= k
  {
    var t := ms.root;
    c := Begin(t);
    while c.At? && KeyAt(t, c.path) < k
      invariant ValidCursor(t, c) && Position(t, c) <= |Keys(t)|
      invariant forall m :: 0 <= m < Position(t, c) ==> Keys(t)[m] < k
      decreases |Keys(t)| - Position(t, c)
    {
      IndexHoldsKey(t, c.path);
      NextPosition(t, c);
      c := Next(t, c);
    }
    if c.At? {
      IndexHoldsKey(t, c.path);
    }
  }

  /** `upper_bound(key)`: from `begin()`, step while the element is at most the
      key. The result is the first position whose key is above it. */
  method UpperBound(ms: SearchTree<()>, k: int) returns (c: Cursor)
    requires IsMultiset(ms)
    ensures ValidCursor(ms.root, c) && Position(ms.root, c) <= |Keys(ms.root)|
    ensures forall m :: 0 <= m < Position(ms.root, c) ==> Keys(ms.root)[m] <= k
    ensures Position(ms.root, c) < |Keys(ms.root)| ==> Keys(ms.root)[Position(ms.root, c)] > k
  {
    var t := ms.root;
    c := Begin(t);
    while c.At? && KeyAt(t, c.path) <= k
      invariant ValidCursor(t, c) && Position(t, c) <= |Keys(t)|
      invariant forall m :: 0 <= m < Position(t, c) ==> Keys(t)[m] <= k
      decreases |Keys(t)| - Position(t, c)
    {
      IndexHoldsKey(t, c.path);
      NextPosition(t, c);
      c := Next(t, c);
    }
    if c.At? {
      IndexHoldsKey(t, c.path);
    }
  }

  /** `equal_range(key)`: the two bounds enclose exactly the copies of the key. */
  method EqualRange(ms: SearchTree<()>, k: int) returns (lo: Cursor, hi: Cursor)
    requires IsMultiset(ms)
    ensures ValidCursor(ms.root, lo) && ValidCursor(ms.root, hi)
    ensures Position(ms.root, lo) <= Position(ms.root, hi) <= |Keys(ms.root)|
    ensures Position(ms.root, hi) - Position(ms.root, lo) == multiset(Keys(ms.root))[k]
    ensures forall m :: Position(ms.root, lo) <= m < Position(ms.root, hi) ==> Keys(ms.root)[m] == k
  {
    lo := LowerBound(ms, k);
    hi := UpperBound(ms, k);
    OrderedKeysSorted(ms.root, true);
    BoundsEnclose(Keys(ms.root), k, Position(ms.root, lo), Position(ms.root, hi));
  }

  /** `erase(key)`: from `find(key)`, erase elements while they equal the key,
      counting them. Returns the multiset and the count. */
  function EraseAll(ms: SearchTree<()>, k: int): (r: (SearchTree<()>, nat))
    requires IsMultiset(ms)
    ensures IsMultiset(r.0)
    ensures r.1 == multiset(Keys(ms.root))[k]
    ensures multiset(Keys(r.0.root)) == multiset(Keys(ms.root))[k := 0]
    ensures r.0.size + r.1 == ms.size
  {
    var i := IndexOf(Keys(ms.root), k);
    FirstRunStart(Keys(ms.root), k);
    EraseRunCorrect(ms, k, i);
    EraseRun(ms, k, i)
  }

  /** The loop of `erase(key)` with the iterator at in-order position `i`:
      while it points at the key, the element leaves (erasing a node erases
      the first element equal to its key) and the next element moves into
      position `i`. */
  function EraseRun(r: SearchTree<()>, k: int, i: nat): (res: (SearchTree<()>, nat))
    requires IsMultiset(r) && i <= |Keys(r.root)|
    decreases |Keys(r.root)|
  {
    if i < |Keys(r.root)| && Keys(r.root)[i] == k then
      var next := EraseFirstOf(r, k);
      var rest := EraseRun(next, k, i);
      (rest.0, rest.1 + 1)
    else (r, 0)
  }

  /** `erase(find(key))` for a key that is present: the first element equal
      to the key, in iteration order, leaves. */
  function EraseFirstOf(ms: SearchTree<()>, k: int): (r: SearchTree<()>)
    requires IsMultiset(ms) && k in Keys(ms.root)
    ensures IsMultiset(r) && r.size == ms.size - 1
    ensures Keys(r.root) == RemoveAt(Keys(ms.root), IndexOf(Keys(ms.root), k))
    ensures multiset(Keys(r.root)) == multiset(Keys(ms.root)) - multiset{k}
  {
    FindCorrect(ms.root, k, true);
    EraseAt(ms, Find(ms.root, k).path)
  }

  /** Where the walk of `erase(key)` may stand: no copy of the key before
      position `i`, and the first copy, if any, at `i`. */
  predicate RunStart(s: seq<int>, k: int, i: nat) {
    i <= |s| && k !in s[..i] && (k in s ==> i < |s| && s[i] == k)
  }

  /** Starting where `find(key)` leads, the walk removes every copy of the
      key, counts them, and keeps every other element. */
  lemma {:induction false} EraseRunCorrect(r: SearchTree<()>, k: int, i: nat)
    requires IsMultiset(r) && RunStart(Keys(r.root), k, i)
    ensures IsMultiset(EraseRun(r, k, i).0)
    ensures EraseRun(r, k, i).1 == multiset(Keys(r.root))[k]
    ensures multiset(Keys(EraseRun(r, k, i).0.root)) == multiset(Keys(r.root))[k := 0]
    ensures EraseRun(r, k, i).0.size + EraseRun(r, k, i).1 == r.size
    decreases |Keys(r.root)|
  {
    var s := Keys(r.root);
    if i < |s| && s[i] == k {
      var next := EraseFirstOf(r, k);
      EraseRunStep(r, k, i);
      EraseRunUnfold(r, k, i);
      EraseRunCorrect(next, k, i);
      DropOne(multiset(Keys(next.root)), multiset(s), k);
    }
  }

  /** One round of the walk: the next copy of the key is again where the walk
      stands, and exactly one copy has left. */
  lemma EraseRunStep(r: SearchTree<()>, k: int, i: nat)
    requires IsMultiset(r) && RunStart(Keys(r.root), k, i)
    requires i < |Keys(r.root)| && Keys(r.root)[i] == k
    ensures k in Keys(r.root)
    ensures RunStart(Keys(EraseFirstOf(r, k).root), k, i)
    ensures multiset(Keys(EraseFirstOf(r, k).root)) == multiset(Keys(r.root)) - multiset{k}
  {
    var s := Keys(r.root);
    assert s[i] in s;
    OrderedKeysSorted(r.root, true);
    NextCopy(s, k, i);
  }

  lemma EraseRunUnfold(r: SearchTree<()>, k: int, i: nat)
    requires IsMultiset(r) && i < |Keys(r.root)| && Keys(r.root)[i] == k
    ensures k in Keys(r.root) && |Keys(EraseFirstOf(r, k).root)| == |Keys(r.root)| - 1
    ensures EraseRun(r, k, i).0 == EraseRun(EraseFirstOf(r, k), k, i).0
    ensures EraseRun(r, k, i).1 == EraseRun(EraseFirstOf(r, k), k, i).1 + 1
  {
    assert Keys(r.root)[i] in Keys(r.root);
  }

  lemma FirstRunStart(s: seq<int>, k: int)
    ensures RunStart(s, k, IndexOf(s, k))
  {
    var i := IndexOf(s, k);
    forall j | 0 <= j < i ensures s[..i][j] != k { }
  }

  lemma DropOne(a: multiset<int>, b: multiset<int>, k: int)
    requires k in b && a == b - multiset{k}
    ensures a[k] + 1 == b[k] && a[k := 0] == b[k := 0]
  {
  }

  /** In an ascending sequence whose first `k` sits at `i`, removing it leaves
      the prefix free of `k` and the next copy, if any, at `i`. */
  lemma NextCopy(s: seq<int>, k: int, i: nat)
    requires Ascending(s) && i < |s| && s[i] == k && k !in s[..i]
    ensures IndexOf(s, k) == i
    ensures RunStart(RemoveAt(s, i), k, i)
  {
    forall j | 0 <= j < i ensures s[j] != k {
      assert s[j] in s[..i];
    }
    IndexOfUnique(s, k, i);
    var u := RemoveAt(s, i);
    assert u == s[..i] + s[i + 1..];
    assert u[..i] == s[..i];
    if k in u {
      var j :| 0 <= j < |u| && u[j] == k;
      if j >= i {
        assert u[j] == s[j + 1];
        assert s[i] <= s[i + 1] <= s[j + 1];
        assert u[i] == s[i + 1];
      }
    }
  }

  /** `insert_many(args...)`: insert each item in turn. Every flag is true, and
      every returned iterator still leads to its item after the later inserts,
      because an insert leaves existing nodes where they are. */
  method InsertMany(ms: SearchTree<()>, keys: seq<int>) returns (r: SearchTree<()>, res: seq<(Cursor, bool)>)
    requires IsMultiset(ms)
    ensures IsMultiset(r)
    ensures multiset(Keys(r.root)) == multiset(Keys(ms.root)) + multiset(keys)
    ensures r.size == ms.size + |keys|
    ensures |res| == |keys|
    ensures forall i :: 0 <= i < |keys| ==>
      && res[i].1 && res[i].0.At? && ValidPath(r.root, res[i].0.path) && KeyAt(r.root, res[i].0.path) == keys[i]
  {
    r, res := ms, [];
    for i := 0 to |keys|
      invariant IsMultiset(r)
      invariant multiset(Keys(r.root)) == multiset(Keys(ms.root)) + multiset(keys[..i])
      invariant r.size == ms.size + i && |res| == i
      invariant Leads(r.root, res, keys, i)
      invariant forall j :: 0 <= j < i ==> res[j].1
    {
      var step := Insert(r, keys[i]);
      MultisetGrow(multiset(Keys(r.root)), multiset(Keys(step.0.root)), multiset(Keys(ms.root)), keys, i);
      LeadsStep(r.root, step.0.root, step.1, true, res, keys, i);
      r, res := step.0, res + [(step.1, true)];
    }
    assert keys[..|keys|] == keys;
  }
}

=== FILE: treeset.dfy ===
/**
  s21::set: a search tree without duplicates (`dup` is false) and without
  payload. Its elements are the tree's keys; an in-order walk yields them
  strictly ascending.
*/
module TreeSet {
  import opened SeqOrder
  import opened Bst
  import opened BstContainer

  predicate IsSet(st: SearchTree<()>) {
    Valid(st) && !st.dup
  }

  /** The initializer-list constructor: the elements are the distinct items,
      each once, in ascending order. */
  function FromList(keys: seq<int>): (st: SearchTree<()>)
    ensures IsSet(st)
    ensures forall y :: y in Keys(st.root) <==> y in keys
    ensures StrictlyAscending(Keys(st.root))
  {
    var st := BstContainer.FromList(Unit(keys), false);
    OrderedKeysSorted(st.root, false);
    st
  }

  /** `contains(key)`: `find(key)` is not the null iterator. */
  function Contains(st: SearchTree<()>, k: int): (b: bool)
    requires IsSet(st)
    ensures b <==> k in Keys(st.root)
  {
    FindCorrect(st.root, k, false);
    Find(st.root, k).At?
  }

  /** `insert(value)`: when `find` already yields the value, the set is left
      alone and the flag is false; otherwise the value is inserted and the flag
      is true. Either way the iterator leads to the value. */
  function Insert(st: SearchTree<()>, k: int): (r: (SearchTree<()>, Cursor, bool))
    requires IsSet(st)
    ensures IsSet(r.0)
    ensures r.2 <==> k !in Keys(st.root)
    ensures forall y :: y in Keys(r.0.root) <==> y in Keys(st.root) || y == k
    ensures r.0.size == if r.2 then st.size + 1 else st.size
    ensures !r.2 ==> r.0 == st
    ensures r.1.At? && ValidPath(r.0.root, r.1.path) && KeyAt(r.0.root, r.1.path) == k
    ensures forall p :: ValidPath(st.root, p) ==>
      ValidPath(r.0.root, p) && KeyAt(r.0.root, p) == KeyAt(st.root, p)
  {
    FindCorrect(st.root, k, false);
    var f := Find(st.root, k);
    if f.At? then (st, f, false)
    else
      InsertKeepsPaths(st, k, ());
      var t := BstContainer.Insert(st, k, ()).0;
      GrownMembers(Keys(t.root), Keys(st.root), k);
      FindCorrect(t.root, k, false);
      (t, Find(t.root, k), true)
  }

  /** `erase(pos)`: the element `pos` leads to leaves the set; nothing else does. */
  function Erase(st: SearchTree<()>, pos: Cursor): (r: SearchTree<()>)
    requires IsSet(st) && pos.At? && ValidPath(st.root, pos.path)
    ensures IsSet(r)
    ensures forall y :: y in Keys(r.root) <==> y in Keys(st.root) && y != KeyAt(st.root, pos.path)
    ensures r.size == st.size - 1
  {
    var r := EraseAt(st, pos.path);
    EraseMembers(st, pos.path, r);
    r
  }

  lemma EraseMembers(st: SearchTree<()>, p: seq<Dir>, r: SearchTree<()>)
    requires IsSet(st) && ValidPath(st.root, p) && r == EraseAt(st, p)
    ensures forall y :: y in Keys(r.root) <==> y in Keys(st.root) && y != KeyAt(st.root, p)
  {
    var x := KeyAt(st.root, p);
    IndexHoldsKey(st.root, p);
    OrderedKeysSorted(st.root, false);
    DistinctCount(Keys(st.root), x);
    forall y ensures y in Keys(r.root) <==> y in Keys(st.root) && y != x {
      assert y in Keys(r.root) <==> y in multiset(Keys(r.root));
      assert y in Keys(st.root) <==> y in multiset(Keys(st.root));
    }
  }

  /** `insert_many(args...)`: `insert` on each item in turn. An item's flag is
      true exactly when neither the set nor an earlier item held it, and every
      returned iterator still leads to its item at the end. */
  method InsertMany(st: SearchTree<()>, keys: seq<int>) returns (r: SearchTree<()>, res: seq<(Cursor, bool)>)
    requires IsSet(st)
    ensures IsSet(r)
    ensures forall y :: y in Keys(r.root) <==> y in Keys(st.root) || y in keys
    ensures |res| == |keys| && Leads(r.root, res, keys, |keys|)
    ensures forall i :: 0 <= i < |keys| ==> (res[i].1 <==> keys[i] !in Keys(st.root) && keys[i] !in keys[..i])
  {
    r, res := st, [];
    for i := 0 to |keys|
      invariant IsSet(r) && |res| == i
      invariant forall y :: y in Keys(r.root) <==> y in Keys(st.root) || y in keys[..i]
      invariant Leads(r.root, res, keys, i)
      invariant forall j :: 0 <= j < i ==> (res[j].1 <==> keys[j] !in Keys(st.root) && keys[j] !in keys[..j])
    {
      var step := Insert(r, keys[i]);
      MembersGrow(Keys(r.root), Keys(step.0.root), Keys(st.root), keys, i);
      LeadsStep(r.root, step.0.root, step.1, step.2, res, keys, i);
      r, res := step.0, res + [(step.1, step.2)];
    }
    assert keys[..|keys|] == keys;
  }
}

=== FILE: vector.dfy ===
/**
  s21::vector: a growable buffer. The model keeps the live elements (the first
  `size_` slots), the capacity, and whether the buffer pointer is non-null;
  the slots past the size hold nothing the model needs. Iterators are indices.
  `max_size()` depends on the platform and the element size, so it is a
  parameter of the operations that consult it.
*/
module Vector {
  import opened Wrappers
  import opened SeqOrder

  datatype Vector<T> = Vector(elems: seq<T>, capacity: nat, buffer: bool)

  /** The size never exceeds the capacity, and a null buffer holds nothing. */
  predicate Valid<T>(v: Vector<T>) {
    |v.elems| <= v.capacity && (!v.buffer ==> |v.elems| == 0)
  }

  /** The next insert may write a slot without reallocating only into a real
      buffer: a spare capacity with a null buffer (left by `clear`) is a write
      through a null pointer. */
  predicate Writable<T>(v: Vector<T>) {
    |v.elems| < v.capacity ==> v.buffer
  }

  /** The growth policy of `insert` on a full vector: 1 when the capacity was
      0, twice the capacity otherwise. */
  function Grown(capacity: nat): (c: nat)
    ensures c > capacity
    ensures capacity > 0 ==> c == 2 * capacity
  {
    if capacity == 0 then 1 else capacity * 2
  }

  /** `vector()`: no buffer, size and capacity 0. */
  function Default<T>(): (v: Vector<T>)
    ensures Valid(v) && Writable(v) && |v.elems| == 0 && v.capacity == 0 && !v.buffer
  {
    Vector([], 0, false)
  }

  /** `vector(n)`: a fresh buffer of `n` slots, all counted in the size. Their
      values are indeterminate; `contents` stands for whatever they hold. */
  function Sized<T>(contents: seq<T>): (v: Vector<T>)
    ensures Valid(v) && Writable(v)
    ensures |v.elems| == |contents| && v.capacity == |contents| && v.buffer
  {
    Vector(contents, |contents|, true)
  }

  /** `vector(items)`: exactly the items, with capacity equal to their number. */
  function FromList<T>(items: seq<T>): (v: Vector<T>)
    ensures Valid(v) && Writable(v)
    ensures v.elems == items && v.capacity == |items| && v.buffer
  {
    Vector(items, |items|, true)
  }

  /** Copy constructor: `vector(v.size())` filled from `v`, so the copy's
      capacity is the source's size, not its capacity. */
  function Copy<T>(v: Vector<T>): (r: Vector<T>)
    ensures Valid(r) && Writable(r)
    ensures r.elems == v.elems && r.capacity == |v.elems| && r.buffer
  {
    Sized(v.elems)
  }

  /** Copy assignment `dst = src`: a no-op on self-assignment; otherwise a
      fresh buffer of `src`'s capacity holding `src`'s elements. */
  function Assign<T>(dst: Vector<T>, src: Vector<T>, self: bool): (r: Vector<T>)
    requires self ==> dst == src
    requires Valid(src)
    ensures Valid(r)
    ensures r.elems == src.elems
    ensures !self ==> r.capacity == src.capacity && r.buffer
    ensures self ==> r == dst
  {
    if self then dst else Vector(src.elems, src.capacity, true)
  }

  /** Move constructor: the new vector takes the buffer; the source is left
      with no buffer and size and capacity 0. Result: (new vector, source). */
  function Move<T>(v: Vector<T>): (r: (Vector<T>, Vector<T>))
    ensures r.0 == v
    ensures |r.1.elems| == 0 && r.1.capacity == 0 && !r.1.buffer
  {
    (v, Default())
  }

  /** `swap(other)`: a copy of `other` is made, `other` is copy-assigned from
      this, then this from the copy. The elements are exchanged; this ends up
      with capacity equal to `other`'s old size, `other` with this's old
      capacity. Swapping a vector with itself keeps the elements and trims the
      capacity to the size. Result: (this, other). */
  function Swap<T>(a: Vector<T>, b: Vector<T>, self: bool): (r: (Vector<T>, Vector<T>))
    requires Valid(a) && Valid(b)
    requires self ==> a == b
    ensures Valid(r.0) && Valid(r.1)
    ensures r.0.elems == b.elems && r.1.elems == a.elems
    ensures r.0.capacity == |b.elems|
    ensures !self ==> r.1.capacity == a.capacity
    ensures self ==> r.0 == r.1
  {
    var tmp := Copy(b);
    var b1 := Assign(b, a, self);
    var a1 := Assign(if self then b1 else a, tmp, false);
    if self then (a1, a1) else (a1, b1)
  }

  /** `at(pos)` and `operator[]`: no bounds check, so `pos` must lie below the
      size. */
  function At<T>(v: Vector<T>, pos: nat): (x: T)
    requires pos < |v.elems|
    ensures x in v.elems
  {
    v.elems[pos]
  }

  /** `front()`: slot 0, which must hold an element. */
  function Front<T>(v: Vector<T>): (x: T)
    requires |v.elems| > 0
    ensures x == At(v, 0)
  {
    v.elems[0]
  }

  /** `back()`: slot `size - 1`, which must hold an element. */
  function Back<T>(v: Vector<T>): (x: T)
    requires |v.elems| > 0
    ensures x == At(v, |v.elems| - 1)
  {
    v.elems[|v.elems| - 1]
  }

  /** `end()`: the index of the last element, `size - 1`, so `end() + 1` is
      where `push_back` inserts. */
  function End<T>(v: Vector<T>): (p: int)
    ensures p + 1 == |v.elems|
  {
    |v.elems| - 1
  }

  /** `empty()` as written: it tests the buffer pointer, not the size. */
  function Empty<T>(v: Vector<T>): (b: bool)
    requires Valid(v)
    ensures b <==> !v.buffer
    ensures b ==> |v.elems| == 0
  {
    !v.buffer
  }

  /** `vector(0)` allocates a zero-length buffer, which is not null, so
      `empty()` as written reports it non-empty although its size is 0. */
  lemma EmptyMissesSizedZero()
    ensures |Sized<int>([]).elems| == 0 && !Empty(Sized<int>([]))
  {
  }

  /** `empty()` as evidently intended: true exactly when the size is 0. It
      agrees with the as-written test whenever that one answers true. */
  function IsEmpty<T>(v: Vector<T>): (b: bool)
    ensures b <==> |v.elems| == 0
    ensures Valid(v) && Empty(v) ==> b
  {
    |v.elems| == 0
  }

  /** `reserve(n)`: length_error above `max_size()`; a request at least the
      size reallocates to capacity exactly `n` (possibly below the old
      capacity); a request below the size changes nothing. */
  function Reserve<T>(v: Vector<T>, n: nat, maxSize: nat): (r: Result<Vector<T>>)
    requires Valid(v)
    ensures r.Err? <==> n > maxSize
    ensures r.Err? ==> r.error == LengthError
    ensures r.Ok? ==> Valid(r.value) && r.value.elems == v.elems
    ensures r.Ok? && n >= |v.elems| ==> r.value.capacity == n && r.value.buffer
    ensures r.Ok? && n < |v.elems| ==> r.value == v
  {
    if n > maxSize then Err(LengthError)
    else if n >= |v.elems| then Ok(Vector(v.elems, n, true))
    else Ok(v)
  }

  /** `shrink_to_fit()`: when there is spare capacity, reallocate to exactly
      the size; the elements stay. */
  function ShrinkToFit<T>(v: Vector<T>): (r: Vector<T>)
    requires Valid(v)
    ensures Valid(r) && r.elems == v.elems && r.capacity == |v.elems|
    ensures v.capacity == |v.elems| ==> r == v
  {
    if v.capacity > |v.elems| then Sized(v.elems) else v
  }

  /** `clear()` as written: the buffer is freed and the size reset, but the
      capacity keeps its old value. */
  function Clear<T>(v: Vector<T>): (r: Vector<T>)
    ensures Valid(r) && |r.elems| == 0 && !r.buffer
    ensures r.capacity == v.capacity
  {
    Vector([], v.capacity, false)
  }

  /** After `clear()` as written on a vector with spare capacity, the next
      insert writes through the null buffer: the state is not writable. */
  lemma ClearLosesWritability<T>(v: Vector<T>)
    requires v.capacity > 0
    ensures !Writable(Clear(v))
  {
  }

  /** `clear()` as evidently intended: the capacity is released with the
      buffer, so the next insert reallocates. */
  function ClearReleasing<T>(v: Vector<T>): (r: Vector<T>)
    ensures Valid(r) && Writable(r) && |r.elems| == 0
    ensures IsEmpty(r) && Empty(r)
  {
    Default()
  }

  /** The element-shifting loop of `insert`: slots `size` down to `idx + 1`
      take their left neighbour, then `value` goes into slot `idx`. */
  method ShiftIn<T>(s: seq<T>, idx: nat, x: T) returns (buf: seq<T>)
    requires idx <= |s|
    ensures buf == s[..idx] + [x] + s[idx..]
  {
    buf := s + [x];
    var i := |s|;
    while i > idx
      invariant idx <= i <= |s| && |buf| == |s| + 1
      invariant forall k :: 0 <= k < i ==> buf[k] == s[k]
      invariant forall k :: i < k <= |s| ==> buf[k] == s[k - 1]
    {
      buf := buf[i := buf[i - 1]];
      i := i - 1;
    }
    buf := buf[idx := x];
  }

  /** The element-shifting loop of `erase`: slots `idx` to `size - 2` take
      their right neighbour; the last slot drops out of the size. */
  method ShiftOut<T>(s: seq<T>, idx: nat) returns (r: seq<T>)
    requires idx < |s|
    ensures r == s[..idx] + s[idx + 1..]
  {
    var buf := s;
    for i := idx to |s| - 1
      invariant |buf| == |s|
      invariant forall k :: 0 <= k < idx ==> buf[k] == s[k]
      invariant forall k :: idx <= k < i ==> buf[k] == s[k + 1]
      invariant forall k :: i <= k < |s| ==> buf[k] == s[k]
    {
      buf := buf[i := buf[i + 1]];
    }
    r := buf[..|s| - 1];
  }

  /** `insert(pos, value)`: a full vector first grows by `Grown` (through
      `reserve`, which may raise length_error), then the tail shifts right and
      `value` lands at `idx`; the returned iterator points at it. */
  method Insert<T>(v: Vector<T>, idx: nat, x: T, maxSize: nat) returns (r: Result<(Vector<T>, nat)>)
    requires Valid(v) && Writable(v) && idx <= |v.elems|
    ensures r.Err? <==> |v.elems| >= v.capacity && Grown(v.capacity) > maxSize
    ensures r.Err? ==> r.error == LengthError
    ensures r.Ok? ==> Valid(r.value.0) && Writable(r.value.0) && r.value.0.buffer
    ensures r.Ok? ==> r.value.0.elems == v.elems[..idx] + [x] + v.elems[idx..] && r.value.1 == idx
    ensures r.Ok? ==> r.value.0.capacity == if |v.elems| >= v.capacity then Grown(v.capacity) else v.capacity
  {
    var w := v;
    if |v.elems| >= v.capacity {
      var g := Reserve(v, Grown(v.capacity), maxSize);
      if g.Err? {
        return Err(g.error);
      }
      w := g.value;
    }
    var buf := ShiftIn(w.elems, idx, x);
    r := Ok((Vector(buf, w.capacity, w.buffer), idx));
  }

  /** `erase(pos)`: the tail shifts left over `idx` and the size drops by one;
      the capacity stays. An empty vector would underflow the size, so `idx`
      must hold an element. */
  method Erase<T>(v: Vector<T>, idx: nat) returns (r: Vector<T>)
    requires Valid(v) && idx < |v.elems|
    ensures Valid(r) && Writable(r)
    ensures r.elems == v.elems[..idx] + v.elems[idx + 1..]
    ensures multiset(r.elems) == multiset(v.elems) - multiset{v.elems[idx]}
    ensures r.capacity == v.capacity && r.buffer == v.buffer
  {
    var s := ShiftOut(v.elems, idx);
    RemoveAtMultiset(v.elems, idx);
    r := Vector(s, v.capacity, v.buffer);
  }

  /** `push_back(value)`: `insert(end() + 1, value)`, i.e. at index `size`. */
  method PushBack<T>(v: Vector<T>, x: T, maxSize: nat) returns (r: Result<Vector<T>>)
    requires Valid(v) && Writable(v)
    ensures r.Err? <==> |v.elems| >= v.capacity && Grown(v.capacity) > maxSize
    ensures r.Ok? ==> Valid(r.value) && r.value.elems == v.elems + [x]
    ensures r.Ok? ==> r.value.capacity == if |v.elems| < v.capacity then v.capacity else Grown(v.capacity)
  {
    var i := Insert(v, End(v) + 1, x, maxSize);
    if i.Err? {
      return Err(i.error);
    }
    assert v.elems[..|v.elems|] == v.elems;
    r := Ok(i.value.0);
  }

  /** `pop_back()`: `erase(end())`, which needs a last element. */
  method PopBack<T>(v: Vector<T>) returns (r: Vector<T>)
    requires Valid(v) && |v.elems| > 0
    ensures Valid(r) && r.elems == v.elems[..|v.elems| - 1]
    ensures r.capacity == v.capacity
  {
    r := Erase(v, End(v));
  }

  /** `insert_many(pos, args...)`: each argument in order is inserted at the
      running position, which then moves past it; the result is the position
      after the last inserted element (so `pos` itself when there are none). */
  method InsertMany<T>(v: Vector<T>, pos: nat, items: seq<T>, maxSize: nat) returns (r: Result<(Vector<T>, nat)>)
    requires Valid(v) && Writable(v) && pos <= |v.elems|
    ensures r.Err? ==> r.error == LengthError
    ensures r.Ok? ==> Valid(r.value.0) && Writable(r.value.0)
    ensures r.Ok? ==> r.value.0.elems == v.elems[..pos] + items + v.elems[pos..]
    ensures r.Ok? ==> r.value.1 == pos + |items|
    ensures 2 * (|v.elems| + |items|) <= maxSize ==> r.Ok?
  {
    var w, idx := v, pos;
    for k := 0 to |items|
      invariant Valid(w) && Writable(w) && idx == pos + k
      invariant |w.elems| == |v.elems| + k
      invariant w.elems == v.elems[..pos] + items[..k] + v.elems[pos..]
    {
      var step := Insert(w, idx, items[k], maxSize);
      if step.Err? {
        return Err(step.error);
      }
      assert w.elems[..idx] == v.elems[..pos] + items[..k];
      assert w.elems[idx..] == v.elems[pos..];
      assert items[..k + 1] == items[..k] + [items[k]];
      w, idx := step.value.0, step.value.1 + 1;
    }
    assert items[..|items|] == items;
    r := Ok((w, idx));
  }

  /** `insert_many_back(args...)`: `insert_many(end() + 1, args...)`. */
  method InsertManyBack<T>(v: Vector<T>, items: seq<T>, maxSize: nat) returns (r: Result<Vector<T>>)
    requires Valid(v) && Writable(v)
    ensures r.Err? ==> r.error == LengthError
    ensures r.Ok? ==> Valid(r.value) && r.value.elems == v.elems + items
    ensures 2 * (|v.elems| + |items|) <= maxSize ==> r.Ok?
  {
    var m := InsertMany(v, End(v) + 1, items, maxSize);
    if m.Err? {
      return Err(m.error);
    }
    assert v.elems[..|v.elems|] == v.elems && v.elems[|v.elems|..] == [];
    r := Ok(m.value.0);
  }
}

=== FILE: wrappers.dfy ===
/** Failure-carrying results used for the exceptions the containers throw. */
module Wrappers {

  /** The exception classes the containers raise. */
  datatype Error =
    | OutOfRange   // std::out_of_range: empty list/stack/queue, missing map key, array index
    | LengthError  // std::length_error: capacity request above max_size()

  datatype Option<T> = None | Some(value: T)

  datatype Result<T> = Ok(value: T) | Err(error: Error) {
    predicate IsFailure() {
      Err?
    }
  }
}
